=== FILE: README.md ===
# Shop backend core, modelled in Dafny

This project models the service layer of a small FastAPI/SQLModel shop
backend, in which shoppers, vendors, products and orders are stored in
relational tables. The modelled core is:

- **The generic repository** (`BaseRepository`). Rows are added under an
  autoincrement key and looked up by id or by one property. Updating a row
  means dumping the update schema, dropping its `None` fields and writing the
  rest; an update with nothing left is rejected. Rows are hard-deleted.
- **The HTTP exceptions.** `BadRequest` (400) and `NotFound` (404) either take
  a caller's `detail` or generate a text from the resource name and id.
  `CredentialsException` is a 401 with optional headers. A commit that the
  database refuses raises an IntegrityError that nothing catches; it is
  modelled as `DatabaseError` (500), naming the refusing column.
- **The services.** The shopper, vendor and product services do
  lookup-or-NotFound, registration, partial update and delete. The order
  service adds product validation and order-line registration. The product
  service prices order lines (`enrich_item`).
- **The shopping cart.** It is stored as a JSON column on the shopper.
  `add_to_cart` merges into the first entry for the product or appends one.
  `remove_from_cart` decrements or deletes that entry. `clear_shopping_cart`
  empties the cart.
- **Authentication.** Login checks the credentials against both the shopper
  table and the vendor table and issues a JWT carrying the email. The current
  user is resolved from the token: a shopper first, then a vendor.
- **The seed state machine.** A profile selects a generator registry, and
  each table is seeded in the order vendors, shoppers, products, orders, but
  only when that table is empty. The fixture data of the minimal profile is
  included.

The database is an immutable value `Database.Db` with one
`Repository.Table` per entity. Every service operation is a pure function
from a database to a `Result`. It returns either the new database and the
row, or the exception the source would raise. The following come in as
parameters:

- The clock is a `now: Date` argument.
- bcrypt and the JWT codec are the function fields of `Login.Crypto`.
- The seed's password hashing is a `hash` function.

Units:

- Money is in integer cents. Ratings and percentages are in hundredths.
- Timestamps are calendar dates (`Calendar.Date`). Python's
  `datetime(y, m, d)` and `timedelta` arithmetic are modelled there
  (`ValidDate`, `NextDay`, `PrevDay`, `AddDays`).

The database enforces the schema's foreign keys (`product.vendor_id`,
`order.shopper_id`, `order_item.order_id`, `order_item.product_id`) and its NOT
NULL columns. `Database.ForeignKeysHold` and `Database.NotNullHold` state
them. Deleting a vendor detaches its products: `Product.vendor` back-populates
`Vendor.products`, so the ORM sets their `vendor_id` to NULL. Deleting an
order likewise nulls its lines' `order_id`, which the NOT NULL column refuses.
No relationship leads from a shopper to its orders or from a product to its
lines, so deleting either while still named is refused by the key. Product
registration and order placement are refused by the key when the vendor or
shopper id names no row. The proofs show that these writes keep both
invariants when the database accepts them: the four deletes, product
registration, order update, and intended order placement. Seeding is not
covered (see Left out).

Every update schema has a reference definition, `Patch`, which says field by
field what a partial update means. The proofs relate the repository's
dump/filter/assign pipeline to it. The seeded fixtures are proved
referentially closed: no dangling vendor, shopper, product or order id.

Where the code's own documentation and the code disagree, the model follows
the code:

- The `get_current_user` docstring
  (server/app/core/auth/current_user.py:29-30) says it raises when the user
  cannot be found. The code returns `None` for a valid token whose email
  belongs to nobody.
- The comment on `OrderItem.unit_price`
  (server/app/services/order/model.py:81) says it is the price at the time of
  order. `register_order` builds the order from the request alone, and copies
  the lines' prices as the request gave them. It does not snapshot the
  product's current price; only `enrich_item` does that, and order placement
  does not call it. As written it can never store an order (see Findings).
  `OrderService.RegisterOrderAsWritten` models that code, and
  `OrderService.RegisterOrder` models the evidently intended placement.
- The `add_to_cart` docstring (server/app/services/shopper/service.py:135-136)
  names only a missing shopper. The code also raises the product service's
  `NotFound` ("Product not found") for a missing product.

## Model

| member | source | states |
|---|---|---|
| Exceptions.GeneratedMessage | server/app/core/utils/exceptions.py:12-16 | The generated text starts with the resource name and ends with "is invalid or the request was malformed". With an id, exactly " #id" sits between them; without one, nothing does. |
| Exceptions.Message | server/app/core/utils/exceptions.py:12-16 | `detail or (...)`: a present, non-empty detail is the message; a missing or empty one falls back to the generated text. |
| Exceptions.MakeBadRequest | server/app/core/utils/exceptions.py:6-17 | A BadRequest is status 400 and carries the detail-or-generated message. |
| Exceptions.MakeNotFound | server/app/core/utils/exceptions.py:20-31 | A NotFound is status 404 and carries the detail-or-generated message. |
| Exceptions.MakeCredentials | server/app/core/utils/exceptions.py:34-40 | A CredentialsException is status 401 with the given detail and headers. |
| Exceptions.DefaultCredentials | server/app/core/utils/exceptions.py:37-40 | With no arguments, a CredentialsException says "Could not validate credentials" and has no headers. |
| Exceptions.NotFoundSharesBadRequestText | server/app/core/utils/exceptions.py:20-31 | NotFound builds the same message as BadRequest from the same arguments; the two errors still differ. |
| Exceptions.GeneratedMessageNamesId | server/app/core/utils/exceptions.py:12-16 | The generated text determines the resource id: equal texts come from equal ids, and a text with an id never equals the one without. |
| Text.NatToStringRoundTrip | server/app/services/product/service.py:164-166 | The decimal digits that an f-string renders for a natural number read back as that number. |
| Text.IntToStringRoundTrip | server/app/services/product/service.py:164-166 | `int(str(n)) == n` for every integer, minus sign included. |
| Users.ParseUserStatus | server/app/core/db/user.py:7-11 | `UserStatus(s)` finds only a member whose value is `s`. |
| Users.UserStatusRoundTrip | server/app/core/db/user.py:7-11 | Every member is recovered from its string value. |
| Repository.GetItemId | server/app/core/repository.py:57-67 | The row stored under the key, or None exactly when no row has that key. |
| Repository.AddItem | server/app/core/repository.py:34-44 | The record is stored under the next key of the sequence, that key is returned, and no other row changes. On a valid table the key was unused and the table stays valid. |
| Repository.AddItems | server/app/core/repository.py:34-44 | Repeated `add_item`: record i is stored under `nextId + i`, the sequence advances by the count, and other keys are untouched. |
| Repository.FindFrom | server/app/core/repository.py:69-84 | The first key at or after `from`, in key order, whose row has the property value; None when no such key exists. |
| Repository.GetItemByProperty | server/app/core/repository.py:69-84 | A row whose property equals the value, and on a valid table the lowest such key. None exactly when no row matches. |
| Repository.NonNoneFields | server/app/core/repository.py:100 | The dict comprehension keeps exactly the dumped fields whose value is not None, with their values. |
| Repository.UpdateItem | server/app/core/repository.py:86-127 | BadRequest "No update data provided" exactly when every dumped field is None. Otherwise only that row is rewritten with the non-None fields, and the sequence does not move. |
| Repository.DeleteItem | server/app/core/repository.py:129-142 | The row is gone, every other key is unchanged, and the sequence does not move. |
| ShopperModel.FilteredDump | server/app/core/repository.py:100 | Filtering a shopper update's dump keeps exactly its set fields, each with its value. |
| ShopperModel.AssignSetColumns | server/app/core/repository.py:105-109 | Writing a column map that holds exactly the set fields is the field-by-field reference patch. |
| ShopperModel.DumpThenAssignIsPatch | server/app/core/repository.py:100-109 | Dump, filter and assign together equal the reference patch of a shopper. |
| ShopperModel.DumpAllNoneIffNoFieldSet | server/app/core/repository.py:100-103 | A shopper update is rejected as empty exactly when it sets no field. |
| VendorModel.FilteredDump | server/app/core/repository.py:100 | Filtering a vendor update's dump keeps exactly its set fields, each with its value. |
| VendorModel.AssignSetColumns | server/app/core/repository.py:105-109 | Writing a column map that holds exactly the set fields is the field-by-field reference patch. |
| VendorModel.DumpThenAssignIsPatch | server/app/core/repository.py:100-109 | Dump, filter and assign together equal the reference patch of a vendor. |
| VendorModel.DumpAllNoneIffNoFieldSet | server/app/core/repository.py:100-103 | A vendor update is rejected as empty exactly when it sets no field. |
| ProductModel.EnumValuesRoundTrip | server/app/services/product/model.py:18-43 | There are exactly six categories and four statuses. Each is recovered from its string value, and a string parses only to the member it names. |
| ProductModel.NewProductCreate | server/app/services/product/model.py:46-60 | A ProductCreate with only the required fields has category OTHER, no tags and no SKU. |
| ProductModel.ProductFromCreate | server/app/services/product/model.py:63-82 | A new product keeps the request's fields, gets the vendor and creation date, and starts ACTIVE with no rating, stock or update time, zero counters and zero discount. |
| ProductModel.FilteredDump | server/app/services/product/model.py:110-129 | Filtering a product update's dump keeps exactly its set fields, each with its value. |
| ProductModel.AssignListingColumns | server/app/services/product/model.py:117-122 | For the name, price, description, category, tags and SKU columns, writing exactly the set fields is the reference patch. |
| ProductModel.AssignTrackingColumns | server/app/services/product/model.py:123-129 | For the rating, stock, status, timestamp, counter and discount columns, writing exactly the set fields is the reference patch. |
| ProductModel.AssignSetColumns | server/app/services/product/model.py:110-129 | Writing a column map that holds exactly the set fields is the reference patch of a product. |
| ProductModel.DumpThenAssignIsPatch | server/app/services/product/model.py:110-129 | Dump, filter and assign together equal the reference patch of a product. |
| ProductModel.DumpAllNoneIffNoFieldSet | server/app/services/product/model.py:110-129 | A product update is rejected as empty exactly when it sets no field. |
| OrderModel.EnumValuesRoundTrip | server/app/services/order/model.py:24-43 | There are exactly three order statuses and three payment statuses. Each is recovered from its string value, and a string parses only to the member it names. |
| OrderModel.NewOrderItemCreate | server/app/services/order/model.py:50-56 | A requested line with only product and quantity has no unit or total price. |
| OrderModel.OrderItemFromCreate | server/app/services/order/model.py:71-82 | A stored line is the requested line attached to its order, with the prices exactly as requested. |
| OrderModel.FirstUnpriced | server/app/services/order/model.py:50-56 | The position of the first request line lacking a unit or total price: every line before it has both, and it lacks one; the line count when all are priced. |
| OrderModel.StorableIffPriced | server/app/services/order/model.py:55-82 | A stored line satisfies the NOT NULL `unit_price` and `total_price` columns exactly when the request line carried both prices. |
| OrderModel.NewOrderCreate | server/app/services/order/model.py:93-124 | An OrderCreate with only the required fields is PENDING payment, with zero discount, tax and shipping and no optional shipping data. |
| OrderModel.OrderFromCreate | server/app/services/order/model.py:128-144 | A new order keeps the request's OrderBase fields and belongs to the shopper. It starts IN_PROGRESS with no update or delivery time and, since the request carries none, no total. |
| OrderModel.PlacedOrder | server/app/services/order/model.py:128-141 | The order placement should store: the request's order with its required total set to subtotal + tax + shipping − discount, and otherwise the same row. |
| OrderModel.NewOrderDefaults | server/app/services/order/model.py:93-144 | Placing a minimal request stores an order whose total equals its subtotal, because tax, shipping and discount default to zero. It is IN_PROGRESS and PENDING. |
| OrderModel.FilteredDump | server/app/services/order/model.py:183-212 | Filtering an order update's dump keeps exactly its set fields, each with its value. |
| OrderModel.AssignFulfilmentColumns | server/app/services/order/model.py:190-201 | For the status, payment and shipping columns, writing exactly the set fields is the reference patch. |
| OrderModel.AssignAmountColumns | server/app/services/order/model.py:203-212 | For the discount, amount and timestamp columns, writing exactly the set fields is the reference patch. |
| OrderModel.AssignSetColumns | server/app/services/order/model.py:183-212 | Writing a column map that holds exactly the set fields is the reference patch of an order. |
| OrderModel.DumpThenAssignIsPatch | server/app/services/order/model.py:183-212 | Dump, filter and assign together equal the reference patch of an order. |
| OrderModel.DumpAllNoneIffNoFieldSet | server/app/services/order/model.py:183-212 | An order update is rejected as empty exactly when it sets no field. |
| Cart.Normalize | server/app/services/shopper/service.py:141-142 | A missing cart becomes `{"items": [], "updated_at": None}`; an existing cart is kept. |
| Cart.IndexOf | server/app/services/shopper/service.py:149-153 | The position at which the scan breaks: the first entry for the product, with no earlier one. None exactly when no entry has the product. |
| Cart.IndexOfIs | server/app/services/shopper/service.py:149-153 | A position holding the product, with no earlier entry for it, is the one the scan finds. |
| Cart.SameIdsSameIndex | server/app/services/shopper/service.py:149-153 | Rewriting quantities without touching product ids leaves the scan's answer unchanged for every product. |
| Cart.AppendIndex | server/app/services/shopper/service.py:155-159 | Appending an entry for an absent product is found at the end, and every other product is found where it was. |
| Cart.AppendIds | server/app/services/shopper/service.py:155-159 | Appending adds exactly the new product to the cart's product set, and keeps a duplicate-free cart duplicate-free when the product was absent. |
| Cart.DeleteKeepsOther | server/app/services/shopper/service.py:195-200 | Popping a product's first entry leaves every other product's quantity unchanged. |
| Cart.DeleteUnique | server/app/services/shopper/service.py:195-200 | Popping an entry from a duplicate-free cart keeps it duplicate-free and removes that product entirely. |
| Cart.AddEntry | server/app/services/shopper/service.py:148-159 | If the product is present, only its first entry changes, raised by the quantity. Otherwise one new entry is appended at the end. |
| Cart.AddEntryCounts | server/app/services/shopper/service.py:148-159 | Adding raises this product's quantity by the amount and no other product's. The product joins the product set, and no duplicate entry is created. |
| Cart.RemoveEntry | server/app/services/shopper/service.py:193-204 | An absent product leaves the items as they are. Otherwise the first entry is popped when the quantity is None or covers it, and decremented when not. Other products' quantities never change, and duplicate-freedom is kept. |
| Cart.AddEntryAt | server/app/services/shopper/service.py:150-153 | Adding to a product found at position i overwrites exactly position i with the raised quantity. |
| Cart.MergesIntoExisting | server/app/services/shopper/service.py:150-153 | For a product already in the cart, adding a and then b is adding a + b. |
| Cart.MergesIntoAppended | server/app/services/shopper/service.py:155-159 | For an absent product, adding a and then b leaves one appended entry holding a + b. |
| Cart.AddEntryMerges | server/app/services/shopper/service.py:148-159 | Two additions of the same product never create a second entry: adding a then b equals adding a + b. |
| Cart.RemoveUndoesAdd | server/app/services/shopper/service.py:148-204 | Adding a product the cart lacked and then removing it with quantity None gives back the original items. |
| Cart.CoveringRemoveUndoesAdd | server/app/services/shopper/service.py:148-204 | Adding a product the cart lacked and then removing at least as many units gives back the original items; with the default quantity 1, adding one unit and removing it does. |
| Cart.AddUndoesPartialRemove | server/app/services/shopper/service.py:148-204 | Removing fewer units than an entry holds and adding them back gives back the original items. |
| ShopperService.GetShopperId | server/app/services/shopper/service.py:50-67 | The stored shopper, or NotFound "User not found" (404) exactly when the id is missing. |
| ShopperService.GetShopperEmail | server/app/services/shopper/service.py:69-86 | A shopper holding that email, or NotFound exactly when no shopper has it. |
| ShopperService.UpdateShopper | server/app/services/shopper/service.py:88-107 | A missing id is NotFound before any emptiness check. An update setting no field is BadRequest. Otherwise that shopper becomes the reference patch, and no other row or table changes. |
| ShopperService.DeleteShopper | server/app/services/shopper/service.py:109-122 | NotFound exactly for a missing id. For a stored shopper, a 500 refusal by `order.shopper_id` exactly when some order names the shopper. Otherwise that shopper is gone and nothing else changes. |
| ShopperService.DeleteKeepsForeignKeys | server/app/services/order/model.py:136 | A shopper delete the database accepts leaves every foreign key naming a stored row and every NOT NULL column set. |
| ShopperService.CartUpdate | server/app/services/shopper/service.py:165 | An update that carries only the cart is never empty, so it never meets "No update data provided". |
| ShopperService.SaveCart | server/app/services/shopper/service.py:164-168 | Saving a cart through `update_shopper` succeeds for a stored shopper and replaces its cart and nothing else. |
| ShopperService.AddToCart | server/app/services/shopper/service.py:125-168 | A missing shopper, then a missing product, is NotFound, and nothing is written. Otherwise the shopper's (normalised) cart has the item merged in and is stamped now; only that shopper changes. |
| ShopperService.RemoveFromCart | server/app/services/shopper/service.py:170-214 | NotFound exactly for a missing shopper. A shopper without a cart gets the unstamped empty cart. Otherwise the product's first entry is decremented or popped and the cart is stamped; only that shopper changes. |
| ShopperService.ClearShoppingCart | server/app/services/shopper/service.py:216-235 | NotFound exactly for a missing shopper. Otherwise the cart is empty and stamped now, and only that shopper changes. |
| ShopperService.StoredCartKeepsProductsUnique | server/app/services/shopper/service.py:164-168 | Storing one shopper whose cart has no duplicate product, with all other rows unchanged, keeps every stored cart duplicate-free. |
| ShopperService.AddToCartKeepsProductsUnique | server/app/services/shopper/service.py:125-168 | `add_to_cart` keeps every stored cart free of duplicate products. |
| ShopperService.RemoveFromCartKeepsProductsUnique | server/app/services/shopper/service.py:170-214 | `remove_from_cart` keeps every stored cart free of duplicate products. |
| ShopperService.ClearShoppingCartKeepsProductsUnique | server/app/services/shopper/service.py:216-235 | `clear_shopping_cart` keeps every stored cart free of duplicate products. |
| ShopperService.RemovingAbsentProductRestampsOnly | server/app/services/shopper/service.py:193-211 | Removing a product the cart does not hold is no error: the items stay as they are and only the timestamp moves. |
| ShopperService.ClearedCartHoldsNothing | server/app/services/shopper/service.py:216-235 | After clearing, the cart holds no product at all. |
| ShopperService.AddTwiceMerges | server/app/services/shopper/service.py:148-168 | Adding 2 and then 3 units of a product to a shopper with no cart leaves one entry with 5 units. |
| VendorService.GetVendorId | server/app/services/vendor/service.py:46-63 | The stored vendor, or NotFound "User not found" (404) exactly when the id is missing. |
| VendorService.GetVendorEmail | server/app/services/vendor/service.py:65-82 | A vendor holding that email, or NotFound exactly when no vendor has it. |
| VendorService.UpdateVendor | server/app/services/vendor/service.py:84-101 | A missing id is NotFound before any emptiness check. An update setting no field is BadRequest. Otherwise that vendor becomes the reference patch, and nothing else changes. |
| VendorService.DeleteVendor | server/app/services/vendor/service.py:103-116 | NotFound exactly for a missing id. Otherwise the vendor is gone, and no product names it any more. Each of its products keeps every other field, and its vendor id becomes NULL. Every other product, and every other table, is unchanged. |
| VendorService.DeleteKeepsForeignKeys | server/app/services/product/model.py:71 | A vendor delete the database accepts leaves every foreign key naming a stored row and every NOT NULL column set. |
| VendorService.UpdatedEmailIsFound | server/app/services/vendor/service.py:65-101 | After an update that sets only the email, a lookup by that email finds the updated vendor, unless a lower id already holds the email. |
| ProductService.GetProductId | server/app/services/product/service.py:52-69 | The stored product, or NotFound "Product not found" (404) exactly when the id is missing. |
| ProductService.RegisterProduct | server/app/services/product/service.py:71-88 | A 500 refusal by `product.vendor_id` exactly when no vendor row has the id. Otherwise the request is stored as a new product owned by the vendor, under the next product id, and nothing else changes. |
| ProductService.RegisterKeepsForeignKeys | server/app/services/product/model.py:71 | A registration the database accepts leaves every foreign key naming a stored row and every NOT NULL column set. |
| ProductService.UpdateProduct | server/app/services/product/service.py:90-109 | A missing id is NotFound before any emptiness check. An update setting no field is BadRequest. Otherwise that product becomes the reference patch, and nothing else changes. |
| ProductService.DeleteProduct | server/app/services/product/service.py:111-124 | NotFound exactly for a missing id. For a stored product, a 500 refusal by `order_item.product_id` exactly when some order line names the product. Otherwise that product is gone and nothing else changes. |
| ProductService.DeleteKeepsForeignKeys | server/app/services/order/model.py:79 | A product delete the database accepts leaves every foreign key naming a stored row and every NOT NULL column set. |
| ProductService.RegisterThenGet | server/app/services/product/service.py:52-124 | A stored vendor's registration succeeds, and the product is found under its id, owned by the vendor. When the foreign keys hold, no line names it, so it can be deleted; then that id is NotFound and every other id answers as before. |
| ProductService.MissingProductDetailNamesId | server/app/services/product/service.py:164-166 | The "Product with id … not found" detail reads back to the product id, so different missing products give different messages. |
| ProductService.EnrichItem | server/app/services/product/service.py:143-166 | A line of a stored product gets the product's current price as unit price and price × quantity as total. A missing product is a BadRequest naming its id. |
| ProductService.ValidateAndPrepareOrderItems | server/app/services/product/service.py:126-141 | Ok exactly when every line's product exists, giving one enriched line per request line, in order. Otherwise the error is the BadRequest of the first line whose product is missing. |
| OrderService.GetOrderId | server/app/services/order/service.py:46-52 | The stored order, or NotFound "Order not found" (404) exactly when the id is missing. |
| OrderService.ValidateItemsExist | server/app/services/order/service.py:69-75 | True exactly when every line names a stored product; an empty list is valid. |
| OrderService.ValidationsAgree | server/app/services/order/service.py:69-75 | The placement check and the price enrichment accept exactly the same line lists. |
| OrderService.RegisterOrderItems | server/app/services/order/service.py:77-82 | Lines are committed one by one, each under the next key, attached to the order, with its requested prices. The first line lacking a price is refused with a 500 naming `unit_price` or `total_price`: the lines before it stay, it has used up a key, and the rest are not reached. Older rows are untouched. |
| OrderService.RegisterOrderAsWritten | server/app/services/order/service.py:54-67 | Placement as written never succeeds: BadRequest when some line names a missing product, and otherwise a 500 from the NOT NULL `order.total_value`. |
| OrderService.EmptyOrderIsRefused | server/app/services/order/service.py:54-67 | A request with no lines passes the product check and is still refused for its missing total. |
| OrderService.PriceLine | server/app/services/product/service.py:143-166 | A line of a stored product carries both prices: the product's price as unit price and price × quantity as total. A line of a missing product is left as it came. |
| OrderService.PricedLinesMatchPreparedLines | server/app/services/product/service.py:126-166 | The priced lines carry exactly the unit and total prices that `validate_and_prepare_order_items` computes for the same request. |
| OrderService.RegisterOrder | server/app/services/order/service.py:54-82 | Intended placement. BadRequest, with nothing stored, exactly when some line names a missing product. Otherwise it is a 500 refusal by `order.shopper_id` exactly when no shopper row has the id. Otherwise the order is stored with its total under the next order id, every priced line is accepted after it, and shoppers, vendors and products do not change. |
| OrderService.PlacedOrderOwnsItsLines | server/app/services/order/service.py:54-82 | After a placement the database accepts, the rows attached to the new order are exactly the new lines, in request order, each priced from its product; the foreign keys and NOT NULL columns still hold. |
| OrderService.UpdateOrder | server/app/services/order/service.py:84-89 | A missing id is NotFound before any emptiness check. An update setting no field is BadRequest. Otherwise that order becomes the reference patch, and nothing else changes. |
| OrderService.DeleteOrder | server/app/services/order/service.py:91-93 | NotFound exactly for a missing id. For a stored order, a 500 refusal by the NOT NULL `order_item.order_id` exactly when the order has lines, since the ORM nulls their order id. Otherwise that order is gone and nothing else changes. |
| OrderService.OrderWritesKeepConstraints | server/app/services/order/service.py:84-93 | An accepted update or delete keeps every foreign key naming a stored row and every NOT NULL column set. |
| Login.TokenCarriesEmail | server/app/core/auth/login.py:89-116 | With a sound codec, the email encoded into a token is the email decoded from it. |
| Login.GetShopperByEmail | server/app/core/auth/login.py:135-147 | A shopper row with that email (the lowest id when several share it), or None exactly when no shopper has it. |
| Login.GetVendorByEmail | server/app/core/auth/login.py:150-162 | A vendor row with that email (the lowest id when several share it), or None exactly when no vendor has it. |
| Login.AuthenticateShopper | server/app/core/auth/login.py:56-75 | True exactly when the first shopper with the email has a stored hash that accepts the password; false for an unknown email. |
| Login.AuthenticateVendor | server/app/core/auth/login.py:78-86 | True exactly when the first vendor with the email has a stored hash that accepts the password; false for an unknown email. |
| Login.LoginForAccessToken | server/app/core/auth/login.py:29-53 | 401 "Incorrect username or password" with the Bearer challenge exactly when neither table accepts the credentials. Otherwise a "bearer" token whose payload is `{"email": username}`. |
| Login.UnknownEmailIsRefused | server/app/core/auth/login.py:29-53 | An email that no shopper and no vendor has is refused, whatever the password. |
| CurrentUser.GetCurrentUser | server/app/core/auth/current_user.py:16-45 | "Invalid token error" (401) for a token that does not decode, and "Payload didn't contain expected data" (401) for one without an email. Otherwise the shopper with the email, else the vendor, else None, which is no error. |
| CurrentUser.LoginTokenResolves | server/app/core/auth/current_user.py:32-45 | A token from a successful login resolves to an account with the login email. It is the vendor exactly when no shopper has that email. |
| CurrentUser.SharedEmailResolvesToShopper | server/app/core/auth/current_user.py:40-42 | When a shopper and a vendor share an email and the password matches only the vendor's hash, login still succeeds, and the token resolves to that shopper. |
| Calendar.ReplaceDay | server/app/core/db/seed.py:252 | `datetime(now.year, now.month, now.day + delta)`: a date exactly when the shifted day stays inside the month; otherwise the ValueError, as None. |
| Calendar.AddDays | server/app/core/db/seed.py:252 | `now + timedelta(days=n)`: always a valid date, moving n days across month and year ends. |
| Calendar.AddDaysRoundTrip | server/app/core/db/seed.py:252 | Moving n days and then n days back returns to the starting date. |
| Calendar.AddDaysExtendsReplaceDay | server/app/core/db/seed.py:300 | Wherever the in-month shift succeeds, it gives the same date as real date arithmetic. |
| Calendar.WeekAgoFailsEarlyInMonth | server/app/core/db/seed.py:252 | On 2025-03-05 the week-ago date cannot be built in-month, while a week earlier is 2025-02-26. |
| Calendar.InTwoDaysFailsAtMonthEnd | server/app/core/db/seed.py:300 | On 2025-01-30 the in-two-days date cannot be built in-month, while two days later is 2025-02-01. |
| Seed.ResolveProfile | server/app/core/db/seed.py:378-380 | An unknown profile name falls back to MINIMAL; a known name resolves to the profile with that value. |
| Seed.ResolveProfileRoundTrip | server/app/core/db/seed.py:20-25 | Every profile is recovered from its string value. |
| Seed.MinimalVendors | server/app/core/db/seed.py:34-81 | The minimal profile seeds two vendors. |
| Seed.MinimalShoppers | server/app/core/db/seed.py:84-136 | The minimal profile seeds two shoppers. |
| Seed.MinimalProducts | server/app/core/db/seed.py:139-246 | Six products: the first three belong to vendor 1 and the last three to vendor 2. Laptop, earbuds and dress are priced 999.99, 89.99 and 59.99. |
| Seed.OrdersAt | server/app/core/db/seed.py:249-345 | Two orders, for shoppers 1 and 2, with the lines laptop+earbuds and dress. Each order's subtotal is its line totals and its total is subtotal + tax + shipping − discount. |
| Seed.MinimalOrders | server/app/core/db/seed.py:249-345 | The order fixtures with the week-ago and in-two-days dates computed by real date arithmetic, so they lie exactly 7 days before and 2 days after now. |
| Seed.MinimalOrdersAsWritten | server/app/core/db/seed.py:252-300 | The fixtures as written fail exactly when the day is at most 7 or the day + 2 passes the month's end. Otherwise they equal the corrected fixtures. |
| Seed.AsWrittenOrdersFailNearMonthEnds | server/app/core/db/seed.py:252-300 | Seeding on 2025-03-05 or on 2025-01-30 fails as written, while the corrected fixtures give 2025-02-26 and 2025-02-01. |
| Seed.FixtureOrders | server/app/core/db/seed.py:401-403 | The order rows to insert, one per fixture, in fixture order. |
| Seed.FixtureLines | server/app/core/db/seed.py:314-343 | The lines of all fixtures in fixture order: the lines of fixture i sit right after those of the fixtures before it, each attached to order id first + i, their count is the total line count, and nothing else is inserted. |
| Seed.SeedTableIf | server/app/core/db/seed.py:398-409 | An empty table that is to be seeded receives the items under consecutive keys from its sequence; otherwise it is left alone. Validity is kept. |
| Seed.MinimalFixtures | server/app/core/db/seed.py:349-355 | The minimal registry has 2 vendors, 2 shoppers, 6 products and 2 orders, none of the lists empty. |
| Seed.SeedDatabase | server/app/core/db/seed.py:370-411 | For each table the profile has a generator for: an empty table receives its fixtures, and a non-empty one is skipped. Tables without a generator never change, and validity is kept. |
| Seed.EmptyProfilesSeedNothing | server/app/core/db/seed.py:356-361 | The TESTING and FULL_DEMO profiles leave the database as it was. |
| Seed.NothingToSeed | server/app/core/db/seed.py:391-409 | When no table is both registered and empty, seeding changes nothing. |
| Seed.SeedTwiceIsSeedOnce | server/app/core/db/seed.py:398-409 | Seeding is idempotent: a second run, with any fixtures, changes nothing. |
| Seed.MinimalOrdersAddUp | server/app/core/db/seed.py:139-345 | Every minimal order line is priced at its product's fixture price × quantity, and every order adds up. |
| Seed.MinimalFixturesClosed | server/app/core/db/seed.py:34-345 | The hard-coded vendor, shopper and product ids of the minimal fixtures point inside the fixtures. |
| Seed.FreshSeedKeys | server/app/core/db/seed.py:388-409 | Seeding an empty database stores each fixture list under the keys 1, 2, … in order. |
| Seed.FreshTableKeys | server/app/core/db/seed.py:402-404 | Items appended to a fresh table are stored under the keys 1 … n, in order. |
| Seed.HeldFixturesAreClosed | server/app/core/db/seed.py:348-362 | Tables that hold closed fixtures under the keys 1, 2, … have no dangling vendor, shopper, product or order reference. |
| Seed.FreshSeedIsReferentiallyClosed | server/app/core/db/seed.py:370-411 | Seeding an empty database with closed fixtures leaves every product's vendor, every order's shopper, and every line's product and order in place. |

## Left out

- bcrypt and the JWT codec (`check_password`, `jwt.encode`, `jwt.decode`) are foreign code. They are parameters; `Login.SoundCodec` states the only property relied on.
- `create_password_hash` in the seed uses a random salt. It is a `hash` parameter.
- Logging is left out: it is output only.
- Sessions, commits and refreshes are left out. The only persistence failures modelled are the constraint refusals (`DatabaseError`). The rollback a failed commit needs before the session can be used again is not modelled.
- Concurrency is left out: two requests editing the same cart (a lost update) are not modelled.
- The list endpoints (`get_items`, `get_shoppers`, `get_vendors`, `get_products`, `get_orders`) are left out. Each returns the table unchanged, and there is nothing to state beyond that.
- Timestamps have the granularity of a day, and `datetime.utcnow()` is the `now` parameter.
- Float money, ratings and percentages are integers in hundredths. Float rounding in `price * quantity` is not modelled.
- A cart `{}` or a missing cart, both falsy, is one value, None. A stored cart with an empty item list is kept as it is.
- The Shopper and Vendor tables and their update schemas take the shape that the services and the seed use. The `User` classes in server/app/core/db/user.py describe an older shape. Preferences, payment methods, bank info, created_at and last_login are not modelled.
- `OrderUpdate.ordered_items` (a list of OrderItem rows) is not a column. Updating lines through it is not modelled.
- `Repository.GetItemByProperty`: `db.scalar(select ... where ...)` takes whichever matching row the database returns first; the model takes the lowest key, as an insertion-ordered scan would.
- `Seed.SeedDatabase`: a generator that raises part-way through the loop, leaving the earlier tables committed, is not modelled. The seed fixtures are arguments of type `Seed.Fixtures`, and `Seed.MinimalFixtures` builds the minimal profile's fixtures.
- `Seed.FixtureLines`: the source hard-codes `order_id=1` and `order_id=2` on the lines and also attaches them through the `items` relationship, which wins on insert. The model attaches each line to its own order's actual id.
- The ids the fixtures hard-code (vendor 1 and 2, shopper 1 and 2, products 1, 2 and 5) name the right rows only when the tables start empty with sequences at 1. `Seed.FreshSeedIsReferentiallyClosed` is stated for that case only.
- `OrderService.RegisterOrder`: the order and its lines are committed row by row. In the intended placement every line is priced, so no constraint refuses one; any other persistence failure half-way would leave a partial order, and that failure is not modelled. An error result carries no database, so the key a refused order insert draws from the sequence is not modelled.
- `OrderService.RegisterOrderAsWritten`: `add_item` dumps the half-built Order before inserting it; whether that dump or the insert raises first, the answer is the same 500, and the model reports the insert.
- `VendorService.DeleteVendor`: the Vendor class is not part of this model. The model takes the `Vendor.products` relationship that `Product.vendor`'s `back_populates` (server/app/services/product/model.py:82) requires, with SQLAlchemy's default cascade. The older Vendor class in server/app/core/db/user.py:39-46 lacks that relationship. Under it, the `product.vendor_id` key would refuse deleting a vendor that still has products; that variant is not modelled. A delete cascade, which would remove the products instead, is not modelled either.
- `ShopperService.DeleteShopper`, `ProductService.DeleteProduct`: the ORM declares no relationship from a shopper to its orders or from a product to its lines, so nothing detaches them before the key refuses the delete.
- `ShopperService.GetShopperId`, `VendorService.GetVendorId`, `ProductService.GetProductId`, `OrderService.GetOrderId`: ids are integers. Path ids arrive as text (`item_id: str`, server/app/core/repository.py:57). For non-numeric text the database raises a DataError, a 500 rather than NotFound. That error is not modelled.
- `Seed.SeedDatabase`: the fixtures' hard-coded vendor, shopper, product and order ids are stored as given. On a database that is not fresh, such an id may name no row, and the foreign key then refuses the commit. That refusal is not modelled. `Seed.FreshSeedIsReferentiallyClosed` shows that fresh seeding names only stored rows.
- `ShopperService.RemoveFromCart`: the product id arrives as an integer. The ValueError that `int(product_id)` raises on non-numeric text when the cart holds an entry (server/app/services/shopper/service.py:196) is not modelled.
- `CurrentUser.GetCurrentUser`: the token payload is a map from strings to strings. A payload whose `email` is null or not a string cannot be expressed, so what the source does with it is not modelled.
- `Calendar.ValidDate`: years are unbounded. Python's year range 1 to 9999, and the OverflowError `timedelta` arithmetic raises beyond it, are not modelled.

## Findings

| source | as written | input that shows it | evidently intended | confidence | as-written member | corrected member |
|---|---|---|---|---|---|---|
| server/app/core/db/seed.py:252 | `datetime(now.year, now.month, now.day - 7)` builds the week-ago date by subtracting 7 from the day of the month | Seeding the minimal profile on 2025-03-05 gives day -2, so ValueError and nothing past the product table is seeded | `now - timedelta(days=7)`, which is 2025-02-26 | high; not executed | Seed.MinimalOrdersAsWritten, Calendar.ReplaceDay, Calendar.WeekAgoFailsEarlyInMonth, Seed.AsWrittenOrdersFailNearMonthEnds | Seed.MinimalOrders, Calendar.AddDays, Calendar.AddDaysRoundTrip, Calendar.AddDaysExtendsReplaceDay |
| server/app/core/db/seed.py:300 | `datetime(now.year, now.month, now.day + 2)` builds the estimated delivery by adding 2 to the day of the month | Seeding the minimal profile on 2025-01-30 gives day 32, so ValueError | `now + timedelta(days=2)`, which is 2025-02-01 | high; not executed | Seed.MinimalOrdersAsWritten, Calendar.ReplaceDay, Calendar.InTwoDaysFailsAtMonthEnd, Seed.AsWrittenOrdersFailNearMonthEnds | Seed.MinimalOrders, Calendar.AddDays, Calendar.AddDaysRoundTrip, Calendar.AddDaysExtendsReplaceDay |
| server/app/services/order/service.py:61 | `Order(**order_data.model_dump(), shopper_id=shopper_id)` builds the order from the request alone. OrderCreate has no `total_value`, so the required `total_value` column (server/app/services/order/model.py:141) is left NULL. The lines keep the prices they came with, None by default (server/app/services/order/model.py:55-56), which the required `unit_price` and `total_price` columns refuse | Any request whose products all exist, e.g. one with no lines: the NOT NULL `order.total_value` refuses the order's insert, so `register_order` answers 500 and stores nothing | The order stored with its total, subtotal + tax + shipping − discount as every seeded order's total is, and each line priced from its product as `enrich_item` computes ("calculated in service", server/app/services/order/model.py:55) | medium; not executed | OrderService.RegisterOrderAsWritten, OrderService.EmptyOrderIsRefused, OrderService.RegisterOrderItems | OrderService.RegisterOrder, OrderModel.PlacedOrder, OrderService.PriceLine, OrderService.PricedLinesMatchPreparedLines, OrderService.PlacedOrderOwnsItsLines |

=== FILE: calendar.dfy ===
/** Calendar dates as Python's `datetime` constructor accepts them
    (proleptic Gregorian), at day granularity. Timestamps elsewhere in the
    model are values of `Date`. */
module Calendar {
  import opened Exceptions

  datatype Date = Date(year: int, month: int, day: int)

  predicate IsLeapYear(y: int) {
    y % 4 == 0 && (y % 100 != 0 || y % 400 == 0)
  }

  function DaysInMonth(y: int, m: int): (n: int)
    requires 1 <= m <= 12
    ensures 28 <= n <= 31
  {
    if m == 2 then (if IsLeapYear(y) then 29 else 28)
    else if m == 4 || m == 6 || m == 9 || m == 11 then 30
    else 31
  }

  /** The dates `datetime(year, month, day)` accepts without ValueError. */
  predicate ValidDate(d: Date) {
    1 <= d.month <= 12 && 1 <= d.day <= DaysInMonth(d.year, d.month)
  }

  /** `datetime(now.year, now.month, now.day + delta)` as the seed fixtures
      write it: the day number is shifted inside the same month, and the
      constructor raises ValueError (None here) when it leaves the month. */
  function ReplaceDay(d: Date, delta: int): (r: Option<Date>)
    requires ValidDate(d)
    ensures r.Some? <==> 1 <= d.day + delta <= DaysInMonth(d.year, d.month)
    ensures r.Some? ==> ValidDate(r.value) && r.value.year == d.year && r.value.month == d.month
  {
    var e := Date(d.year, d.month, d.day + delta);
    if ValidDate(e) then Some(e) else None
  }

  function NextDay(d: Date): (r: Date)
    requires ValidDate(d)
    ensures ValidDate(r)
  {
    if d.day < DaysInMonth(d.year, d.month) then Date(d.year, d.month, d.day + 1)
    else if d.month < 12 then Date(d.year, d.month + 1, 1)
    else Date(d.year + 1, 1, 1)
  }

  function PrevDay(d: Date): (r: Date)
    requires ValidDate(d)
    ensures ValidDate(r)
  {
    if d.day > 1 then Date(d.year, d.month, d.day - 1)
    else if d.month > 1 then Date(d.year, d.month - 1, DaysInMonth(d.year, d.month - 1))
    else Date(d.year - 1, 12, 31)
  }

  lemma PrevDayUndoesNextDay(d: Date)
    requires ValidDate(d)
    ensures PrevDay(NextDay(d)) == d
    ensures NextDay(PrevDay(d)) == d
  {
  }

  /** `d + timedelta(days=n)`: walks the calendar one day at a time. */
  function AddDays(d: Date, n: int): (r: Date)
    requires ValidDate(d)
    ensures ValidDate(r)
    decreases if n >= 0 then n else -n
  {
    if n == 0 then d
    else if n > 0 then AddDays(NextDay(d), n - 1)
    else AddDays(PrevDay(d), n + 1)
  }

  lemma {:induction false} PrevDayCommutes(d: Date, n: nat)
    requires ValidDate(d)
    ensures PrevDay(AddDays(d, n)) == AddDays(PrevDay(d), n)
    decreases n
  {
    if n > 0 {
      PrevDayUndoesNextDay(d);
      PrevDayCommutes(NextDay(d), n - 1);
    }
  }

  lemma {:induction false} NextDayCommutes(d: Date, n: nat)
    requires ValidDate(d)
    ensures NextDay(AddDays(d, -(n as int))) == AddDays(NextDay(d), -(n as int))
    decreases n
  {
    if n > 0 {
      PrevDayUndoesNextDay(d);
      NextDayCommutes(PrevDay(d), n - 1);
    }
  }

  /** Moving n days and then n days back returns to the starting date. */
  lemma {:induction false} AddDaysRoundTrip(d: Date, n: int)
    requires ValidDate(d)
    ensures AddDays(AddDays(d, n), -n) == d
    decreases if n >= 0 then n else -n
  {
    if n > 0 {
      PrevDayCommutes(NextDay(d), n - 1);
      PrevDayUndoesNextDay(d);
      AddDaysRoundTrip(d, n - 1);
    } else if n < 0 {
      NextDayCommutes(PrevDay(d), -n - 1);
      PrevDayUndoesNextDay(d);
      AddDaysRoundTrip(d, n + 1);
    }
  }

  /** Wherever the in-month shift succeeds, it agrees with real date
      arithmetic; `AddDays` differs only by also crossing month ends. */
  lemma {:induction false} AddDaysExtendsReplaceDay(d: Date, n: int)
    requires ValidDate(d)
    requires ReplaceDay(d, n).Some?
    ensures AddDays(d, n) == ReplaceDay(d, n).value
    decreases if n >= 0 then n else -n
  {
    if n > 0 {
      AddDaysExtendsReplaceDay(NextDay(d), n - 1);
    } else if n < 0 {
      AddDaysExtendsReplaceDay(PrevDay(d), n + 1);
    }
  }

  /** Seeding on 5 March: `now.day - 7` is -2, so the fixture's
      `datetime(...)` raises instead of giving 26 February. */
  lemma WeekAgoFailsEarlyInMonth()
    ensures ReplaceDay(Date(2025, 3, 5), -7).None?
    ensures AddDays(Date(2025, 3, 5), -7) == Date(2025, 2, 26)
  {
  }

  /** Seeding on 30 January: `now.day + 2` is 32, so the fixture's
      `datetime(...)` raises instead of giving 1 February. */
  lemma InTwoDaysFailsAtMonthEnd()
    ensures ReplaceDay(Date(2025, 1, 30), 2).None?
    ensures AddDays(Date(2025, 1, 30), 2) == Date(2025, 2, 1)
  {
  }
}

=== FILE: cart.dfy ===
/** The shopping-cart list algebra of the shopper service
    (server/app/services/shopper/service.py:125-235). A cart is a JSON
    document `{items: [{product_id, quantity}, ...], updated_at}`; these are
    the list manipulations the service performs on `items`. */
module Cart {
  import opened Exceptions
  import opened Calendar

  datatype Entry = Entry(productId: int, quantity: int)

  datatype Cart = Cart(items: seq<Entry>, updatedAt: Option<Date>)

  /** `{"items": [], "updated_at": None}`. */
  const EmptyCart := Cart([], None)

  /** A missing (or empty, hence falsy) cart is replaced by the empty cart. */
  function Normalize(cart: Option<Cart>): (c: Cart)
    ensures cart.None? ==> c == EmptyCart
    ensures cart.Some? ==> c == cart.value
  {
    cart.GetOr(EmptyCart)
  }

  /** No product appears in two entries. */
  predicate UniqueIds(items: seq<Entry>) {
    forall i, j :: 0 <= i < j < |items| ==> items[i].productId != items[j].productId
  }

  /** The set of products in the cart. */
  function Ids(items: seq<Entry>): set<int> {
    set i | 0 <= i < |items| :: items[i].productId
  }

  /** Position of the first entry for the product, as the service's
      `for i, item in enumerate(...)` loop with `break` finds it. */
  function IndexOf(items: seq<Entry>, productId: int): (r: Option<nat>)
    ensures r.None? <==> forall j :: 0 <= j < |items| ==> items[j].productId != productId
    ensures r.Some? ==> r.value < |items| && items[r.value].productId == productId
    ensures r.Some? ==> forall j :: 0 <= j < r.value ==> items[j].productId != productId
    decreases |items|
  {
    if |items| == 0 then None
    else if items[0].productId == productId then Some(0)
    else
      match IndexOf(items[1..], productId)
      case None => None
      case Some(i) => Some(i + 1)
  }

  /** The quantity the cart holds for a product: that of its first entry, or
      0 when there is none. */
  function QuantityOf(items: seq<Entry>, productId: int): int {
    match IndexOf(items, productId)
    case None => 0
    case Some(i) => items[i].quantity
  }

  /** An index at which the product occurs, with no earlier occurrence, is
      the one IndexOf finds. */
  lemma IndexOfIs(items: seq<Entry>, productId: int, i: nat)
    requires i < |items| && items[i].productId == productId
    requires forall j :: 0 <= j < i ==> items[j].productId != productId
    ensures IndexOf(items, productId) == Some(i)
  {
  }

  /** Lists with the same product ids at the same positions agree on every
      index lookup. */
  lemma SameIdsSameIndex(items: seq<Entry>, r: seq<Entry>)
    requires |r| == |items|
    requires forall j :: 0 <= j < |items| ==> r[j].productId == items[j].productId
    ensures forall p :: IndexOf(r, p) == IndexOf(items, p)
    ensures Ids(r) == Ids(items)
    ensures UniqueIds(items) ==> UniqueIds(r)
  {
    forall p
      ensures IndexOf(r, p) == IndexOf(items, p)
    {
      match IndexOf(items, p)
      case Some(i) => IndexOfIs(r, p, i);
      case None =>
    }
    assert forall x :: x in Ids(r) ==> x in Ids(items);
    assert forall x :: x in Ids(items) ==> x in Ids(r);
  }

  /** Appending an entry for a product not yet in the list moves no index
      and is found at the end. */
  lemma AppendIndex(items: seq<Entry>, e: Entry)
    requires IndexOf(items, e.productId).None?
    ensures IndexOf(items + [e], e.productId) == Some(|items|)
    ensures forall p :: p != e.productId ==> IndexOf(items + [e], p) == IndexOf(items, p)
  {
    var r := items + [e];
    assert forall j :: 0 <= j < |items| ==> r[j] == items[j];
    IndexOfIs(r, e.productId, |items|);
    forall p | p != e.productId
      ensures IndexOf(r, p) == IndexOf(items, p)
    {
      match IndexOf(items, p)
      case Some(i) => IndexOfIs(r, p, i);
      case None =>
    }
  }

  /** Appending an entry adds its product to the id set, and keeps the ids
      distinct when the product was not there yet. */
  lemma AppendIds(items: seq<Entry>, e: Entry)
    requires IndexOf(items, e.productId).None?
    ensures Ids(items + [e]) == Ids(items) + {e.productId}
    ensures UniqueIds(items) ==> UniqueIds(items + [e])
  {
    var r := items + [e];
    assert forall j :: 0 <= j < |items| ==> r[j] == items[j];
    assert forall x :: x in Ids(r) ==> x in Ids(items) + {e.productId};
    assert e.productId == r[|items|].productId;
    assert forall x :: x in Ids(items) ==> x in Ids(r);
  }

  /** Deleting the first entry of one product keeps the first entry of
      another product, now counted over the shorter list. */
  lemma DeleteKeepsOther(items: seq<Entry>, i: nat, p: int)
    requires i < |items| && p != items[i].productId
    ensures QuantityOf(items[..i] + items[i + 1..], p) == QuantityOf(items, p)
  {
    var r := items[..i] + items[i + 1..];
    match IndexOf(items, p)
    case Some(k) =>
      if k < i {
        assert r[k] == items[k];
        assert forall j :: 0 <= j < k ==> r[j] == items[j];
        IndexOfIs(r, p, k);
      } else {
        assert r[k - 1] == items[k];
        assert forall j :: 0 <= j < k - 1 ==> r[j] == items[if j < i then j else j + 1];
        IndexOfIs(r, p, k - 1);
      }
    case None =>
      assert forall j :: 0 <= j < |r| ==> r[j] == items[if j < i then j else j + 1];
  }

  /** Deleting an entry of a duplicate-free list keeps it duplicate-free and
      removes its product. */
  lemma DeleteUnique(items: seq<Entry>, i: nat)
    requires i < |items| && UniqueIds(items)
    ensures UniqueIds(items[..i] + items[i + 1..])
    ensures IndexOf(items[..i] + items[i + 1..], items[i].productId).None?
  {
    var r := items[..i] + items[i + 1..];
    assert forall j :: 0 <= j < |r| ==> r[j] == items[if j < i then j else j + 1];
  }

  /** `add_to_cart` on the item list: merge into the first entry for the
      product, otherwise append a new entry. */
  function AddEntry(items: seq<Entry>, productId: int, quantity: int): (r: seq<Entry>)
    ensures IndexOf(items, productId).Some? ==>
              var i := IndexOf(items, productId).value;
              |r| == |items| && r[i] == Entry(productId, items[i].quantity + quantity)
              && forall j :: 0 <= j < |items| && j != i ==> r[j] == items[j]
    ensures IndexOf(items, productId).None? ==> r == items + [Entry(productId, quantity)]
  {
    match IndexOf(items, productId)
    case Some(i) => items[i := Entry(productId, items[i].quantity + quantity)]
    case None => items + [Entry(productId, quantity)]
  }

  /** Adding raises the product's quantity by the amount added and no other
      product's; the product joins the id set, and a duplicate-free list
      stays duplicate-free. */
  lemma {:induction false} AddEntryCounts(items: seq<Entry>, productId: int, quantity: int)
    ensures QuantityOf(AddEntry(items, productId, quantity), productId) == QuantityOf(items, productId) + quantity
    ensures forall p :: p != productId ==> QuantityOf(AddEntry(items, productId, quantity), p) == QuantityOf(items, p)
    ensures Ids(AddEntry(items, productId, quantity)) == Ids(items) + {productId}
    ensures UniqueIds(items) ==> UniqueIds(AddEntry(items, productId, quantity))
  {
    var r := AddEntry(items, productId, quantity);
    match IndexOf(items, productId)
    case Some(i) =>
      SameIdsSameIndex(items, r);
      assert Ids(items) + {productId} == Ids(items) by {
        assert items[i].productId == productId;
      }
    case None =>
      AppendIndex(items, Entry(productId, quantity));
      AppendIds(items, Entry(productId, quantity));
  }

  /** `remove_from_cart` on the item list: the first entry for the product is
      deleted when the quantity is None or covers it, otherwise decremented; a
      product not in the cart leaves the list as it is. A caller that leaves
      the quantity out gets the default 1, that is `Some(1)`, not None. */
  function RemoveEntry(items: seq<Entry>, productId: int, quantity: Option<int>): (r: seq<Entry>)
    ensures IndexOf(items, productId).None? ==> r == items
    ensures IndexOf(items, productId).Some? ==>
              var i := IndexOf(items, productId).value;
              if quantity.None? || quantity.value >= items[i].quantity
              then r == items[..i] + items[i + 1..]
              else r == items[i := Entry(productId, items[i].quantity - quantity.value)]
    ensures forall p :: p != productId ==> QuantityOf(r, p) == QuantityOf(items, p)
    ensures UniqueIds(items) ==> UniqueIds(r)
    ensures UniqueIds(items) && IndexOf(items, productId).Some? ==>
              QuantityOf(r, productId) ==
                (if quantity.None? || quantity.value >= QuantityOf(items, productId)
                 then 0 else QuantityOf(items, productId) - quantity.value)
  {
    match IndexOf(items, productId)
    case None => items
    case Some(i) =>
      if quantity.None? || quantity.value >= items[i].quantity then
        var r := items[..i] + items[i + 1..];
        assert forall p :: p != productId ==> QuantityOf(r, p) == QuantityOf(items, p) by {
          forall p | p != productId
            ensures QuantityOf(r, p) == QuantityOf(items, p)
          {
            DeleteKeepsOther(items, i, p);
          }
        }
        if UniqueIds(items) then
          DeleteUnique(items, i);
          r
        else
          r
      else
        var r := items[i := Entry(productId, items[i].quantity - quantity.value)];
        SameIdsSameIndex(items, r);
        r
  }

  /** Adding to a product the list holds overwrites its first entry. */
  lemma {:induction false} AddEntryAt(items: seq<Entry>, productId: int, quantity: int, i: nat)
    requires IndexOf(items, productId) == Some(i)
    ensures AddEntry(items, productId, quantity) == items[i := Entry(productId, items[i].quantity + quantity)]
  {
    var r := AddEntry(items, productId, quantity);
    assert forall j :: 0 <= j < |items| ==> r[j] == items[i := Entry(productId, items[i].quantity + quantity)][j];
  }

  /** Adding twice to an existing entry raises it once by the sum. */
  lemma {:induction false} MergesIntoExisting(items: seq<Entry>, productId: int, a: int, b: int)
    requires IndexOf(items, productId).Some?
    ensures AddEntry(AddEntry(items, productId, a), productId, b) == AddEntry(items, productId, a + b)
  {
    var i := IndexOf(items, productId).value;
    var q := items[i].quantity;
    var once := items[i := Entry(productId, q + a)];
    var twice := items[i := Entry(productId, q + (a + b))];
    AddEntryAt(items, productId, a, i);
    AddEntryAt(items, productId, a + b, i);
    IndexOfIs(once, productId, i);
    AddEntryAt(once, productId, b, i);
    assert once[i := Entry(productId, q + a + b)] == twice;
  }

  /** Adding twice a product that was absent appends one entry holding the
      sum. */
  lemma {:induction false} MergesIntoAppended(items: seq<Entry>, productId: int, a: int, b: int)
    requires IndexOf(items, productId).None?
    ensures AddEntry(AddEntry(items, productId, a), productId, b) == AddEntry(items, productId, a + b)
  {
    var once := items + [Entry(productId, a)];
    assert AddEntry(items, productId, a) == once;
    AppendIndex(items, Entry(productId, a));
    assert IndexOf(once, productId) == Some(|items|);
    assert AddEntry(once, productId, b) == once[|items| := Entry(productId, a + b)];
    assert once[|items| := Entry(productId, a + b)] == items + [Entry(productId, a + b)];
  }

  /** Two additions of the same product merge into one: adding a then b is
      adding a + b. */
  lemma {:induction false} AddEntryMerges(items: seq<Entry>, productId: int, a: int, b: int)
    ensures AddEntry(AddEntry(items, productId, a), productId, b) == AddEntry(items, productId, a + b)
  {
    if IndexOf(items, productId).Some? {
      MergesIntoExisting(items, productId, a, b);
    } else {
      MergesIntoAppended(items, productId, a, b);
    }
  }

  /** Adding a product that was not in the cart and then removing it with
      quantity None restores the original list. */
  lemma {:induction false} RemoveUndoesAdd(items: seq<Entry>, productId: int, quantity: int)
    requires IndexOf(items, productId).None?
    ensures RemoveEntry(AddEntry(items, productId, quantity), productId, None) == items
  {
    AppendIndex(items, Entry(productId, quantity));
    var r := items + [Entry(productId, quantity)];
    assert r[..|items|] == items;
  }

  /** Removing fewer units than an entry holds and adding them back restores
      the original list. */
  lemma {:induction false} AddUndoesPartialRemove(items: seq<Entry>, productId: int, quantity: int)
    requires IndexOf(items, productId).Some?
    requires quantity < items[IndexOf(items, productId).value].quantity
    ensures AddEntry(RemoveEntry(items, productId, Some(quantity)), productId, quantity) == items
  {
    var i := IndexOf(items, productId).value;
    var removed := RemoveEntry(items, productId, Some(quantity));
    SameIdsSameIndex(items, removed);
    assert AddEntry(removed, productId, quantity) == removed[i := Entry(productId, items[i].quantity)];
  }

  /** Adding a product that was not in the cart and then removing at least as
      many units restores the original list; with the default quantity 1 this
      is adding one unit and removing it again. */
  lemma {:induction false} CoveringRemoveUndoesAdd(items: seq<Entry>, productId: int, quantity: int, removed: int)
    requires IndexOf(items, productId).None? && removed >= quantity
    ensures RemoveEntry(AddEntry(items, productId, quantity), productId, Some(removed)) == items
  {
    AppendIndex(items, Entry(productId, quantity));
    var r := items + [Entry(productId, quantity)];
    assert r[..|items|] == items;
  }
}

=== FILE: current_user.dfy ===
/** Current-user resolution (server/app/core/auth/current_user.py): the
    token's email is looked up among shoppers first and among vendors only
    when no shopper has it. */
module CurrentUser {
  import opened Exceptions
  import ShopperModel
  import VendorModel
  import opened Database
  import opened Login

  /** Who a request acts as: the shopper or the vendor row found, with its
      id. */
  datatype Principal =
    | ShopperPrincipal(id: int, shopper: ShopperModel.Shopper)
    | VendorPrincipal(id: int, vendor: VendorModel.Vendor)
  {
    function Email(): string {
      match this
      case ShopperPrincipal(_, s) => s.email
      case VendorPrincipal(_, v) => v.email
    }
  }

  const InvalidTokenDetail := "Invalid token error"
  const MissingEmailDetail := "Payload didn't contain expected data"

  /** `get_current_user`: CredentialsException for a token that does not
      decode or a payload without an email; otherwise the shopper with the
      email, else the vendor with it, else None (no error). */
  function GetCurrentUser(db: Db, c: Crypto, token: string): (r: Result<Option<Principal>>)
    ensures DecodeToken(c, token).None? ==> r == Err(Unauthorized(InvalidTokenDetail, map[]))
    ensures DecodeToken(c, token).Some? && "email" !in DecodeToken(c, token).value ==>
              r == Err(Unauthorized(MissingEmailDetail, map[]))
    ensures r.Err? ==> r.error.StatusCode() == 401
    ensures r.Ok? <==> DecodeToken(c, token).Some? && "email" in DecodeToken(c, token).value
    ensures r.Ok? && r.value.Some? ==> r.value.value.Email() == DecodeToken(c, token).value["email"]
    ensures r.Ok? ==> var email := DecodeToken(c, token).value["email"];
              && (GetShopperByEmail(db, email).Some? ==>
                    r.value == Some(ShopperPrincipal(GetShopperByEmail(db, email).value.0,
                                                     GetShopperByEmail(db, email).value.1)))
              && (r.value.Some? && r.value.value.VendorPrincipal? ==> GetShopperByEmail(db, email).None?)
              && (Valid(db) ==>
                    (r.value.None? <==>
                       (forall k :: k in db.shoppers.rows ==> db.shoppers.rows[k].email != email)
                       && (forall k :: k in db.vendors.rows ==> db.vendors.rows[k].email != email)))
  {
    match DecodeToken(c, token)
    case None => Err(MakeCredentials(InvalidTokenDetail, map[]))
    case Some(payload) =>
      if "email" !in payload then Err(MakeCredentials(MissingEmailDetail, map[]))
      else
        var email := payload["email"];
        match GetShopperByEmail(db, email)
        case Some((id, s)) => Ok(Some(ShopperPrincipal(id, s)))
        case None =>
          match GetVendorByEmail(db, email)
          case Some((id, v)) => Ok(Some(VendorPrincipal(id, v)))
          case None => Ok(None)
  }

  /** A token issued by a successful login resolves to an account with the
      login email: the shopper when one has it, the vendor otherwise. */
  lemma LoginTokenResolves(db: Db, c: Crypto, username: string, password: string)
    requires Valid(db) && SoundCodec(c)
    requires LoginForAccessToken(db, c, username, password).Ok?
    ensures var token := LoginForAccessToken(db, c, username, password).value.accessToken;
            var r := GetCurrentUser(db, c, token);
            r.Ok? && r.value.Some? && r.value.value.Email() == username
            && (r.value.value.VendorPrincipal? <==> GetShopperByEmail(db, username).None?)
  {
    var token := LoginForAccessToken(db, c, username, password).value.accessToken;
    TokenCarriesEmail(c, username);
    if GetShopperByEmail(db, username).None? {
      assert AuthenticateVendor(db, c, username, password);
      assert GetVendorByEmail(db, username).Some?;
    }
  }

  /** A shopper and a vendor may share an email. Logging in with the
      vendor's password then yields a token that resolves to the shopper,
      although the shopper's own password was not accepted. */
  lemma SharedEmailResolvesToShopper(db: Db, c: Crypto, email: string, password: string, ks: int, kv: int)
    requires Valid(db) && SoundCodec(c)
    requires FirstShopperWithEmail(db, ks, email) && !c.checkPassword(password, db.shoppers.rows[ks].passwordHash)
    requires FirstVendorWithEmail(db, kv, email) && c.checkPassword(password, db.vendors.rows[kv].passwordHash)
    ensures LoginForAccessToken(db, c, email, password).Ok?
    ensures var token := LoginForAccessToken(db, c, email, password).value.accessToken;
            GetCurrentUser(db, c, token) == Ok(Some(ShopperPrincipal(ks, db.shoppers.rows[ks])))
  {
    TokenCarriesEmail(c, email);
    var shopper := GetShopperByEmail(db, email);
    assert shopper.Some? && shopper.value.0 == ks;
    var vendor := GetVendorByEmail(db, email);
    assert vendor.Some? && vendor.value.0 == kv;
    assert AuthenticateVendor(db, c, email, password);
  }
}

=== FILE: database.dfy ===
/** The state the services read and write: one table per entity. Each
    table's id sequence is independent, as each table has its own serial
    key. The schema's foreign keys (product.vendor_id, order.shopper_id,
    order_item.order_id, order_item.product_id) and NOT NULL columns are
    enforced by the database on every commit. */
module Database {
  import opened Exceptions
  import Repository
  import ShopperModel
  import VendorModel
  import ProductModel
  import OrderModel

  datatype Db = Db(
    shoppers: Repository.Table<ShopperModel.Shopper>,
    vendors: Repository.Table<VendorModel.Vendor>,
    products: Repository.Table<ProductModel.Product>,
    orders: Repository.Table<OrderModel.Order>,
    orderItems: Repository.Table<OrderModel.OrderItem>)

  /** A freshly migrated database: every table empty, every sequence at 1. */
  const EmptyDb := Db(Repository.EmptyTable(), Repository.EmptyTable(), Repository.EmptyTable(),
                      Repository.EmptyTable(), Repository.EmptyTable())

  /** Every table's keys came from its sequence. */
  predicate Valid(db: Db) {
    && Repository.Valid(db.shoppers) && Repository.Valid(db.vendors)
    && Repository.Valid(db.products) && Repository.Valid(db.orders)
    && Repository.Valid(db.orderItems)
  }

  const ProductVendorColumn := "product.vendor_id"
  const OrderShopperColumn := "order.shopper_id"
  const LineOrderColumn := "order_item.order_id"
  const LineProductColumn := "order_item.product_id"

  /** Some product still names the vendor. */
  predicate VendorHasProducts(db: Db, id: int) {
    exists k :: k in db.products.rows && db.products.rows[k].vendorId == Some(id)
  }

  /** Some order still names the shopper. */
  predicate ShopperHasOrders(db: Db, id: int) {
    exists k :: k in db.orders.rows && db.orders.rows[k].shopperId == Some(id)
  }

  /** Some order line still names the product. */
  predicate ProductHasLines(db: Db, id: int) {
    exists k :: k in db.orderItems.rows && db.orderItems.rows[k].productId == id
  }

  /** Some order line still belongs to the order. */
  predicate OrderHasLines(db: Db, id: int) {
    exists k :: k in db.orderItems.rows && db.orderItems.rows[k].orderId == id
  }

  /** Every foreign key names a stored row (a NULL key names none). */
  predicate ForeignKeysHold(db: Db) {
    && (forall k :: k in db.products.rows && db.products.rows[k].vendorId.Some? ==>
          db.products.rows[k].vendorId.value in db.vendors.rows)
    && (forall k :: k in db.orders.rows && db.orders.rows[k].shopperId.Some? ==>
          db.orders.rows[k].shopperId.value in db.shoppers.rows)
    && (forall k :: k in db.orderItems.rows ==>
          db.orderItems.rows[k].orderId in db.orders.rows
          && db.orderItems.rows[k].productId in db.products.rows)
  }

  /** Every stored order has its total and every stored line its prices. */
  predicate NotNullHold(db: Db) {
    && (forall k :: k in db.orders.rows ==> OrderModel.OrderStorable(db.orders.rows[k]))
    && (forall k :: k in db.orderItems.rows ==> OrderModel.LineStorable(db.orderItems.rows[k]))
  }
}

=== FILE: exceptions.dfy ===
/** The typed HTTP errors of the service layer and the text they carry
    (server/app/core/utils/exceptions.py), plus the Option/Result wrappers
    every other module returns. */
module Exceptions {

  /** Python's `None`-or-value. */
  datatype Option<+T> = None | Some(value: T) {
    function GetOr(default: T): T {
      match this
      case Some(v) => v
      case None => default
    }
  }

  /** The three exceptions the services raise, plus the database's refusal
      of a write. `Unauthorized` is CredentialsException; it also carries the
      response headers. `DatabaseError` is the IntegrityError a commit raises
      when a write would break a foreign key or a NOT NULL column; no handler
      catches it, so the client sees an internal server error. It names the
      column whose constraint refused the write. */
  datatype Error =
    | BadRequest(detail: string)
    | NotFound(detail: string)
    | Unauthorized(detail: string, headers: map<string, string>)
    | DatabaseError(column: string)
  {
    /** The HTTP status the client receives. */
    function StatusCode(): int {
      match this
      case BadRequest(_) => 400
      case NotFound(_) => 404
      case Unauthorized(_, _) => 401
      case DatabaseError(_) => 500
    }
  }

  /** Either a value or the exception that aborted the operation. */
  datatype Result<+T> = Ok(value: T) | Err(error: Error) {
    predicate IsFailure() {
      Err?
    }

    function PropagateFailure<U>(): Result<U>
      requires Err?
    {
      Err(error)
    }

    function Extract(): T
      requires Ok?
    {
      value
    }
  }

  const DefaultResource := "Resource"
  const MalformedSuffix := " is invalid or the request was malformed"
  const DefaultCredentialsDetail := "Could not validate credentials"

  /** Python truthiness of an optional string: present and non-empty. */
  predicate Truthy(detail: Option<string>) {
    detail.Some? && |detail.value| > 0
  }

  /** The text built when no usable `detail` is given. */
  function GeneratedMessage(resource: string, resourceId: Option<string>): (m: string)
    ensures |m| >= |resource| + |MalformedSuffix|
    ensures m[..|resource|] == resource
    ensures m[|m| - |MalformedSuffix|..] == MalformedSuffix
    ensures resourceId.None? ==> |m| == |resource| + |MalformedSuffix|
    ensures resourceId.Some? ==>
              m[|resource|..|m| - |MalformedSuffix|] == " #" + resourceId.value
  {
    if resourceId.None? then resource + MalformedSuffix
    else resource + " #" + resourceId.value + MalformedSuffix
  }

  /** `detail or (...)`: a truthy detail wins, otherwise the generated text. */
  function Message(resource: string, resourceId: Option<string>, detail: Option<string>): (m: string)
    ensures Truthy(detail) ==> m == detail.value
    ensures !Truthy(detail) ==> m == GeneratedMessage(resource, resourceId)
  {
    if Truthy(detail) then detail.value else GeneratedMessage(resource, resourceId)
  }

  function MakeBadRequest(resource: string, resourceId: Option<string>, detail: Option<string>): (e: Error)
    ensures e.BadRequest? && e.StatusCode() == 400
    ensures e.detail == Message(resource, resourceId, detail)
  {
    BadRequest(Message(resource, resourceId, detail))
  }

  function MakeNotFound(resource: string, resourceId: Option<string>, detail: Option<string>): (e: Error)
    ensures e.NotFound? && e.StatusCode() == 404
    ensures e.detail == Message(resource, resourceId, detail)
  {
    NotFound(Message(resource, resourceId, detail))
  }

  function MakeCredentials(detail: string, headers: map<string, string>): (e: Error)
    ensures e.Unauthorized? && e.StatusCode() == 401
    ensures e.detail == detail && e.headers == headers
  {
    Unauthorized(detail, headers)
  }

  /** `CredentialsException()` with every argument left at its default. */
  function DefaultCredentials(): (e: Error)
    ensures e.StatusCode() == 401
    ensures e.detail == "Could not validate credentials" && e.headers == map[]
  {
    MakeCredentials(DefaultCredentialsDetail, map[])
  }

  /** BadRequest and NotFound build the same text from the same arguments;
      only the status code tells them apart. */
  lemma NotFoundSharesBadRequestText(resource: string, resourceId: Option<string>, detail: Option<string>)
    ensures MakeNotFound(resource, resourceId, detail).detail == MakeBadRequest(resource, resourceId, detail).detail
    ensures MakeNotFound(resource, resourceId, detail) != MakeBadRequest(resource, resourceId, detail)
  {
  }

  /** The generated text identifies the resource id: two ids give the same
      text only if they are equal, and a message with an id never equals the
      one without. */
  lemma {:induction false} GeneratedMessageNamesId(resource: string, a: Option<string>, b: Option<string>)
    requires GeneratedMessage(resource, a) == GeneratedMessage(resource, b)
    ensures a == b
  {
    var ma := GeneratedMessage(resource, a);
    var mb := GeneratedMessage(resource, b);
    if a.Some? && b.Some? {
      assert " #" + a.value == ma[|resource|..|ma| - |MalformedSuffix|];
      assert " #" + b.value == mb[|resource|..|mb| - |MalformedSuffix|];
      assert a.value == (" #" + a.value)[2..];
      assert b.value == (" #" + b.value)[2..];
    }
  }
}

=== FILE: login.dfy ===
/** Login (server/app/core/auth/login.py): credentials are checked against
    the shopper table and the vendor table, and a token carrying the
    submitted email is issued when either accepts them. bcrypt and the JWT
    codec are foreign code; they enter as the functions of a `Crypto`
    value, the signing key being part of them. */
module Login {
  import opened Exceptions
  import Repository
  import ShopperModel
  import VendorModel
  import opened Database

  /** `check_password(submitted, hash)`, `jwt.encode(payload)` and
      `jwt.decode(token)` (None when the token does not verify). */
  datatype Crypto = Crypto(
    checkPassword: (string, string) -> bool,
    encode: map<string, string> -> string,
    decode: string -> Option<map<string, string>>)

  /** The JWT codec reads back every payload it signed. */
  ghost predicate SoundCodec(c: Crypto) {
    forall payload :: c.decode(c.encode(payload)) == Some(payload)
  }

  datatype Token = Token(accessToken: string, tokenType: string)

  const BearerHeaders := map["WWW-Authenticate" := "Bearer"]
  const IncorrectCredentials := "Incorrect username or password"

  /** `generate_access_token`: a token whose payload is `{"email": email}`. */
  function GenerateAccessToken(c: Crypto, email: string): string {
    c.encode(map["email" := email])
  }

  /** `decode_token`: the payload, or None for a token that does not
      verify. */
  function DecodeToken(c: Crypto, token: string): Option<map<string, string>> {
    c.decode(token)
  }

  /** With a sound codec, the email put into a token is the email read out of
      it. */
  lemma TokenCarriesEmail(c: Crypto, email: string)
    requires SoundCodec(c)
    ensures DecodeToken(c, GenerateAccessToken(c, email)).Some?
    ensures var payload := DecodeToken(c, GenerateAccessToken(c, email)).value;
            "email" in payload && payload["email"] == email
  {
    assert c.decode(c.encode(map["email" := email])) == Some(map["email" := email]);
  }

  /** `get_shopper_by_email`: the first shopper with that email, if any. */
  function GetShopperByEmail(db: Db, email: string): (r: Option<(int, ShopperModel.Shopper)>)
    ensures r.Some? ==> r.value.0 in db.shoppers.rows && db.shoppers.rows[r.value.0] == r.value.1
                        && r.value.1.email == email
    ensures Valid(db) ==> (r.None? <==> forall k :: k in db.shoppers.rows ==> db.shoppers.rows[k].email != email)
    ensures Valid(db) && r.Some? ==>
              forall k :: k in db.shoppers.rows && k < r.value.0 ==> db.shoppers.rows[k].email != email
  {
    Repository.GetItemByProperty(db.shoppers, (s: ShopperModel.Shopper) => s.email, email)
  }

  /** `get_vendor_by_email`: the first vendor with that email, if any. */
  function GetVendorByEmail(db: Db, email: string): (r: Option<(int, VendorModel.Vendor)>)
    ensures r.Some? ==> r.value.0 in db.vendors.rows && db.vendors.rows[r.value.0] == r.value.1
                        && r.value.1.email == email
    ensures Valid(db) ==> (r.None? <==> forall k :: k in db.vendors.rows ==> db.vendors.rows[k].email != email)
    ensures Valid(db) && r.Some? ==>
              forall k :: k in db.vendors.rows && k < r.value.0 ==> db.vendors.rows[k].email != email
  {
    Repository.GetItemByProperty(db.vendors, (v: VendorModel.Vendor) => v.email, email)
  }

  /** The shopper with that email and no lower id holding it too. */
  predicate FirstShopperWithEmail(db: Db, k: int, email: string) {
    k in db.shoppers.rows && db.shoppers.rows[k].email == email
    && forall j :: j in db.shoppers.rows && j < k ==> db.shoppers.rows[j].email != email
  }

  /** The vendor with that email and no lower id holding it too. */
  predicate FirstVendorWithEmail(db: Db, k: int, email: string) {
    k in db.vendors.rows && db.vendors.rows[k].email == email
    && forall j :: j in db.vendors.rows && j < k ==> db.vendors.rows[j].email != email
  }

  /** `authenticate_shopper`: false when no shopper has the email, otherwise
      the password check against the stored hash of the shopper found. */
  function AuthenticateShopper(db: Db, c: Crypto, email: string, password: string): (b: bool)
    ensures Valid(db) && (forall k :: k in db.shoppers.rows ==> db.shoppers.rows[k].email != email) ==> !b
    ensures Valid(db) ==>
              (b <==> exists k :: FirstShopperWithEmail(db, k, email)
                                  && c.checkPassword(password, db.shoppers.rows[k].passwordHash))
  {
    var found := GetShopperByEmail(db, email);
    if found.None? then false
    else
      assert Valid(db) ==> FirstShopperWithEmail(db, found.value.0, email);
      c.checkPassword(password, found.value.1.passwordHash)
  }

  /** `authenticate_vendor`: the same check over the vendor table. */
  function AuthenticateVendor(db: Db, c: Crypto, email: string, password: string): (b: bool)
    ensures Valid(db) && (forall k :: k in db.vendors.rows ==> db.vendors.rows[k].email != email) ==> !b
    ensures Valid(db) ==>
              (b <==> exists k :: FirstVendorWithEmail(db, k, email)
                                  && c.checkPassword(password, db.vendors.rows[k].passwordHash))
  {
    var found := GetVendorByEmail(db, email);
    if found.None? then false
    else
      assert Valid(db) ==> FirstVendorWithEmail(db, found.value.0, email);
      c.checkPassword(password, found.value.1.passwordHash)
  }

  /** `login_for_access_token`: CredentialsException (401, with the Bearer
      challenge) exactly when neither a shopper nor a vendor accepts the
      credentials; otherwise a bearer token for the submitted username. */
  function LoginForAccessToken(db: Db, c: Crypto, username: string, password: string): (r: Result<Token>)
    ensures r.Err? <==> !AuthenticateShopper(db, c, username, password)
                        && !AuthenticateVendor(db, c, username, password)
    ensures r.Err? ==> r.error == Unauthorized(IncorrectCredentials, BearerHeaders) && r.error.StatusCode() == 401
    ensures r.Ok? ==> r.value.tokenType == "bearer"
    ensures r.Ok? ==> SoundCodec(c) ==> DecodeToken(c, r.value.accessToken) == Some(map["email" := username])
  {
    var shopper := AuthenticateShopper(db, c, username, password);
    var vendor := AuthenticateVendor(db, c, username, password);
    if !shopper && !vendor then
      Err(MakeCredentials(IncorrectCredentials, BearerHeaders))
    else
      Ok(Token(GenerateAccessToken(c, username), "bearer"))
  }

  /** Login is refused for an email that no account has, whatever the
      password. */
  lemma UnknownEmailIsRefused(db: Db, c: Crypto, email: string, password: string)
    requires Valid(db)
    requires forall k :: k in db.shoppers.rows ==> db.shoppers.rows[k].email != email
    requires forall k :: k in db.vendors.rows ==> db.vendors.rows[k].email != email
    ensures LoginForAccessToken(db, c, email, password) == Err(Unauthorized(IncorrectCredentials, BearerHeaders))
  {
  }
}

=== FILE: order_model.dfy ===
/** The order records and schemas (server/app/services/order/model.py).
    Money amounts are integer cents. */
module OrderModel {
  import opened Exceptions
  import opened Calendar
  import Repository
  import Users

  datatype OrderStatus = InProgress | Concluded | Cancelled

  datatype PaymentStatus = Pending | Confirmed | Rejected

  /** The string each StrEnum member stands for. */
  function OrderStatusValue(s: OrderStatus): string {
    match s
    case InProgress => "IN_PROGRESS"
    case Concluded => "CONCLUDED"
    case Cancelled => "CANCELLED"
  }

  /** `OrderStatus(s)`: the member with that value, if any. */
  function ParseOrderStatus(s: string): Option<OrderStatus> {
    if s == "IN_PROGRESS" then Some(InProgress)
    else if s == "CONCLUDED" then Some(Concluded)
    else if s == "CANCELLED" then Some(Cancelled)
    else None
  }

  function PaymentStatusValue(s: PaymentStatus): string {
    match s
    case Pending => "PENDING"
    case Confirmed => "CONFIRMED"
    case Rejected => "REJECTED"
  }

  function ParsePaymentStatus(s: string): Option<PaymentStatus> {
    if s == "PENDING" then Some(Pending)
    else if s == "CONFIRMED" then Some(Confirmed)
    else if s == "REJECTED" then Some(Rejected)
    else None
  }

  const AllOrderStatuses: set<OrderStatus> := {InProgress, Concluded, Cancelled}
  const AllPaymentStatuses: set<PaymentStatus> := {Pending, Confirmed, Rejected}

  /** Each enum has exactly its three listed members, and the string values
      identify them in both directions. */
  lemma EnumValuesRoundTrip(o: OrderStatus, p: PaymentStatus, s: string)
    ensures o in AllOrderStatuses && |AllOrderStatuses| == 3
    ensures p in AllPaymentStatuses && |AllPaymentStatuses| == 3
    ensures ParseOrderStatus(OrderStatusValue(o)) == Some(o)
    ensures ParsePaymentStatus(PaymentStatusValue(p)) == Some(p)
    ensures ParseOrderStatus(s).Some? ==> OrderStatusValue(ParseOrderStatus(s).value) == s
    ensures ParsePaymentStatus(s).Some? ==> PaymentStatusValue(ParsePaymentStatus(s).value) == s
  {
  }

  /** One requested line of an order; the prices may be left out. */
  datatype OrderItemCreate = OrderItemCreate(
    productId: int,
    quantity: int,
    unitPrice: Option<int>,
    totalPrice: Option<int>)

  /** An OrderItemCreate that sets only the required fields. */
  function NewOrderItemCreate(productId: int, quantity: int): (c: OrderItemCreate)
    ensures c.productId == productId && c.quantity == quantity
    ensures c.unitPrice == None && c.totalPrice == None
  {
    OrderItemCreate(productId, quantity, None, None)
  }

  /** A row of the order-item table: one line of one order. */
  datatype OrderItem = OrderItem(
    orderId: int,
    productId: int,
    quantity: int,
    unitPrice: Option<int>,
    totalPrice: Option<int>)

  /** `OrderItem(**item.model_dump(), order_id=...)`: the request line
      attached to an order, prices copied as they came. */
  function OrderItemFromCreate(c: OrderItemCreate, orderId: int): (i: OrderItem)
    ensures i.orderId == orderId && i.productId == c.productId && i.quantity == c.quantity
    ensures i.unitPrice == c.unitPrice && i.totalPrice == c.totalPrice
  {
    OrderItem(orderId, c.productId, c.quantity, c.unitPrice, c.totalPrice)
  }

  /** The line's NOT NULL price columns are both set. */
  predicate LineStorable(i: OrderItem) {
    i.unitPrice.Some? && i.totalPrice.Some?
  }

  /** The request line carries both prices. */
  predicate Priced(c: OrderItemCreate) {
    c.unitPrice.Some? && c.totalPrice.Some?
  }

  const LineUnitPriceColumn := "order_item.unit_price"
  const LineTotalPriceColumn := "order_item.total_price"

  /** The column the database names when it refuses a line: the NOT NULL
      columns are checked in declaration order, unit_price first. */
  function UnsetLineColumn(i: OrderItem): string {
    if i.unitPrice.None? then LineUnitPriceColumn else LineTotalPriceColumn
  }

  /** The position of the first request line without both prices, or the
      number of lines when every line is priced. */
  function FirstUnpriced(items: seq<OrderItemCreate>): (n: nat)
    ensures n <= |items|
    ensures forall i :: 0 <= i < n ==> Priced(items[i])
    ensures n < |items| ==> !Priced(items[n])
    decreases |items|
  {
    if |items| == 0 || !Priced(items[0]) then 0
    else
      var n := FirstUnpriced(items[1..]);
      assert forall i :: 1 <= i < |items| ==> items[i] == items[1..][i - 1];
      1 + n
  }

  /** A line attached to an order can be stored exactly when the request
      line carried both prices. */
  lemma StorableIffPriced(c: OrderItemCreate, orderId: int)
    ensures LineStorable(OrderItemFromCreate(c, orderId)) <==> Priced(c)
  {
  }

  /** A line of an order as the API returns it, prices filled in. */
  datatype OrderItemPublic = OrderItemPublic(
    productId: int,
    quantity: int,
    unitPrice: int,
    totalPrice: int,
    productName: Option<string>)

  /** OrderCreate: the OrderBase fields plus the requested lines. */
  datatype OrderCreate = OrderCreate(
    paymentMethod: Option<string>,
    paymentStatus: PaymentStatus,
    deliveryLocation: Users.Location,
    shippingMethod: Option<string>,
    trackingNumber: Option<string>,
    estimatedDelivery: Option<Date>,
    discountCode: Option<string>,
    discountAmount: int,
    subtotal: int,
    taxAmount: int,
    shippingCost: int,
    orderedItems: seq<OrderItemCreate>)

  /** An OrderCreate that sets only the required fields. */
  function NewOrderCreate(location: Users.Location, subtotal: int, items: seq<OrderItemCreate>): (c: OrderCreate)
    ensures c.deliveryLocation == location && c.subtotal == subtotal && c.orderedItems == items
    ensures c.paymentStatus == Pending && c.paymentMethod == None
    ensures c.discountAmount == 0 && c.taxAmount == 0 && c.shippingCost == 0
    ensures c.shippingMethod == None && c.trackingNumber == None && c.estimatedDelivery == None
    ensures c.discountCode == None
  {
    OrderCreate(None, Pending, location, None, None, None, None, 0, subtotal, 0, 0, items)
  }

  /** A row of the order table (its id is the table key). */
  datatype Order = Order(
    paymentMethod: Option<string>,
    paymentStatus: PaymentStatus,
    deliveryLocation: Users.Location,
    shippingMethod: Option<string>,
    trackingNumber: Option<string>,
    estimatedDelivery: Option<Date>,
    discountCode: Option<string>,
    discountAmount: int,
    subtotal: int,
    taxAmount: int,
    shippingCost: int,
    shopperId: Option<int>,
    status: OrderStatus,
    createdAt: Date,
    updatedAt: Option<Date>,
    deliveredAt: Option<Date>,
    totalValue: Option<int>)

  /** `Order(**order_data.model_dump(), shopper_id=...)`: the request's
      OrderBase fields plus the table defaults. The request has no total, so
      none is set. */
  function OrderFromCreate(c: OrderCreate, shopperId: int, createdAt: Date): (o: Order)
    ensures o.paymentMethod == c.paymentMethod && o.paymentStatus == c.paymentStatus
    ensures o.deliveryLocation == c.deliveryLocation && o.shippingMethod == c.shippingMethod
    ensures o.trackingNumber == c.trackingNumber && o.estimatedDelivery == c.estimatedDelivery
    ensures o.discountCode == c.discountCode && o.discountAmount == c.discountAmount
    ensures o.subtotal == c.subtotal && o.taxAmount == c.taxAmount && o.shippingCost == c.shippingCost
    ensures o.shopperId == Some(shopperId) && o.createdAt == createdAt
    ensures o.status == InProgress && o.updatedAt == None && o.deliveredAt == None
    ensures o.totalValue == None
  {
    Order(c.paymentMethod, c.paymentStatus, c.deliveryLocation, c.shippingMethod,
          c.trackingNumber, c.estimatedDelivery, c.discountCode, c.discountAmount,
          c.subtotal, c.taxAmount, c.shippingCost, Some(shopperId), InProgress,
          createdAt, None, None, None)
  }

  const OrderTotalColumn := "order.total_value"

  /** The order's NOT NULL total is set. */
  predicate OrderStorable(o: Order) {
    o.totalValue.Some?
  }

  /** What the order comes to: subtotal plus tax plus shipping, less the
      discount, the arithmetic every seeded order's total follows. */
  function OrderTotal(c: OrderCreate): int {
    c.subtotal + c.taxAmount + c.shippingCost - c.discountAmount
  }

  /** The order row placement stores: OrderFromCreate with the total set. */
  function PlacedOrder(c: OrderCreate, shopperId: int, createdAt: Date): (o: Order)
    ensures OrderStorable(o) && o.totalValue == Some(c.subtotal + c.taxAmount + c.shippingCost - c.discountAmount)
    ensures o.(totalValue := None) == OrderFromCreate(c, shopperId, createdAt)
  {
    OrderFromCreate(c, shopperId, createdAt).(totalValue := Some(OrderTotal(c)))
  }

  /** Placing a request that sets only the required fields stores an order
      whose total is its subtotal, since it has no tax, shipping or discount,
      and which is in progress and awaiting payment. */
  lemma NewOrderDefaults(location: Users.Location, subtotal: int, items: seq<OrderItemCreate>,
                         shopperId: int, createdAt: Date)
    ensures var o := PlacedOrder(NewOrderCreate(location, subtotal, items), shopperId, createdAt);
            o.totalValue == Some(subtotal) && o.status == InProgress && o.paymentStatus == Pending
  {
  }

  /** OrderUpdate: every column optional. */
  datatype OrderUpdate = OrderUpdate(
    status: Option<OrderStatus>,
    paymentMethod: Option<string>,
    paymentStatus: Option<PaymentStatus>,
    deliveryLocation: Option<Users.Location>,
    shippingMethod: Option<string>,
    trackingNumber: Option<string>,
    estimatedDelivery: Option<Date>,
    discountCode: Option<string>,
    discountAmount: Option<int>,
    subtotal: Option<int>,
    taxAmount: Option<int>,
    shippingCost: Option<int>,
    totalValue: Option<int>,
    updatedAt: Option<Date>)

  /** An OrderUpdate with every field None. */
  const EmptyOrderUpdate := OrderUpdate(None, None, None, None, None, None, None,
                                        None, None, None, None, None, None, None)

  predicate NoFieldSet(u: OrderUpdate) {
    && u.status.None? && u.paymentMethod.None? && u.paymentStatus.None?
    && u.deliveryLocation.None? && u.shippingMethod.None? && u.trackingNumber.None?
    && u.estimatedDelivery.None? && u.discountCode.None? && u.discountAmount.None?
    && u.subtotal.None? && u.taxAmount.None? && u.shippingCost.None?
    && u.totalValue.None? && u.updatedAt.None?
  }

  /** Column names of the update schema. */
  datatype OrderField =
    | StatusF | PaymentMethodF | PaymentStatusF | DeliveryLocationF | ShippingMethodF
    | TrackingNumberF | EstimatedDeliveryF | DiscountCodeF | DiscountAmountF
    | SubtotalF | TaxAmountF | ShippingCostF | TotalValueF | UpdatedAtF

  /** A dumped column value, tagged with its column. */
  datatype OrderValue =
    | StatusV(status: OrderStatus)
    | PaymentMethodV(paymentMethod: string)
    | PaymentStatusV(paymentStatus: PaymentStatus)
    | DeliveryLocationV(deliveryLocation: Users.Location)
    | ShippingMethodV(shippingMethod: string)
    | TrackingNumberV(trackingNumber: string)
    | EstimatedDeliveryV(estimatedDelivery: Date)
    | DiscountCodeV(discountCode: string)
    | DiscountAmountV(discountAmount: int)
    | SubtotalV(subtotal: int)
    | TaxAmountV(taxAmount: int)
    | ShippingCostV(shippingCost: int)
    | TotalValueV(totalValue: int)
    | UpdatedAtV(updatedAt: Date)

  const AllOrderFields: set<OrderField> :=
    {StatusF, PaymentMethodF, PaymentStatusF, DeliveryLocationF, ShippingMethodF,
     TrackingNumberF, EstimatedDeliveryF, DiscountCodeF, DiscountAmountF,
     SubtotalF, TaxAmountF, ShippingCostF, TotalValueF, UpdatedAtF}

  /** The dumped value of one column: its value when set, None otherwise. */
  function DumpField(u: OrderUpdate, k: OrderField): Option<OrderValue> {
    match k
    case StatusF => if u.status.Some? then Some(StatusV(u.status.value)) else None
    case PaymentMethodF => if u.paymentMethod.Some? then Some(PaymentMethodV(u.paymentMethod.value)) else None
    case PaymentStatusF => if u.paymentStatus.Some? then Some(PaymentStatusV(u.paymentStatus.value)) else None
    case DeliveryLocationF =>
      if u.deliveryLocation.Some? then Some(DeliveryLocationV(u.deliveryLocation.value)) else None
    case ShippingMethodF => if u.shippingMethod.Some? then Some(ShippingMethodV(u.shippingMethod.value)) else None
    case TrackingNumberF => if u.trackingNumber.Some? then Some(TrackingNumberV(u.trackingNumber.value)) else None
    case EstimatedDeliveryF =>
      if u.estimatedDelivery.Some? then Some(EstimatedDeliveryV(u.estimatedDelivery.value)) else None
    case DiscountCodeF => if u.discountCode.Some? then Some(DiscountCodeV(u.discountCode.value)) else None
    case DiscountAmountF => if u.discountAmount.Some? then Some(DiscountAmountV(u.discountAmount.value)) else None
    case SubtotalF => if u.subtotal.Some? then Some(SubtotalV(u.subtotal.value)) else None
    case TaxAmountF => if u.taxAmount.Some? then Some(TaxAmountV(u.taxAmount.value)) else None
    case ShippingCostF => if u.shippingCost.Some? then Some(ShippingCostV(u.shippingCost.value)) else None
    case TotalValueF => if u.totalValue.Some? then Some(TotalValueV(u.totalValue.value)) else None
    case UpdatedAtF => if u.updatedAt.Some? then Some(UpdatedAtV(u.updatedAt.value)) else None
  }

  /** `update.model_dump()`: every column with its value or None. */
  function Dump(u: OrderUpdate): map<OrderField, Option<OrderValue>> {
    map k | k in AllOrderFields :: DumpField(u, k)
  }

  /** The SET clause for the status, payment and shipping columns: each column
      present in the filtered dump takes its value. */
  function AssignFulfilment(o: Order, f: map<OrderField, OrderValue>): Order {
    o.(
      status := if StatusF in f && f[StatusF].StatusV? then f[StatusF].status else o.status,
      paymentMethod := if PaymentMethodF in f && f[PaymentMethodF].PaymentMethodV? then Some(f[PaymentMethodF].paymentMethod) else o.paymentMethod,
      paymentStatus := if PaymentStatusF in f && f[PaymentStatusF].PaymentStatusV? then f[PaymentStatusF].paymentStatus else o.paymentStatus,
      deliveryLocation := if DeliveryLocationF in f && f[DeliveryLocationF].DeliveryLocationV? then f[DeliveryLocationF].deliveryLocation else o.deliveryLocation,
      shippingMethod := if ShippingMethodF in f && f[ShippingMethodF].ShippingMethodV? then Some(f[ShippingMethodF].shippingMethod) else o.shippingMethod,
      trackingNumber := if TrackingNumberF in f && f[TrackingNumberF].TrackingNumberV? then Some(f[TrackingNumberF].trackingNumber) else o.trackingNumber,
      estimatedDelivery := if EstimatedDeliveryF in f && f[EstimatedDeliveryF].EstimatedDeliveryV? then Some(f[EstimatedDeliveryF].estimatedDelivery) else o.estimatedDelivery
    )
  }

  /** The SET clause for the discount, amount and timestamp columns. */
  function AssignAmounts(o: Order, f: map<OrderField, OrderValue>): Order {
    o.(
      discountCode := if DiscountCodeF in f && f[DiscountCodeF].DiscountCodeV? then Some(f[DiscountCodeF].discountCode) else o.discountCode,
      discountAmount := if DiscountAmountF in f && f[DiscountAmountF].DiscountAmountV? then f[DiscountAmountF].discountAmount else o.discountAmount,
      subtotal := if SubtotalF in f && f[SubtotalF].SubtotalV? then f[SubtotalF].subtotal else o.subtotal,
      taxAmount := if TaxAmountF in f && f[TaxAmountF].TaxAmountV? then f[TaxAmountF].taxAmount else o.taxAmount,
      shippingCost := if ShippingCostF in f && f[ShippingCostF].ShippingCostV? then f[ShippingCostF].shippingCost else o.shippingCost,
      totalValue := if TotalValueF in f && f[TotalValueF].TotalValueV? then Some(f[TotalValueF].totalValue) else o.totalValue,
      updatedAt := if UpdatedAtF in f && f[UpdatedAtF].UpdatedAtV? then Some(f[UpdatedAtF].updatedAt) else o.updatedAt
    )
  }

  /** The SET clause of the UPDATE statement: each column present in the
      filtered dump takes its value. */
  function Assign(o: Order, f: map<OrderField, OrderValue>): Order {
    AssignAmounts(AssignFulfilment(o, f), f)
  }

  /** Reference meaning of a partial update of the status, payment and shipping
      columns: a set field takes the new value, an unset one keeps the old. */
  function PatchFulfilment(o: Order, u: OrderUpdate): Order {
    o.(
      status := u.status.GetOr(o.status),
      paymentMethod := if u.paymentMethod.Some? then u.paymentMethod else o.paymentMethod,
      paymentStatus := u.paymentStatus.GetOr(o.paymentStatus),
      deliveryLocation := u.deliveryLocation.GetOr(o.deliveryLocation),
      shippingMethod := if u.shippingMethod.Some? then u.shippingMethod else o.shippingMethod,
      trackingNumber := if u.trackingNumber.Some? then u.trackingNumber else o.trackingNumber,
      estimatedDelivery := if u.estimatedDelivery.Some? then u.estimatedDelivery else o.estimatedDelivery
    )
  }

  /** Reference meaning of a partial update of the remaining columns. */
  function PatchAmounts(o: Order, u: OrderUpdate): Order {
    o.(
      discountCode := if u.discountCode.Some? then u.discountCode else o.discountCode,
      discountAmount := u.discountAmount.GetOr(o.discountAmount),
      subtotal := u.subtotal.GetOr(o.subtotal),
      taxAmount := u.taxAmount.GetOr(o.taxAmount),
      shippingCost := u.shippingCost.GetOr(o.shippingCost),
      totalValue := if u.totalValue.Some? then u.totalValue else o.totalValue,
      updatedAt := if u.updatedAt.Some? then u.updatedAt else o.updatedAt
    )
  }

  /** Reference meaning of a partial update, field by field. */
  function Patch(o: Order, u: OrderUpdate): Order {
    PatchAmounts(PatchFulfilment(o, u), u)
  }

  /** The filtered dump holds exactly the set columns, each with its value. */
  lemma FilteredDump(u: OrderUpdate)
    ensures forall k :: k in Repository.NonNoneFields(Dump(u)) <==> DumpField(u, k).Some?
    ensures forall k :: k in Repository.NonNoneFields(Dump(u)) ==>
              Repository.NonNoneFields(Dump(u))[k] == DumpField(u, k).value
  {
    forall k ensures k in Dump(u) && Dump(u)[k] == DumpField(u, k) {
      match k
      case StatusF => case PaymentMethodF => case PaymentStatusF => case DeliveryLocationF =>
      case ShippingMethodF => case TrackingNumberF => case EstimatedDeliveryF =>
      case DiscountCodeF => case DiscountAmountF => case SubtotalF => case TaxAmountF =>
      case ShippingCostF => case TotalValueF => case UpdatedAtF =>
    }
  }

  /** Assigning a map that holds exactly the set columns patches the status,
      payment and shipping columns. */
  lemma AssignFulfilmentColumns(o: Order, u: OrderUpdate, f: map<OrderField, OrderValue>)
    requires forall k :: k in f <==> DumpField(u, k).Some?
    requires forall k :: k in f ==> f[k] == DumpField(u, k).value
    ensures AssignFulfilment(o, f) == PatchFulfilment(o, u)
  {
    assert StatusF in f <==> u.status.Some?;
    assert PaymentMethodF in f <==> u.paymentMethod.Some?;
    assert PaymentStatusF in f <==> u.paymentStatus.Some?;
    assert DeliveryLocationF in f <==> u.deliveryLocation.Some?;
    assert ShippingMethodF in f <==> u.shippingMethod.Some?;
    assert TrackingNumberF in f <==> u.trackingNumber.Some?;
    assert EstimatedDeliveryF in f <==> u.estimatedDelivery.Some?;
  }

  /** Assigning a map that holds exactly the set columns patches the remaining
      columns. */
  lemma AssignAmountColumns(o: Order, u: OrderUpdate, f: map<OrderField, OrderValue>)
    requires forall k :: k in f <==> DumpField(u, k).Some?
    requires forall k :: k in f ==> f[k] == DumpField(u, k).value
    ensures AssignAmounts(o, f) == PatchAmounts(o, u)
  {
    assert DiscountCodeF in f <==> u.discountCode.Some?;
    assert DiscountAmountF in f <==> u.discountAmount.Some?;
    assert SubtotalF in f <==> u.subtotal.Some?;
    assert TaxAmountF in f <==> u.taxAmount.Some?;
    assert ShippingCostF in f <==> u.shippingCost.Some?;
    assert TotalValueF in f <==> u.totalValue.Some?;
    assert UpdatedAtF in f <==> u.updatedAt.Some?;
  }

  /** Assigning a map that holds exactly the set columns is the patch. */
  lemma AssignSetColumns(o: Order, u: OrderUpdate, f: map<OrderField, OrderValue>)
    requires forall k :: k in f <==> DumpField(u, k).Some?
    requires forall k :: k in f ==> f[k] == DumpField(u, k).value
    ensures Assign(o, f) == Patch(o, u)
  {
    AssignFulfilmentColumns(o, u, f);
    AssignAmountColumns(AssignFulfilment(o, f), u, f);
  }

  /** Dumping an update, dropping its None fields and assigning the rest is
      the field-by-field patch. */
  lemma DumpThenAssignIsPatch(o: Order, u: OrderUpdate)
    ensures Assign(o, Repository.NonNoneFields(Dump(u))) == Patch(o, u)
  {
    FilteredDump(u);
    AssignSetColumns(o, u, Repository.NonNoneFields(Dump(u)));
  }

  /** The repository rejects an order update exactly when no field is set. */
  lemma DumpAllNoneIffNoFieldSet(u: OrderUpdate)
    ensures Repository.AllNone(Dump(u)) <==> NoFieldSet(u)
    ensures NoFieldSet(EmptyOrderUpdate)
  {
    FilteredDump(u);
    if !NoFieldSet(u) {
      var d := Dump(u);
      if u.status.Some? { assert d[StatusF].Some?; }
      else if u.paymentMethod.Some? { assert d[PaymentMethodF].Some?; }
      else if u.paymentStatus.Some? { assert d[PaymentStatusF].Some?; }
      else if u.deliveryLocation.Some? { assert d[DeliveryLocationF].Some?; }
      else if u.shippingMethod.Some? { assert d[ShippingMethodF].Some?; }
      else if u.trackingNumber.Some? { assert d[TrackingNumberF].Some?; }
      else if u.estimatedDelivery.Some? { assert d[EstimatedDeliveryF].Some?; }
      else if u.discountCode.Some? { assert d[DiscountCodeF].Some?; }
      else if u.discountAmount.Some? { assert d[DiscountAmountF].Some?; }
      else if u.subtotal.Some? { assert d[SubtotalF].Some?; }
      else if u.taxAmount.Some? { assert d[TaxAmountF].Some?; }
      else if u.shippingCost.Some? { assert d[ShippingCostF].Some?; }
      else if u.totalValue.Some? { assert d[TotalValueF].Some?; }
      else { assert d[UpdatedAtF].Some?; }
    }
  }
}

=== FILE: order_service.dfy ===
/** The order service (server/app/services/order/service.py): lookup or
    NotFound, placement of an order with its lines, partial update and
    delete. Placement is modelled twice: as written, where the order is
    refused for its missing total, and as intended, where the order carries
    its total and each line its product's price. */
module OrderService {
  import opened Exceptions
  import opened Calendar
  import Repository
  import opened OrderModel
  import opened Database
  import ProductService
  import Users

  const OrderNotFound := "Order not found"
  const InvalidProductDetail := "Provide a valid product_id to confirm an order."

  /** `get_order_id`: the order, or NotFound. */
  function GetOrderId(db: Db, id: int): (r: Result<Order>)
    ensures r.Ok? <==> id in db.orders.rows
    ensures r.Ok? ==> r.value == db.orders.rows[id]
    ensures r.Err? ==> r.error == NotFound(OrderNotFound) && r.error.StatusCode() == 404
  {
    match Repository.GetItemId(db.orders, id)
    case None => Err(MakeNotFound(DefaultResource, None, Some(OrderNotFound)))
    case Some(o) => Ok(o)
  }

  /** `validate_items_exist`: walks the lines and answers false at the first
      product that is not found; an empty list is valid. */
  function ValidateItemsExist(db: Db, items: seq<OrderItemCreate>): (b: bool)
    ensures b <==> forall i :: 0 <= i < |items| ==> items[i].productId in db.products.rows
    ensures |items| == 0 ==> b
    decreases |items|
  {
    if |items| == 0 then true
    else if ProductService.GetProductId(db, items[0].productId).Err? then false
    else
      var rest := ValidateItemsExist(db, items[1..]);
      assert forall j :: 1 <= j < |items| ==> items[j] == items[1..][j - 1];
      rest
  }

  /** The existence check of order placement accepts exactly the lines the
      price enrichment accepts. */
  lemma ValidationsAgree(db: Db, items: seq<OrderItemCreate>)
    ensures ValidateItemsExist(db, items) <==> ProductService.ValidateAndPrepareOrderItems(db, items).Ok?
  {
  }

  /** `register_order_items`: one `add_item` per requested line, in order,
      each line attached to the order and committed on its own. The first
      line without both prices is refused by the NOT NULL price columns: the
      lines before it stay stored, its insert has already drawn a key from
      the sequence, and the error ends the loop. */
  function RegisterOrderItems(t: Repository.Table<OrderItem>, items: seq<OrderItemCreate>, orderId: int)
    : (r: (Repository.Table<OrderItem>, Option<Error>))
    ensures var n := FirstUnpriced(items);
            && (n == |items| ==> r.1 == None && r.0.nextId == t.nextId + n)
            && (n < |items| ==> r.1 == Some(DatabaseError(UnsetLineColumn(OrderItemFromCreate(items[n], orderId))))
                                && r.0.nextId == t.nextId + n + 1)
    ensures forall i :: 0 <= i < FirstUnpriced(items) ==>
              Repository.GetItemId(r.0, t.nextId + i) == Some(OrderItemFromCreate(items[i], orderId))
    ensures forall k :: (k < t.nextId || k >= t.nextId + FirstUnpriced(items)) ==>
              Repository.GetItemId(r.0, k) == Repository.GetItemId(t, k)
    ensures Repository.Valid(t) ==> Repository.Valid(r.0)
    decreases |items|
  {
    if |items| == 0 then (t, None)
    else
      var row := OrderItemFromCreate(items[0], orderId);
      if !LineStorable(row) then (t.(nextId := t.nextId + 1), Some(DatabaseError(UnsetLineColumn(row))))
      else
        var (t1, _) := Repository.AddItem(t, row);
        var r := RegisterOrderItems(t1, items[1..], orderId);
        assert forall i :: 1 <= i < |items| ==> items[i] == items[1..][i - 1];
        r
  }

  /** `register_order` as written: a request naming a missing product is a
      BadRequest. Otherwise the order is built from the request alone, which
      has no total, so the NOT NULL order.total_value refuses it (the column
      checks come before the foreign-key checks) and the error escapes
      `add_item`; the lines are never reached. The branch after the
      `OrderStorable` test follows the code's remaining steps and cannot
      run: an order built by `OrderFromCreate` never has a total. */
  function RegisterOrderAsWritten(db: Db, shopperId: int, c: OrderCreate, now: Date): (r: Result<(Db, int)>)
    ensures r.Err?
    ensures !ProductService.AllProductsExist(db, c.orderedItems) ==> r.error == BadRequest(InvalidProductDetail)
    ensures ProductService.AllProductsExist(db, c.orderedItems) ==>
              r.error == DatabaseError(OrderTotalColumn) && r.error.StatusCode() == 500
  {
    if !ValidateItemsExist(db, c.orderedItems) then
      Err(MakeBadRequest(DefaultResource, None, Some(InvalidProductDetail)))
    else
      var order := OrderFromCreate(c, shopperId, now);
      if !OrderStorable(order) then Err(DatabaseError(OrderTotalColumn))
      else
        var (orders, id) := Repository.AddItem(db.orders, order);
        var (items, failed) := RegisterOrderItems(db.orderItems, c.orderedItems, id);
        match failed
        case Some(e) => Err(e)
        case None => Ok((db.(orders := orders, orderItems := items), id))
  }

  /** Placement as written stores no order even for the smallest request: one
      with no lines passes the product check and is refused for its total. */
  lemma EmptyOrderIsRefused(db: Db, shopperId: int, location: Users.Location, subtotal: int, now: Date)
    ensures RegisterOrderAsWritten(db, shopperId, NewOrderCreate(location, subtotal, []), now)
            == Err(DatabaseError(OrderTotalColumn))
  {
  }

  /** A request line with the prices the service computes (`enrich_item`):
      the product's current price as unit price and price times quantity as
      total. A line whose product is missing keeps what it came with. */
  function PriceLine(db: Db, item: OrderItemCreate): (p: OrderItemCreate)
    ensures p.productId == item.productId && p.quantity == item.quantity
    ensures item.productId in db.products.rows ==>
              Priced(p) && p.unitPrice.value == db.products.rows[item.productId].price
              && p.totalPrice.value == p.unitPrice.value * item.quantity
    ensures item.productId !in db.products.rows ==> p == item
  {
    match ProductService.EnrichItem(db, item)
    case Ok(e) => OrderItemCreate(e.productId, e.quantity, Some(e.unitPrice), Some(e.totalPrice))
    case Err(_) => item
  }

  /** Every request line priced. */
  function PriceLines(db: Db, items: seq<OrderItemCreate>): (r: seq<OrderItemCreate>)
    ensures |r| == |items|
    ensures forall i :: 0 <= i < |items| ==> r[i] == PriceLine(db, items[i])
  {
    seq(|items|, i requires 0 <= i < |items| => PriceLine(db, items[i]))
  }

  /** The priced lines carry exactly the prices `validate_and_prepare_order_items`
      computes for the same request. */
  lemma PricedLinesMatchPreparedLines(db: Db, items: seq<OrderItemCreate>)
    requires ProductService.AllProductsExist(db, items)
    ensures var prepared := ProductService.ValidateAndPrepareOrderItems(db, items).value;
            forall i :: 0 <= i < |items| ==>
              PriceLines(db, items)[i].unitPrice == Some(prepared[i].unitPrice)
              && PriceLines(db, items)[i].totalPrice == Some(prepared[i].totalPrice)
  {
  }

  /** `register_order` as intended: a request naming a missing product is a
      BadRequest and stores nothing. The route passes the authenticated
      shopper's id; an id no shopper row has is refused by the
      order.shopper_id key. Otherwise the order is stored with its total under
      the next order id, and its lines after it, each priced from its product;
      every line is accepted, and shoppers, vendors and products do not
      change. */
  function RegisterOrder(db: Db, shopperId: int, c: OrderCreate, now: Date): (r: Result<(Db, int)>)
    ensures !ProductService.AllProductsExist(db, c.orderedItems) ==>
              r == Err(BadRequest(InvalidProductDetail)) && r.error.StatusCode() == 400
    ensures ProductService.AllProductsExist(db, c.orderedItems) ==> (r.Err? <==> shopperId !in db.shoppers.rows)
    ensures ProductService.AllProductsExist(db, c.orderedItems) && r.Err? ==>
              r.error == DatabaseError(OrderShopperColumn) && r.error.StatusCode() == 500
    ensures r.Ok? ==> var (db', id) := r.value;
              id == db.orders.nextId
              && Repository.GetItemId(db'.orders, id) == Some(PlacedOrder(c, shopperId, now))
              && db'.orders.rows[id].shopperId == Some(shopperId)
              && db'.orders.rows[id].totalValue == Some(OrderTotal(c))
              && (forall k :: k != id ==> Repository.GetItemId(db'.orders, k) == Repository.GetItemId(db.orders, k))
              && RegisterOrderItems(db.orderItems, PriceLines(db, c.orderedItems), id) == (db'.orderItems, None)
              && db'.shoppers == db.shoppers && db'.vendors == db.vendors && db'.products == db.products
    ensures r.Ok? && Valid(db) ==> Valid(r.value.0) && r.value.1 !in db.orders.rows
  {
    if !ValidateItemsExist(db, c.orderedItems) then
      Err(MakeBadRequest(DefaultResource, None, Some(InvalidProductDetail)))
    else if shopperId !in db.shoppers.rows then Err(DatabaseError(OrderShopperColumn))
    else
      var (orders, id) := Repository.AddItem(db.orders, PlacedOrder(c, shopperId, now));
      var priced := PriceLines(db, c.orderedItems);
      assert FirstUnpriced(priced) == |priced|;
      var (items, _) := RegisterOrderItems(db.orderItems, priced, id);
      Ok((db.(orders := orders, orderItems := items), id))
  }

  /** After a placement the database accepts, the lines of the new order are
      exactly the rows it added, in request order, each priced from its
      product; the foreign keys and NOT NULL columns still hold. */
  lemma {:induction false} PlacedOrderOwnsItsLines(db: Db, shopperId: int, c: OrderCreate, now: Date)
    requires Valid(db) && ForeignKeysHold(db) && NotNullHold(db)
    requires RegisterOrder(db, shopperId, c, now).Ok?
    ensures var (db', id) := RegisterOrder(db, shopperId, c, now).value;
            ForeignKeysHold(db') && NotNullHold(db')
            && (forall k :: k in db'.orderItems.rows && db'.orderItems.rows[k].orderId == id <==>
                              db.orderItems.nextId <= k < db.orderItems.nextId + |c.orderedItems|)
            && (forall i :: 0 <= i < |c.orderedItems| ==>
                  db'.orderItems.rows[db.orderItems.nextId + i]
                  == OrderItemFromCreate(PriceLine(db, c.orderedItems[i]), id))
  {
    var (db', id) := RegisterOrder(db, shopperId, c, now).value;
    var priced := PriceLines(db, c.orderedItems);
    var n := db.orderItems.nextId;
    assert FirstUnpriced(priced) == |c.orderedItems|;
    forall k | k in db'.orderItems.rows
      ensures db'.orderItems.rows[k].orderId in db'.orders.rows
      ensures db'.orderItems.rows[k].productId in db'.products.rows
      ensures LineStorable(db'.orderItems.rows[k])
      ensures db'.orderItems.rows[k].orderId == id <==> n <= k < n + |c.orderedItems|
    {
      if n <= k < n + |c.orderedItems| {
        assert Repository.GetItemId(db'.orderItems, n + (k - n)) == Some(OrderItemFromCreate(priced[k - n], id));
      } else {
        assert Repository.GetItemId(db'.orderItems, k) == Repository.GetItemId(db.orderItems, k);
      }
    }
    forall k | n <= k < n + |c.orderedItems|
      ensures k in db'.orderItems.rows
    {
      assert Repository.GetItemId(db'.orderItems, n + (k - n)) == Some(OrderItemFromCreate(priced[k - n], id));
    }
    forall k | k in db'.orders.rows
      ensures OrderStorable(db'.orders.rows[k])
      ensures db'.orders.rows[k].shopperId.Some? ==> db'.orders.rows[k].shopperId.value in db'.shoppers.rows
    {
      if k != id {
        assert Repository.GetItemId(db'.orders, k) == Repository.GetItemId(db.orders, k);
      }
    }
    forall i | 0 <= i < |c.orderedItems|
      ensures n + i in db'.orderItems.rows
              && db'.orderItems.rows[n + i] == OrderItemFromCreate(PriceLine(db, c.orderedItems[i]), id)
    {
      assert Repository.GetItemId(db'.orderItems, n + i) == Some(OrderItemFromCreate(priced[i], id));
    }
  }

  /** `update_order`: NotFound for a missing id before the check for an empty
      update; a successful update patches exactly the set fields of that one
      order. */
  function UpdateOrder(db: Db, id: int, u: OrderUpdate): (r: Result<(Db, Order)>)
    ensures id !in db.orders.rows ==> r == Err(NotFound(OrderNotFound))
    ensures id in db.orders.rows ==> (r.Err? <==> NoFieldSet(u))
    ensures id in db.orders.rows && r.Err? ==> r.error == BadRequest(Repository.NoUpdateData)
    ensures r.Ok? ==> r.value.1 == Patch(db.orders.rows[id], u)
                      && Repository.GetItemId(r.value.0.orders, id) == Some(r.value.1)
    ensures r.Ok? ==> forall k :: k != id ==>
                        Repository.GetItemId(r.value.0.orders, k) == Repository.GetItemId(db.orders, k)
    ensures r.Ok? ==> r.value.0 == db.(orders := r.value.0.orders)
    ensures r.Ok? ==> (Valid(db) ==> Valid(r.value.0))
  {
    var o :- GetOrderId(db, id);
    DumpThenAssignIsPatch(o, u);
    DumpAllNoneIffNoFieldSet(u);
    var (orders, updated) :- Repository.UpdateItem(db.orders, id, Dump(u), Assign);
    Ok((db.(orders := orders), updated))
  }

  /** `delete_order`: NotFound for a missing id. Deleting an order makes the
      ORM null the order id of its lines (`Order.items` has no delete
      cascade), which the NOT NULL order_item.order_id refuses; so an order
      with lines cannot go. Otherwise the order row is gone and nothing else
      changes. */
  function DeleteOrder(db: Db, id: int): (r: Result<Db>)
    ensures id !in db.orders.rows ==> r == Err(NotFound(OrderNotFound))
    ensures id in db.orders.rows ==> (r.Err? <==> OrderHasLines(db, id))
    ensures id in db.orders.rows && r.Err? ==> r.error == DatabaseError(LineOrderColumn) && r.error.StatusCode() == 500
    ensures r.Ok? ==> Repository.GetItemId(r.value.orders, id) == None
    ensures r.Ok? ==> forall k :: k != id ==>
                        Repository.GetItemId(r.value.orders, k) == Repository.GetItemId(db.orders, k)
    ensures r.Ok? ==> r.value == db.(orders := r.value.orders)
    ensures r.Ok? ==> (Valid(db) ==> Valid(r.value))
  {
    var _ :- GetOrderId(db, id);
    if OrderHasLines(db, id) then Err(DatabaseError(LineOrderColumn))
    else Ok(db.(orders := Repository.DeleteItem(db.orders, id)))
  }

  /** Update and delete keep the foreign keys and the NOT NULL columns
      (placement is covered by PlacedOrderOwnsItsLines). */
  lemma OrderWritesKeepConstraints(db: Db, id: int, u: OrderUpdate)
    requires ForeignKeysHold(db) && NotNullHold(db)
    ensures UpdateOrder(db, id, u).Ok? ==>
              ForeignKeysHold(UpdateOrder(db, id, u).value.0) && NotNullHold(UpdateOrder(db, id, u).value.0)
    ensures DeleteOrder(db, id).Ok? ==>
              ForeignKeysHold(DeleteOrder(db, id).value) && NotNullHold(DeleteOrder(db, id).value)
  {
  }
}

=== FILE: product_model.dfy ===
/** The product records and schemas (server/app/services/product/model.py).
    Prices are integer cents; ratings and percentages are integer
    hundredths. */
module ProductModel {
  import opened Exceptions
  import opened Calendar
  import Repository

  datatype ProductCategory = Electronics | Clothing | HomeGoods | Beauty | Food | Other

  datatype ProductStatus = Active | OutOfStock | Discontinued | PendingReview

  /** The string each StrEnum member stands for. */
  function CategoryValue(c: ProductCategory): string {
    match c
    case Electronics => "ELECTRONICS"
    case Clothing => "CLOTHING"
    case HomeGoods => "HOME_GOODS"
    case Beauty => "BEAUTY"
    case Food => "FOOD"
    case Other => "OTHER"
  }

  /** `ProductCategory(s)`: the member with that value, if any. */
  function ParseCategory(s: string): Option<ProductCategory> {
    if s == "ELECTRONICS" then Some(Electronics)
    else if s == "CLOTHING" then Some(Clothing)
    else if s == "HOME_GOODS" then Some(HomeGoods)
    else if s == "BEAUTY" then Some(Beauty)
    else if s == "FOOD" then Some(Food)
    else if s == "OTHER" then Some(Other)
    else None
  }

  function StatusValue(s: ProductStatus): string {
    match s
    case Active => "ACTIVE"
    case OutOfStock => "OUT_OF_STOCK"
    case Discontinued => "DISCONTINUED"
    case PendingReview => "PENDING_REVIEW"
  }

  function ParseStatus(s: string): Option<ProductStatus> {
    if s == "ACTIVE" then Some(Active)
    else if s == "OUT_OF_STOCK" then Some(OutOfStock)
    else if s == "DISCONTINUED" then Some(Discontinued)
    else if s == "PENDING_REVIEW" then Some(PendingReview)
    else None
  }

  const AllCategories: set<ProductCategory> := {Electronics, Clothing, HomeGoods, Beauty, Food, Other}
  const AllStatuses: set<ProductStatus> := {Active, OutOfStock, Discontinued, PendingReview}

  /** Each enum has exactly its listed members, and the string values
      identify them: parsing a member's value gives the member back, and
      only the listed values parse. */
  lemma EnumValuesRoundTrip(c: ProductCategory, st: ProductStatus, s: string)
    ensures c in AllCategories && |AllCategories| == 6
    ensures st in AllStatuses && |AllStatuses| == 4
    ensures ParseCategory(CategoryValue(c)) == Some(c)
    ensures ParseStatus(StatusValue(st)) == Some(st)
    ensures ParseCategory(s).Some? ==> CategoryValue(ParseCategory(s).value) == s
    ensures ParseStatus(s).Some? ==> StatusValue(ParseStatus(s).value) == s
  {
  }

  /** ProductCreate: the request body of product registration. */
  datatype ProductCreate = ProductCreate(
    name: string,
    price: int,
    description: string,
    category: ProductCategory,
    tags: seq<string>,
    sku: Option<string>)

  /** A ProductCreate that sets only the required fields. */
  function NewProductCreate(name: string, price: int, description: string): (c: ProductCreate)
    ensures c.name == name && c.price == price && c.description == description
    ensures c.category == Other && c.tags == [] && c.sku == None
  {
    ProductCreate(name, price, description, Other, [], None)
  }

  /** A row of the product table (its id is the table key). */
  datatype Product = Product(
    name: string,
    price: int,
    description: string,
    category: ProductCategory,
    tags: seq<string>,
    sku: Option<string>,
    vendorId: Option<int>,
    rating: Option<int>,
    stock: Option<int>,
    status: ProductStatus,
    createdAt: Date,
    updatedAt: Option<Date>,
    viewsCount: int,
    salesCount: int,
    discountPercentage: int)

  /** `Product(**create.model_dump(), vendor_id=...)`: the request fields
      plus the table defaults. */
  function ProductFromCreate(c: ProductCreate, vendorId: Option<int>, createdAt: Date): (p: Product)
    ensures p.name == c.name && p.price == c.price && p.description == c.description
    ensures p.category == c.category && p.tags == c.tags && p.sku == c.sku
    ensures p.vendorId == vendorId && p.createdAt == createdAt
    ensures p.rating == None && p.stock == None && p.updatedAt == None
    ensures p.status == Active && p.viewsCount == 0 && p.salesCount == 0 && p.discountPercentage == 0
  {
    Product(c.name, c.price, c.description, c.category, c.tags, c.sku, vendorId,
            None, None, Active, createdAt, None, 0, 0, 0)
  }

  /** ProductUpdate: every field optional, None by default. */
  datatype ProductUpdate = ProductUpdate(
    name: Option<string>,
    price: Option<int>,
    description: Option<string>,
    category: Option<ProductCategory>,
    tags: Option<seq<string>>,
    sku: Option<string>,
    rating: Option<int>,
    stock: Option<int>,
    status: Option<ProductStatus>,
    updatedAt: Option<Date>,
    viewsCount: Option<int>,
    salesCount: Option<int>,
    discountPercentage: Option<int>)

  /** `ProductUpdate()`: every field left at its default. */
  const DefaultProductUpdate := ProductUpdate(None, None, None, None, None, None, None,
                                              None, None, None, None, None, None)

  predicate NoFieldSet(u: ProductUpdate) {
    && u.name.None? && u.price.None? && u.description.None? && u.category.None?
    && u.tags.None? && u.sku.None? && u.rating.None? && u.stock.None? && u.status.None?
    && u.updatedAt.None? && u.viewsCount.None? && u.salesCount.None? && u.discountPercentage.None?
  }

  /** Column names of the update schema. */
  datatype ProductField =
    | NameF | PriceF | DescriptionF | CategoryF | TagsF | SkuF | RatingF | StockF
    | StatusF | UpdatedAtF | ViewsCountF | SalesCountF | DiscountPercentageF

  /** A dumped column value, tagged with its column. */
  datatype ProductValue =
    | NameV(name: string)
    | PriceV(price: int)
    | DescriptionV(description: string)
    | CategoryV(category: ProductCategory)
    | TagsV(tags: seq<string>)
    | SkuV(sku: string)
    | RatingV(rating: int)
    | StockV(stock: int)
    | StatusV(status: ProductStatus)
    | UpdatedAtV(updatedAt: Date)
    | ViewsCountV(viewsCount: int)
    | SalesCountV(salesCount: int)
    | DiscountPercentageV(discountPercentage: int)

  const AllProductFields: set<ProductField> :=
    {NameF, PriceF, DescriptionF, CategoryF, TagsF, SkuF, RatingF, StockF,
     StatusF, UpdatedAtF, ViewsCountF, SalesCountF, DiscountPercentageF}

  /** The dumped value of one column: its value when set, None otherwise. */
  function DumpField(u: ProductUpdate, k: ProductField): Option<ProductValue> {
    match k
    case NameF => if u.name.Some? then Some(NameV(u.name.value)) else None
    case PriceF => if u.price.Some? then Some(PriceV(u.price.value)) else None
    case DescriptionF => if u.description.Some? then Some(DescriptionV(u.description.value)) else None
    case CategoryF => if u.category.Some? then Some(CategoryV(u.category.value)) else None
    case TagsF => if u.tags.Some? then Some(TagsV(u.tags.value)) else None
    case SkuF => if u.sku.Some? then Some(SkuV(u.sku.value)) else None
    case RatingF => if u.rating.Some? then Some(RatingV(u.rating.value)) else None
    case StockF => if u.stock.Some? then Some(StockV(u.stock.value)) else None
    case StatusF => if u.status.Some? then Some(StatusV(u.status.value)) else None
    case UpdatedAtF => if u.updatedAt.Some? then Some(UpdatedAtV(u.updatedAt.value)) else None
    case ViewsCountF => if u.viewsCount.Some? then Some(ViewsCountV(u.viewsCount.value)) else None
    case SalesCountF => if u.salesCount.Some? then Some(SalesCountV(u.salesCount.value)) else None
    case DiscountPercentageF =>
      if u.discountPercentage.Some? then Some(DiscountPercentageV(u.discountPercentage.value)) else None
  }

  /** `update.model_dump()`: every column with its value or None. */
  function Dump(u: ProductUpdate): map<ProductField, Option<ProductValue>> {
    map k | k in AllProductFields :: DumpField(u, k)
  }

  /** The SET clause for the catalogue columns (name, price, description,
      category, tags, sku): each column present in the filtered dump takes its
      value. */
  function AssignListing(p: Product, f: map<ProductField, ProductValue>): Product {
    p.(
      name := if NameF in f && f[NameF].NameV? then f[NameF].name else p.name,
      price := if PriceF in f && f[PriceF].PriceV? then f[PriceF].price else p.price,
      description := if DescriptionF in f && f[DescriptionF].DescriptionV? then f[DescriptionF].description else p.description,
      category := if CategoryF in f && f[CategoryF].CategoryV? then f[CategoryF].category else p.category,
      tags := if TagsF in f && f[TagsF].TagsV? then f[TagsF].tags else p.tags,
      sku := if SkuF in f && f[SkuF].SkuV? then Some(f[SkuF].sku) else p.sku
    )
  }

  /** The SET clause for the rating, stock, status and counter columns. */
  function AssignTracking(p: Product, f: map<ProductField, ProductValue>): Product {
    p.(
      rating := if RatingF in f && f[RatingF].RatingV? then Some(f[RatingF].rating) else p.rating,
      stock := if StockF in f && f[StockF].StockV? then Some(f[StockF].stock) else p.stock,
      status := if StatusF in f && f[StatusF].StatusV? then f[StatusF].status else p.status,
      updatedAt := if UpdatedAtF in f && f[UpdatedAtF].UpdatedAtV? then Some(f[UpdatedAtF].updatedAt) else p.updatedAt,
      viewsCount := if ViewsCountF in f && f[ViewsCountF].ViewsCountV? then f[ViewsCountF].viewsCount else p.viewsCount,
      salesCount := if SalesCountF in f && f[SalesCountF].SalesCountV? then f[SalesCountF].salesCount else p.salesCount,
      discountPercentage := if DiscountPercentageF in f && f[DiscountPercentageF].DiscountPercentageV? then f[DiscountPercentageF].discountPercentage else p.discountPercentage
    )
  }

  /** The SET clause of the UPDATE statement: each column present in the
      filtered dump takes its value. */
  function Assign(p: Product, f: map<ProductField, ProductValue>): Product {
    AssignTracking(AssignListing(p, f), f)
  }

  /** Reference meaning of a partial update of the catalogue columns: a set
      field takes the new value, an unset one keeps the old. */
  function PatchListing(p: Product, u: ProductUpdate): Product {
    p.(
      name := u.name.GetOr(p.name),
      price := u.price.GetOr(p.price),
      description := u.description.GetOr(p.description),
      category := u.category.GetOr(p.category),
      tags := u.tags.GetOr(p.tags),
      sku := if u.sku.Some? then u.sku else p.sku
    )
  }

  /** Reference meaning of a partial update of the remaining columns. */
  function PatchTracking(p: Product, u: ProductUpdate): Product {
    p.(
      rating := if u.rating.Some? then u.rating else p.rating,
      stock := if u.stock.Some? then u.stock else p.stock,
      status := u.status.GetOr(p.status),
      updatedAt := if u.updatedAt.Some? then u.updatedAt else p.updatedAt,
      viewsCount := u.viewsCount.GetOr(p.viewsCount),
      salesCount := u.salesCount.GetOr(p.salesCount),
      discountPercentage := u.discountPercentage.GetOr(p.discountPercentage)
    )
  }

  /** Reference meaning of a partial update, field by field. */
  function Patch(p: Product, u: ProductUpdate): Product {
    PatchTracking(PatchListing(p, u), u)
  }

  /** The filtered dump holds exactly the set columns, each with its value. */
  lemma FilteredDump(u: ProductUpdate)
    ensures forall k :: k in Repository.NonNoneFields(Dump(u)) <==> DumpField(u, k).Some?
    ensures forall k :: k in Repository.NonNoneFields(Dump(u)) ==>
              Repository.NonNoneFields(Dump(u))[k] == DumpField(u, k).value
  {
    forall k ensures k in Dump(u) && Dump(u)[k] == DumpField(u, k) {
      match k
      case NameF => case PriceF => case DescriptionF => case CategoryF => case TagsF =>
      case SkuF => case RatingF => case StockF => case StatusF => case UpdatedAtF =>
      case ViewsCountF => case SalesCountF => case DiscountPercentageF =>
    }
  }

  /** Assigning a map that holds exactly the set columns patches the catalogue
      columns. */
  lemma AssignListingColumns(p: Product, u: ProductUpdate, f: map<ProductField, ProductValue>)
    requires forall k :: k in f <==> DumpField(u, k).Some?
    requires forall k :: k in f ==> f[k] == DumpField(u, k).value
    ensures AssignListing(p, f) == PatchListing(p, u)
  {
    assert NameF in f <==> u.name.Some?;
    assert PriceF in f <==> u.price.Some?;
    assert DescriptionF in f <==> u.description.Some?;
    assert CategoryF in f <==> u.category.Some?;
    assert TagsF in f <==> u.tags.Some?;
    assert SkuF in f <==> u.sku.Some?;
  }

  /** Assigning a map that holds exactly the set columns patches the remaining
      columns. */
  lemma AssignTrackingColumns(p: Product, u: ProductUpdate, f: map<ProductField, ProductValue>)
    requires forall k :: k in f <==> DumpField(u, k).Some?
    requires forall k :: k in f ==> f[k] == DumpField(u, k).value
    ensures AssignTracking(p, f) == PatchTracking(p, u)
  {
    assert RatingF in f <==> u.rating.Some?;
    assert StockF in f <==> u.stock.Some?;
    assert StatusF in f <==> u.status.Some?;
    assert UpdatedAtF in f <==> u.updatedAt.Some?;
    assert ViewsCountF in f <==> u.viewsCount.Some?;
    assert SalesCountF in f <==> u.salesCount.Some?;
    assert DiscountPercentageF in f <==> u.discountPercentage.Some?;
  }

  /** Assigning a map that holds exactly the set columns is the patch. */
  lemma AssignSetColumns(p: Product, u: ProductUpdate, f: map<ProductField, ProductValue>)
    requires forall k :: k in f <==> DumpField(u, k).Some?
    requires forall k :: k in f ==> f[k] == DumpField(u, k).value
    ensures Assign(p, f) == Patch(p, u)
  {
    AssignListingColumns(p, u, f);
    AssignTrackingColumns(AssignListing(p, f), u, f);
  }

  /** Dumping an update, dropping its None fields and assigning the rest is
      the field-by-field patch. */
  lemma DumpThenAssignIsPatch(p: Product, u: ProductUpdate)
    ensures Assign(p, Repository.NonNoneFields(Dump(u))) == Patch(p, u)
  {
    FilteredDump(u);
    AssignSetColumns(p, u, Repository.NonNoneFields(Dump(u)));
  }

  /** The repository rejects a product update exactly when no field is set,
      which is the case for `ProductUpdate()`. */
  lemma DumpAllNoneIffNoFieldSet(u: ProductUpdate)
    ensures Repository.AllNone(Dump(u)) <==> NoFieldSet(u)
    ensures NoFieldSet(DefaultProductUpdate)
  {
    var d := Dump(u);
    if !NoFieldSet(u) {
      if u.name.Some? { assert d[NameF].Some?; }
      else if u.price.Some? { assert d[PriceF].Some?; }
      else if u.description.Some? { assert d[DescriptionF].Some?; }
      else if u.category.Some? { assert d[CategoryF].Some?; }
      else if u.tags.Some? { assert d[TagsF].Some?; }
      else if u.sku.Some? { assert d[SkuF].Some?; }
      else if u.rating.Some? { assert d[RatingF].Some?; }
      else if u.stock.Some? { assert d[StockF].Some?; }
      else if u.status.Some? { assert d[StatusF].Some?; }
      else if u.updatedAt.Some? { assert d[UpdatedAtF].Some?; }
      else if u.viewsCount.Some? { assert d[ViewsCountF].Some?; }
      else if u.salesCount.Some? { assert d[SalesCountF].Some?; }
      else { assert d[DiscountPercentageF].Some?; }
    }
  }
}

=== FILE: product_service.dfy ===
/** The product service (server/app/services/product/service.py): lookup or
    NotFound, registration under the calling vendor, partial update, delete,
    and the price enrichment of order lines. */
module ProductService {
  import opened Exceptions
  import opened Calendar
  import Repository
  import Text
  import opened ProductModel
  import OrderModel
  import opened Database

  const ProductNotFound := "Product not found"

  /** `get_product_id`: the product, or NotFound. */
  function GetProductId(db: Db, id: int): (r: Result<Product>)
    ensures r.Ok? <==> id in db.products.rows
    ensures r.Ok? ==> r.value == db.products.rows[id]
    ensures r.Err? ==> r.error == NotFound(ProductNotFound) && r.error.StatusCode() == 404
  {
    match Repository.GetItemId(db.products, id)
    case None => Err(MakeNotFound(DefaultResource, None, Some(ProductNotFound)))
    case Some(p) => Ok(p)
  }

  /** `register_product`: stores the request as a new product owned by the
      calling vendor, under the next product id. Nothing else changes. The
      route passes the authenticated vendor's id; an id no vendor row has is
      refused by the product.vendor_id key. */
  function RegisterProduct(db: Db, vendorId: int, c: ProductCreate, now: Date): (r: Result<(Db, int)>)
    ensures r.Err? <==> vendorId !in db.vendors.rows
    ensures r.Err? ==> r.error == DatabaseError(ProductVendorColumn) && r.error.StatusCode() == 500
    ensures r.Ok? ==> var (db', id) := r.value;
              Repository.GetItemId(db'.products, id) == Some(ProductFromCreate(c, Some(vendorId), now))
              && db'.products.rows[id].vendorId == Some(vendorId)
              && id == db.products.nextId
              && (forall k :: k != id ==> Repository.GetItemId(db'.products, k) == Repository.GetItemId(db.products, k))
              && db' == db.(products := db'.products)
    ensures r.Ok? && Valid(db) ==> Valid(r.value.0) && r.value.1 !in db.products.rows
  {
    if vendorId !in db.vendors.rows then Err(DatabaseError(ProductVendorColumn))
    else
      var (products, id) := Repository.AddItem(db.products, ProductFromCreate(c, Some(vendorId), now));
      Ok((db.(products := products), id))
  }

  /** A registration the database accepts keeps every foreign key naming a
      stored row and every NOT NULL column set. */
  lemma RegisterKeepsForeignKeys(db: Db, vendorId: int, c: ProductCreate, now: Date)
    requires Valid(db) && ForeignKeysHold(db) && NotNullHold(db)
    ensures RegisterProduct(db, vendorId, c, now).Ok? ==>
              ForeignKeysHold(RegisterProduct(db, vendorId, c, now).value.0)
              && NotNullHold(RegisterProduct(db, vendorId, c, now).value.0)
  {
  }

  /** `update_product`: NotFound for a missing id comes before the check for
      an empty update; a successful update patches exactly the set fields of
      that one product. */
  function UpdateProduct(db: Db, id: int, u: ProductUpdate): (r: Result<(Db, Product)>)
    ensures id !in db.products.rows ==> r == Err(NotFound(ProductNotFound))
    ensures id in db.products.rows ==> (r.Err? <==> NoFieldSet(u))
    ensures id in db.products.rows && r.Err? ==> r.error == BadRequest(Repository.NoUpdateData)
    ensures r.Ok? ==> r.value.1 == Patch(db.products.rows[id], u)
                      && Repository.GetItemId(r.value.0.products, id) == Some(r.value.1)
    ensures r.Ok? ==> forall k :: k != id ==>
                        Repository.GetItemId(r.value.0.products, k) == Repository.GetItemId(db.products, k)
    ensures r.Ok? ==> r.value.0 == db.(products := r.value.0.products)
    ensures r.Ok? ==> (Valid(db) ==> Valid(r.value.0))
  {
    var p :- GetProductId(db, id);
    DumpThenAssignIsPatch(p, u);
    DumpAllNoneIffNoFieldSet(u);
    var (products, updated) :- Repository.UpdateItem(db.products, id, Dump(u), Assign);
    Ok((db.(products := products), updated))
  }

  /** `delete_product`: NotFound for a missing id. A product some order line
      still names cannot go: the order_item.product_id key refuses the
      commit. Otherwise the product is gone and nothing else changes. */
  function DeleteProduct(db: Db, id: int): (r: Result<Db>)
    ensures id !in db.products.rows ==> r == Err(NotFound(ProductNotFound))
    ensures id in db.products.rows ==> (r.Err? <==> ProductHasLines(db, id))
    ensures id in db.products.rows && r.Err? ==>
              r.error == DatabaseError(LineProductColumn) && r.error.StatusCode() == 500
    ensures r.Ok? ==> Repository.GetItemId(r.value.products, id) == None
    ensures r.Ok? ==> forall k :: k != id ==>
                        Repository.GetItemId(r.value.products, k) == Repository.GetItemId(db.products, k)
    ensures r.Ok? ==> r.value == db.(products := r.value.products)
    ensures r.Ok? ==> (Valid(db) ==> Valid(r.value))
  {
    var _ :- GetProductId(db, id);
    if ProductHasLines(db, id) then Err(DatabaseError(LineProductColumn))
    else Ok(db.(products := Repository.DeleteItem(db.products, id)))
  }

  /** A delete the database accepts keeps every foreign key naming a stored
      row and every NOT NULL column set. */
  lemma DeleteKeepsForeignKeys(db: Db, id: int)
    requires ForeignKeysHold(db) && NotNullHold(db)
    ensures DeleteProduct(db, id).Ok? ==>
              ForeignKeysHold(DeleteProduct(db, id).value) && NotNullHold(DeleteProduct(db, id).value)
  {
  }

  /** A product registered by a stored vendor is found under the returned id,
      owned by that vendor; no order line names it yet, so it can be deleted,
      and then it is not found any more. */
  lemma RegisterThenGet(db: Db, vendorId: int, c: ProductCreate, now: Date, other: int)
    requires Valid(db) && ForeignKeysHold(db) && vendorId in db.vendors.rows
    ensures RegisterProduct(db, vendorId, c, now).Ok?
    ensures var (db', id) := RegisterProduct(db, vendorId, c, now).value;
            GetProductId(db', id) == Ok(ProductFromCreate(c, Some(vendorId), now))
            && DeleteProduct(db', id).Ok?
            && GetProductId(DeleteProduct(db', id).value, id) == Err(NotFound(ProductNotFound))
            && (other != id ==> GetProductId(DeleteProduct(db', id).value, other) == GetProductId(db, other))
  {
  }

  /** The detail of the BadRequest for an order line whose product is
      missing: `f"Product with id {product_id} not found"`. */
  function MissingProductDetail(productId: int): string {
    "Product with id " + Text.IntToString(productId) + " not found"
  }

  /** The product id a missing-product detail names, read back from it. */
  function MissingProductId(m: string): Option<int> {
    var prefix := "Product with id ";
    var suffix := " not found";
    if |m| >= |prefix| + |suffix| && m[..|prefix|] == prefix && m[|m| - |suffix|..] == suffix
    then Text.ParseInt(m[|prefix|..|m| - |suffix|])
    else None
  }

  /** The detail names the product: the id is read back from it, so two
      different missing products give two different messages. */
  lemma MissingProductDetailNamesId(productId: int)
    ensures MissingProductId(MissingProductDetail(productId)) == Some(productId)
  {
    var digits := Text.IntToString(productId);
    var m := MissingProductDetail(productId);
    assert m[..16] == "Product with id ";
    assert m[|m| - 10..] == " not found";
    assert m[16..|m| - 10] == digits;
    Text.IntToStringRoundTrip(productId);
  }

  /** `enrich_item`: the line with the product's current price as unit price
      and price times quantity as total; a missing product becomes a
      BadRequest naming its id. */
  function EnrichItem(db: Db, item: OrderModel.OrderItemCreate): (r: Result<OrderModel.OrderItemPublic>)
    ensures r.Ok? <==> item.productId in db.products.rows
    ensures r.Ok? ==> r.value.productId == item.productId && r.value.quantity == item.quantity
    ensures r.Ok? ==> r.value.unitPrice == db.products.rows[item.productId].price
    ensures r.Ok? ==> r.value.totalPrice == r.value.unitPrice * item.quantity
    ensures r.Ok? ==> r.value.productName == None
    ensures r.Err? ==> r.error == BadRequest(MissingProductDetail(item.productId))
  {
    match GetProductId(db, item.productId)
    case Err(_) => Err(MakeBadRequest(DefaultResource, None, Some(MissingProductDetail(item.productId))))
    case Ok(p) => Ok(OrderModel.OrderItemPublic(item.productId, item.quantity, p.price,
                                                p.price * item.quantity, None))
  }

  /** True when every line names a stored product. */
  predicate AllProductsExist(db: Db, items: seq<OrderModel.OrderItemCreate>) {
    forall i :: 0 <= i < |items| ==> items[i].productId in db.products.rows
  }

  /** `validate_and_prepare_order_items`: one enriched line per request line,
      in order; the first line whose product is missing aborts the whole
      list with that line's BadRequest. */
  function ValidateAndPrepareOrderItems(db: Db, items: seq<OrderModel.OrderItemCreate>)
    : (r: Result<seq<OrderModel.OrderItemPublic>>)
    ensures r.Ok? <==> AllProductsExist(db, items)
    ensures r.Ok? ==> |r.value| == |items|
    ensures r.Ok? ==> forall i :: 0 <= i < |items| ==> Ok(r.value[i]) == EnrichItem(db, items[i])
    ensures r.Err? ==> exists k :: 0 <= k < |items| && items[k].productId !in db.products.rows
                                 && (forall j :: 0 <= j < k ==> items[j].productId in db.products.rows)
                                 && r.error == BadRequest(MissingProductDetail(items[k].productId))
    decreases |items|
  {
    if |items| == 0 then Ok([])
    else
      var head :- EnrichItem(db, items[0]);
      match ValidateAndPrepareOrderItems(db, items[1..])
      case Err(e) =>
        assert forall j :: 1 <= j < |items| ==> items[j] == items[1..][j - 1];
        var k :| 0 <= k < |items[1..]| && items[1..][k].productId !in db.products.rows
                 && (forall j :: 0 <= j < k ==> items[1..][j].productId in db.products.rows)
                 && e == BadRequest(MissingProductDetail(items[1..][k].productId));
        assert items[k + 1] == items[1..][k];
        Err(e)
      case Ok(tail) =>
        assert forall j :: 1 <= j < |items| ==> items[j] == items[1..][j - 1];
        Ok([head] + tail)
  }
}

=== FILE: repository.dfy ===
/** The generic repository shared by every entity
    (server/app/core/repository.py). A table is a map from primary key to
    record plus the next value of the table's id sequence, so inserted rows
    get fresh keys the way an autoincrement column hands them out. */
module Repository {
  import opened Exceptions

  datatype Table<R> = Table(rows: map<int, R>, nextId: int)

  function EmptyTable<R>(): Table<R> {
    Table(map[], 1)
  }

  /** Every key was handed out by the sequence: keys are positive and below
      the next value. */
  predicate Valid<R>(t: Table<R>) {
    1 <= t.nextId && forall id :: id in t.rows ==> 1 <= id < t.nextId
  }

  /** `table_is_empty`: the table has no row at all. */
  predicate IsEmpty<R>(t: Table<R>) {
    t.rows == map[]
  }

  /** `get_item_id`: the row with that primary key, or None. */
  function GetItemId<R>(t: Table<R>, id: int): (r: Option<R>)
    ensures r.Some? <==> id in t.rows
    ensures r.Some? ==> r.value == t.rows[id]
  {
    if id in t.rows then Some(t.rows[id]) else None
  }

  /** `add_item`: stores the record under the next id of the sequence and
      returns the new table together with that id. */
  function AddItem<R>(t: Table<R>, item: R): (r: (Table<R>, int))
    ensures GetItemId(r.0, r.1) == Some(item)
    ensures forall k :: k != r.1 ==> GetItemId(r.0, k) == GetItemId(t, k)
    ensures r.0.nextId == t.nextId + 1 && r.1 == t.nextId
    ensures Valid(t) ==> Valid(r.0) && GetItemId(t, r.1) == None && !IsEmpty(r.0)
  {
    (Table(t.rows[t.nextId := item], t.nextId + 1), t.nextId)
  }

  /** Repeated `add_item`, one call per record in list order. */
  function AddItems<R>(t: Table<R>, items: seq<R>): (r: Table<R>)
    ensures r.nextId == t.nextId + |items|
    ensures forall i :: 0 <= i < |items| ==> GetItemId(r, t.nextId + i) == Some(items[i])
    ensures forall k :: (k < t.nextId || k >= t.nextId + |items|) ==> GetItemId(r, k) == GetItemId(t, k)
    ensures Valid(t) ==> Valid(r)
    decreases |items|
  {
    if |items| == 0 then t
    else
      var (t1, _) := AddItem(t, items[0]);
      var r := AddItems(t1, items[1..]);
      assert forall i :: 1 <= i < |items| ==> items[i] == items[1..][i - 1];
      r
  }

  /** Scans the keys `from .. nextId-1` in increasing order for the first
      row whose property equals the value. */
  function FindFrom<R, P(==)>(t: Table<R>, prop: R -> P, value: P, from: int): (r: Option<(int, R)>)
    ensures r.Some? ==> from <= r.value.0 < t.nextId && r.value.0 in t.rows
                        && t.rows[r.value.0] == r.value.1 && prop(r.value.1) == value
    ensures r.Some? ==> forall k :: from <= k < r.value.0 && k in t.rows ==> prop(t.rows[k]) != value
    ensures r.None? ==> forall k :: from <= k < t.nextId && k in t.rows ==> prop(t.rows[k]) != value
    decreases t.nextId - from
  {
    if from >= t.nextId then None
    else if from in t.rows && prop(t.rows[from]) == value then Some((from, t.rows[from]))
    else FindFrom(t, prop, value, from + 1)
  }

  /** `get_item_by_property`: a row whose property equals the value, or None
      when no row has it. When several rows match, the one with the lowest
      key is returned. */
  function GetItemByProperty<R, P(==)>(t: Table<R>, prop: R -> P, value: P): (r: Option<(int, R)>)
    ensures r.Some? ==> r.value.0 in t.rows && t.rows[r.value.0] == r.value.1 && prop(r.value.1) == value
    ensures Valid(t) && r.Some? ==> forall k :: k in t.rows && k < r.value.0 ==> prop(t.rows[k]) != value
    ensures Valid(t) ==> (r.None? <==> forall k :: k in t.rows ==> prop(t.rows[k]) != value)
  {
    FindFrom(t, prop, value, 1)
  }

  /** The dict comprehension of `update_item`: the dumped fields whose value
      is not None. */
  function NonNoneFields<K(!new), V>(dump: map<K, Option<V>>): (m: map<K, V>)
    ensures forall k :: k in m <==> k in dump && dump[k].Some?
    ensures forall k :: k in m ==> m[k] == dump[k].value
  {
    map k | k in dump && dump[k].Some? :: dump[k].value
  }

  /** True when the dumped update has no non-None field. */
  predicate AllNone<K(!new), V>(dump: map<K, Option<V>>) {
    forall k :: k in dump ==> dump[k].None?
  }

  const NoUpdateData := "No update data provided"

  /** `update_item`: rejects an update without a non-None field and writes
      nothing; otherwise writes exactly the non-None fields into the row
      (`assign` is the column assignment of the UPDATE statement) and leaves
      every other row as it was. */
  function UpdateItem<K(!new), V, R>(t: Table<R>, id: int, dump: map<K, Option<V>>,
                               assign: (R, map<K, V>) -> R): (r: Result<(Table<R>, R)>)
    requires id in t.rows
    ensures r.Err? <==> AllNone(dump)
    ensures r.Err? ==> r.error == BadRequest(NoUpdateData)
    ensures r.Ok? ==> r.value.1 == assign(t.rows[id], NonNoneFields(dump))
    ensures r.Ok? ==> GetItemId(r.value.0, id) == Some(r.value.1)
    ensures r.Ok? ==> forall k :: k != id ==> GetItemId(r.value.0, k) == GetItemId(t, k)
    ensures r.Ok? ==> r.value.0.nextId == t.nextId && (Valid(t) ==> Valid(r.value.0))
  {
    var fields := NonNoneFields(dump);
    if fields == map[] then
      assert forall k :: k in dump ==> k !in fields;
      Err(MakeBadRequest(DefaultResource, None, Some(NoUpdateData)))
    else
      assert !AllNone(dump) by {
        var k :| k in fields;
        assert dump[k].Some?;
      }
      var updated := assign(t.rows[id], fields);
      Ok((Table(t.rows[id := updated], t.nextId), updated))
  }

  /** `delete_item`: hard delete of one row; the id sequence does not move
      back, so the key is never handed out again. */
  function DeleteItem<R>(t: Table<R>, id: int): (r: Table<R>)
    ensures GetItemId(r, id) == None
    ensures forall k :: k != id ==> GetItemId(r, k) == GetItemId(t, k)
    ensures r.nextId == t.nextId && (Valid(t) ==> Valid(r))
  {
    Table(t.rows - {id}, t.nextId)
  }
}

=== FILE: seed.dfy ===
/** Database seeding (server/app/core/db/seed.py): a profile selects a set
    of fixture generators, and each generator fills its table only while
    that table is empty, in the order vendors, shoppers, products, orders.
    Orders bring their lines with them. bcrypt hashing (random salt) and the
    clock are parameters. Amounts are integer cents; ratings and
    percentages are integer hundredths. */
module Seed {
  import opened Exceptions
  import opened Calendar
  import Repository
  import Users
  import ShopperModel
  import VendorModel
  import ProductModel
  import OrderModel
  import opened Database

  datatype SeedProfile = Minimal | Testing | FullDemo

  /** The string each profile member stands for. */
  function ProfileValue(p: SeedProfile): string {
    match p
    case Minimal => "minimal"
    case Testing => "testing"
    case FullDemo => "full_demo"
  }

  /** `profile not in SEED_REGISTRY` falls back to MINIMAL: a name that is
      not a profile value selects the minimal profile; a profile value
      selects its profile. */
  function ResolveProfile(name: string): (p: SeedProfile)
    ensures name !in {"minimal", "testing", "full_demo"} ==> p == Minimal
    ensures name in {"minimal", "testing", "full_demo"} ==> ProfileValue(p) == name
  {
    if name == "testing" then Testing
    else if name == "full_demo" then FullDemo
    else Minimal
  }

  /** Every profile is found by its own value. */
  lemma ResolveProfileRoundTrip(p: SeedProfile)
    ensures ResolveProfile(ProfileValue(p)) == p
  {
  }

  /** The four seeded models. */
  datatype TableKind = VendorTable | ShopperTable | ProductTable | OrderTable

  /** Entities with no dependencies come before the ones that refer to
      them. */
  const SeedingOrder: seq<TableKind> := [VendorTable, ShopperTable, ProductTable, OrderTable]

  /** SEED_REGISTRY: the models a profile has a generator for. Only the
      minimal profile has any. */
  function Registry(p: SeedProfile): set<TableKind> {
    match p
    case Minimal => {VendorTable, ShopperTable, ProductTable, OrderTable}
    case Testing => {}
    case FullDemo => {}
  }

  // The fixtures of the minimal profile. Their text is kept in named
  // constants, one per record.

  function Address(kind: string, street: string, number: string, complement: Option<string>,
                   zipCode: string, city: string, state: string): Users.Location {
    Users.Location(kind, street, number, complement, zipCode, city, state, "USA")
  }

  const TechGalaxyStore := Address("store", "Main Street", "123", None, "10001", "New York", "NY")
  const FashionAvenueWarehouse := Address("warehouse", "Commerce Blvd", "789", None, "90210", "Los Angeles", "CA")
  const JohnHome := Address("home", "Maple Avenue", "456", None, "60007", "Chicago", "IL")
  const JaneWork := Address("work", "Tech Park", "789", Some("Suite 200"), "94043", "Mountain View", "CA")

  /** The text columns of an account fixture, with its plaintext password. */
  datatype AccountText = AccountText(name: string, phoneNumber: string, email: string, password: string)

  const TechGalaxy := AccountText("Tech Galaxy", "+1-555-123-4567", "contact@techgalaxy.com", "techpass123")
  const FashionAvenue := AccountText("Fashion Avanue", "+1-555-987-6543", "support@fashionavenue.com", "fashion456")
  const JohnDoe := AccountText("John Doe", "+1-555-111-2222", "john_doe@example.com", "johndoe123")
  const JaneSmith := AccountText("Jane Smith", "+1-555-333-4444", "jane_smith@example.com", "janesmith456")
  const JohnSearches := ["laptop", "smartphone", "headphones"]
  const JaneSearches := ["dress", "shoes", "handbag"]

  /** An active vendor fixture; `hash` stands for `create_password_hash`. */
  function VendorFixture(t: AccountText, hash: string -> string, rating: int, commission: int,
                         specialty: string, location: Users.Location): VendorModel.Vendor {
    VendorModel.Vendor(t.name, t.phoneNumber, t.email, Users.Active, hash(t.password), rating, commission,
                       specialty, [location])
  }

  /** An active shopper fixture with no cart. */
  function ShopperFixture(t: AccountText, hash: string -> string, wishlist: seq<int>, searches: seq<string>,
                          orderHistory: seq<int>, location: Users.Location): ShopperModel.Shopper {
    ShopperModel.Shopper(t.name, t.phoneNumber, t.email, Users.Active, hash(t.password), wishlist, searches,
                         orderHistory, [location], None)
  }

  /** `get_minimal_vendors`. */
  function MinimalVendors(hash: string -> string): (r: seq<VendorModel.Vendor>)
    ensures |r| == 2
  {
    [ VendorFixture(TechGalaxy, hash, 470, 1000, "Electronics", TechGalaxyStore),
      VendorFixture(FashionAvenue, hash, 450, 1500, "Clothing", FashionAvenueWarehouse) ]
  }

  /** `get_minimal_shoppers`. */
  function MinimalShoppers(hash: string -> string): (r: seq<ShopperModel.Shopper>)
    ensures |r| == 2
  {
    [ ShopperFixture(JohnDoe, hash, [1, 3, 5], JohnSearches, [10001, 10002], JohnHome),
      ShopperFixture(JaneSmith, hash, [2, 4], JaneSearches, [10003], JaneWork) ]
  }

  /** The text columns of a product fixture. */
  datatype ProductText = ProductText(name: string, description: string, tags: seq<string>, sku: string)

  const PremiumLaptop := ProductText("Premium Laptop", "High-performance laptop with 16GB RAM and 512GB SSD",
                                     ["laptop", "computer", "premium"], "TG-LAPTOP-001")
  const WirelessEarbuds := ProductText("Wireless Earbuds", "Noise-cancelling wireless earbuds with 24-hour battery life",
                                       ["audio", "earbuds", "wireless"], "TG-AUDIO-002")
  const SmartWatch := ProductText("Smart Watch", "Fitness and health tracking smartwatch with heart rate monitor",
                                  ["wearable", "fitness", "smartwatch"], "TG-WATCH-003")
  const DesignerJeans := ProductText("Designer Jeans", "Premium denim jeans with modern fit",
                                     ["jeans", "denim", "fashion"], "FA-JEAN-001")
  const SummerDress := ProductText("Summer Dress", "Lightweight floral pattern summer dress",
                                   ["dress", "summer", "floral"], "FA-DRESS-002")
  const LeatherJacket := ProductText("Leather Jacket", "Classic leather jacket with modern styling",
                                     ["jacket", "leather", "outerwear"], "FA-JACKET-003")

  /** An active product fixture created at `now`. */
  function Listing(t: ProductText, price: int, category: ProductModel.ProductCategory, vendorId: int,
                   rating: int, stock: int, now: Date, views: int, sales: int, discount: int): ProductModel.Product {
    ProductModel.Product(t.name, price, t.description, category, t.tags, Some(t.sku), Some(vendorId),
                         Some(rating), Some(stock), ProductModel.Active, now, None, views, sales, discount)
  }

  /** `get_minimal_products`: three products of vendor 1, then three of
      vendor 2. */
  function MinimalProducts(now: Date): (r: seq<ProductModel.Product>)
    ensures |r| == 6
    ensures forall i :: 0 <= i < |r| ==> r[i].vendorId == Some(if i < 3 then 1 else 2)
    ensures r[0].price == 99999 && r[1].price == 8999 && r[4].price == 5999
  {
    [ Listing(PremiumLaptop, 99999, ProductModel.Electronics, 1, 480, 25, now, 120, 17, 0),
      Listing(WirelessEarbuds, 8999, ProductModel.Electronics, 1, 450, 50, now, 85, 12, 500),
      Listing(SmartWatch, 19999, ProductModel.Electronics, 1, 460, 30, now, 95, 8, 0),
      Listing(DesignerJeans, 7999, ProductModel.Clothing, 2, 470, 40, now, 110, 22, 0),
      Listing(SummerDress, 5999, ProductModel.Clothing, 2, 490, 15, now, 150, 14, 1000),
      Listing(LeatherJacket, 14999, ProductModel.Clothing, 2, 480, 10, now, 75, 6, 0) ]
  }

  /** An order of the fixtures together with the lines attached to it
      through the `items` relationship. */
  datatype OrderFixture = OrderFixture(order: OrderModel.Order, lines: seq<OrderModel.OrderItemCreate>)

  /** A fixture line: quantity, unit price and total as given. */
  function Line(productId: int, quantity: int, unitPrice: int, totalPrice: int): OrderModel.OrderItemCreate {
    OrderModel.OrderItemCreate(productId, quantity, Some(unitPrice), Some(totalPrice))
  }

  /** The text columns of an order fixture. */
  datatype ShippingText = ShippingText(paymentMethod: string, shippingMethod: string, trackingNumber: string,
                                       discountCode: Option<string>)

  const JohnShipping := ShippingText("credit_card", "Standard Shipping", "TN78901234", None)
  const JaneShipping := ShippingText("paypal", "Express Shipping", "TN45678901", Some("SUMMER10"))

  /** A confirmed-payment order fixture; amounts are discount, subtotal,
      tax, shipping and total. */
  function Placed(t: ShippingText, location: Users.Location, estimated: Date, discount: int, subtotal: int,
                  tax: int, shipping: int, shopperId: int, status: OrderModel.OrderStatus, createdAt: Date,
                  delivered: Option<Date>, total: int): OrderModel.Order {
    OrderModel.Order(Some(t.paymentMethod), OrderModel.Confirmed, location, Some(t.shippingMethod),
                     Some(t.trackingNumber), Some(estimated), t.discountCode, discount, subtotal, tax, shipping,
                     Some(shopperId), status, createdAt, Some(createdAt), delivered, Some(total))
  }

  /** The two orders of `get_minimal_orders`, given the week-ago date and
      the date two days ahead. */
  function OrdersAt(now: Date, weekAgo: Date, inTwoDays: Date): (r: seq<OrderFixture>)
    ensures |r| == 2
    ensures r[0].order.createdAt == weekAgo && r[1].order.estimatedDelivery == Some(inTwoDays)
    ensures r[0].order.shopperId == Some(1) && r[1].order.shopperId == Some(2)
    ensures r[0].lines == [Line(1, 1, 99999, 99999), Line(2, 1, 8999, 8999)]
    ensures r[1].lines == [Line(5, 1, 5999, 5999)]
    ensures OrderAddsUp(r[0]) && OrderAddsUp(r[1])
  {
    assert LinesTotal([Line(1, 1, 99999, 99999), Line(2, 1, 8999, 8999)]) == 108998 by {
      assert [Line(1, 1, 99999, 99999), Line(2, 1, 8999, 8999)][1..] == [Line(2, 1, 8999, 8999)];
    }
    [ OrderFixture(Placed(JohnShipping, JohnHome, now, 0, 108998, 10899, 1500, 1, OrderModel.Concluded,
                          weekAgo, Some(now), 121397),
                   [Line(1, 1, 99999, 99999), Line(2, 1, 8999, 8999)]),
      OrderFixture(Placed(JaneShipping, JaneWork, inTwoDays, 600, 5999, 599, 850, 2, OrderModel.InProgress,
                          now, None, 6848),
                   [Line(5, 1, 5999, 5999)]) ]
  }

  /** `get_minimal_orders` with calendar arithmetic for the week-ago and
      in-two-days dates: defined on every date. */
  function MinimalOrders(now: Date): (r: seq<OrderFixture>)
    requires ValidDate(now)
    ensures |r| == 2
    ensures r[0].order.createdAt == AddDays(now, -7) && AddDays(r[0].order.createdAt, 7) == now
    ensures r[1].order.estimatedDelivery == Some(AddDays(now, 2))
    ensures AddDays(r[1].order.estimatedDelivery.value, -2) == now
    ensures r[0].order.shopperId == Some(1) && r[1].order.shopperId == Some(2)
    ensures r[0].lines == [Line(1, 1, 99999, 99999), Line(2, 1, 8999, 8999)]
    ensures r[1].lines == [Line(5, 1, 5999, 5999)]
    ensures OrderAddsUp(r[0]) && OrderAddsUp(r[1])
  {
    var weekAgo, inTwoDays := AddDays(now, -7), AddDays(now, 2);
    assert AddDays(weekAgo, 7) == now by { AddDaysRoundTrip(now, -7); }
    assert AddDays(inTwoDays, -2) == now by { AddDaysRoundTrip(now, 2); }
    OrdersAt(now, weekAgo, inTwoDays)
  }

  /** `get_minimal_orders` as written: `datetime(now.year, now.month,
      now.day - 7)` and `now.day + 2` raise ValueError (None here) when the
      shifted day leaves the month. Where it does not raise it builds the
      same orders as `MinimalOrders`. */
  function MinimalOrdersAsWritten(now: Date): (r: Option<seq<OrderFixture>>)
    requires ValidDate(now)
    ensures r.None? <==> now.day <= 7 || now.day + 2 > DaysInMonth(now.year, now.month)
    ensures r.Some? ==> r.value == MinimalOrders(now)
  {
    match (ReplaceDay(now, -7), ReplaceDay(now, 2))
    case (Some(weekAgo), Some(inTwoDays)) =>
      AddDaysExtendsReplaceDay(now, -7);
      AddDaysExtendsReplaceDay(now, 2);
      Some(OrdersAt(now, weekAgo, inTwoDays))
    case _ => None
  }

  /** Seeding an empty database on 5 March or on 30 January aborts at the
      order generator as written; the calendar version dates the first order
      26 February and the second order's delivery 1 February. */
  lemma AsWrittenOrdersFailNearMonthEnds()
    ensures MinimalOrdersAsWritten(Date(2025, 3, 5)).None?
    ensures MinimalOrders(Date(2025, 3, 5))[0].order.createdAt == Date(2025, 2, 26)
    ensures MinimalOrdersAsWritten(Date(2025, 1, 30)).None?
    ensures MinimalOrders(Date(2025, 1, 30))[1].order.estimatedDelivery == Some(Date(2025, 2, 1))
  {
    WeekAgoFailsEarlyInMonth();
    InTwoDaysFailsAtMonthEnd();
  }

  /** The orders of a list of fixtures. */
  function FixtureOrders(fs: seq<OrderFixture>): (r: seq<OrderModel.Order>)
    ensures |r| == |fs| && forall i :: 0 <= i < |fs| ==> r[i] == fs[i].order
  {
    seq(|fs|, i requires 0 <= i < |fs| => fs[i].order)
  }

  /** The number of lines of a list of fixtures. */
  function LineCount(fs: seq<OrderFixture>): nat {
    if |fs| == 0 then 0 else |fs[0].lines| + LineCount(fs[1..])
  }

  /** The number of lines of the fixtures before position `i`: where the
      lines of fixture `i` start in the flattened list. */
  function LinesBefore(fs: seq<OrderFixture>, i: nat): nat
    requires i <= |fs|
  {
    LineCount(fs[..i])
  }

  /** Counting the lines before position `i + 1` of `fs` is counting the
      first fixture's lines and those before position `i` of the rest. */
  lemma LinesBeforeTail(fs: seq<OrderFixture>, i: nat)
    requires 0 < |fs| && i < |fs|
    ensures LinesBefore(fs, i + 1) == |fs[0].lines| + LinesBefore(fs[1..], i)
  {
    assert fs[..i + 1][1..] == fs[1..][..i];
  }

  /** The lines of one fixture, each attached to the order id `id`. */
  function Attach(lines: seq<OrderModel.OrderItemCreate>, id: int): (r: seq<OrderModel.OrderItem>)
    ensures |r| == |lines| && forall j :: 0 <= j < |lines| ==> r[j] == OrderModel.OrderItemFromCreate(lines[j], id)
  {
    seq(|lines|, j requires 0 <= j < |lines| => OrderModel.OrderItemFromCreate(lines[j], id))
  }

  /** `r` holds the lines of `fs` in order, each attached to the id its
      order receives from `firstId` on: the lines of fixture `i` come right
      after the lines of the fixtures before it, and nothing else. */
  ghost predicate LinesPlaced(fs: seq<OrderFixture>, firstId: int, r: seq<OrderModel.OrderItem>) {
    && |r| == LinesBefore(fs, |fs|)
    && forall i :: 0 <= i < |fs| ==>
         LinesBefore(fs, i) + |fs[i].lines| <= |r|
         && r[LinesBefore(fs, i)..LinesBefore(fs, i) + |fs[i].lines|] == Attach(fs[i].lines, firstId + i)
  }

  /** The first fixture's lines followed by the placed lines of the rest
      are the placed lines of the whole list. */
  lemma PlacedAfterHead(fs: seq<OrderFixture>, firstId: int, tail: seq<OrderModel.OrderItem>)
    requires 0 < |fs|
    requires LinesPlaced(fs[1..], firstId + 1, tail)
    ensures LinesPlaced(fs, firstId, Attach(fs[0].lines, firstId) + tail)
  {
    var rest, head := fs[1..], Attach(fs[0].lines, firstId);
    var r := head + tail;
    LinesBeforeTail(fs, |fs| - 1);
    forall i | 0 <= i < |fs|
      ensures LinesBefore(fs, i) + |fs[i].lines| <= |r|
              && r[LinesBefore(fs, i)..LinesBefore(fs, i) + |fs[i].lines|] == Attach(fs[i].lines, firstId + i)
    {
      if i > 0 {
        LinesBeforeTail(fs, i - 1);
        assert rest[i - 1] == fs[i];
        var lo := LinesBefore(rest, i - 1);
        assert lo + |rest[i - 1].lines| <= |tail|;
        assert r[|head| + lo..|head| + lo + |fs[i].lines|] == tail[lo..lo + |fs[i].lines|];
      } else {
        assert r[0..|fs[0].lines|] == head;
      }
    }
  }

  /** Every line of `r` is a line of some fixture of `fs`, attached to the
      id that fixture's order receives from `firstId` on. */
  ghost predicate LinesBelong(fs: seq<OrderFixture>, firstId: int, r: seq<OrderModel.OrderItem>) {
    && (forall k :: 0 <= k < |r| ==> firstId <= r[k].orderId < firstId + |fs|)
    && (forall k :: 0 <= k < |r| ==>
          exists i, j :: 0 <= i < |fs| && 0 <= j < |fs[i].lines|
                         && r[k] == OrderModel.OrderItemFromCreate(fs[i].lines[j], firstId + i))
  }

  /** The first fixture's lines followed by lines that belong to the rest
      belong to the whole list. */
  lemma BelongAfterHead(fs: seq<OrderFixture>, firstId: int, tail: seq<OrderModel.OrderItem>)
    requires 0 < |fs|
    requires LinesBelong(fs[1..], firstId + 1, tail)
    ensures LinesBelong(fs, firstId, Attach(fs[0].lines, firstId) + tail)
  {
    var head := Attach(fs[0].lines, firstId);
    assert forall k :: 0 <= k < |head| ==> head[k] == OrderModel.OrderItemFromCreate(fs[0].lines[k], firstId + 0);
    forall k | |head| <= k < |head| + |tail|
      ensures exists i, j :: 0 <= i < |fs| && 0 <= j < |fs[i].lines|
                             && (head + tail)[k] == OrderModel.OrderItemFromCreate(fs[i].lines[j], firstId + i)
    {
      var i, j :| 0 <= i < |fs[1..]| && 0 <= j < |fs[1..][i].lines|
                  && tail[k - |head|] == OrderModel.OrderItemFromCreate(fs[1..][i].lines[j], firstId + 1 + i);
      assert fs[1..][i] == fs[i + 1];
    }
  }

  /** The lines of a list of fixtures, in order, each attached to the id its
      order receives when the orders are stored from `firstId` on: all the
      first fixture's lines, then all the second's, and so on, and nothing
      that is not the line of some fixture. */
  function FixtureLines(fs: seq<OrderFixture>, firstId: int): (r: seq<OrderModel.OrderItem>)
    ensures LinesPlaced(fs, firstId, r)
    ensures LinesBelong(fs, firstId, r)
    decreases |fs|
  {
    if |fs| == 0 then []
    else
      var tail := FixtureLines(fs[1..], firstId + 1);
      PlacedAfterHead(fs, firstId, tail);
      BelongAfterHead(fs, firstId, tail);
      Attach(fs[0].lines, firstId) + tail
  }

  /** `after` is `before` with `items` stored under the next ids of its
      sequence, in list order, and every other key as it was. */
  ghost predicate Appended<R>(before: Repository.Table<R>, after: Repository.Table<R>, items: seq<R>) {
    && after.nextId == before.nextId + |items|
    && (forall i :: 0 <= i < |items| ==> Repository.GetItemId(after, before.nextId + i) == Some(items[i]))
    && (forall k :: (k < before.nextId || k >= before.nextId + |items|) ==>
          Repository.GetItemId(after, k) == Repository.GetItemId(before, k))
  }

  /** Seeds one table when `go` holds (the profile has a generator for it
      and the guarding table is empty): the items are stored under the next
      ids of its sequence. Otherwise the table is left as it was. */
  function SeedTableIf<R>(t: Repository.Table<R>, go: bool, items: seq<R>): (r: Repository.Table<R>)
    ensures go ==> Appended(t, r, items)
    ensures !go ==> r == t
    ensures Repository.Valid(t) ==> Repository.Valid(r)
  {
    if go then Repository.AddItems(t, items) else t
  }

  /** What the generators of the minimal profile return: the items each
      table is seeded with. */
  datatype Fixtures = Fixtures(
    vendors: seq<VendorModel.Vendor>,
    shoppers: seq<ShopperModel.Shopper>,
    products: seq<ProductModel.Product>,
    orders: seq<OrderFixture>)

  /** Every generator returns at least one item. */
  predicate NonEmptyFixtures(fx: Fixtures) {
    |fx.vendors| > 0 && |fx.shoppers| > 0 && |fx.products| > 0 && |fx.orders| > 0
  }

  /** The minimal generators, `hash` standing for `create_password_hash`
      and `now` for `datetime.utcnow()`: 2 vendors, 2 shoppers, 6 products
      and 2 orders. */
  function MinimalFixtures(hash: string -> string, now: Date): (fx: Fixtures)
    requires ValidDate(now)
    ensures |fx.vendors| == 2 && |fx.shoppers| == 2 && |fx.products| == 6 && |fx.orders| == 2
    ensures NonEmptyFixtures(fx)
  {
    Fixtures(MinimalVendors(hash), MinimalShoppers(hash), MinimalProducts(now), MinimalOrders(now))
  }

  /** True when the seeding loop fills the table of `kind`: the profile has
      a generator for it and the table is empty. */
  predicate Seeds(db: Db, kind: TableKind, gens: set<TableKind>) {
    kind in gens &&
    match kind
    case VendorTable => Repository.IsEmpty(db.vendors)
    case ShopperTable => Repository.IsEmpty(db.shoppers)
    case ProductTable => Repository.IsEmpty(db.products)
    case OrderTable => Repository.IsEmpty(db.orders)
  }

  /** One iteration of the seeding loop: a model without a generator in the
      profile is skipped, a non-empty table is left alone, an empty one gets
      the generator's items (orders with their lines). */
  function SeedStep(db: Db, kind: TableKind, gens: set<TableKind>, fx: Fixtures): Db {
    var go := Seeds(db, kind, gens);
    match kind
    case VendorTable => db.(vendors := SeedTableIf(db.vendors, go, fx.vendors))
    case ShopperTable => db.(shoppers := SeedTableIf(db.shoppers, go, fx.shoppers))
    case ProductTable => db.(products := SeedTableIf(db.products, go, fx.products))
    case OrderTable =>
      db.(orders := SeedTableIf(db.orders, go, FixtureOrders(fx.orders)),
          orderItems := SeedTableIf(db.orderItems, go, FixtureLines(fx.orders, db.orders.nextId)))
  }

  /** `seed_database`: the seeding loop over `SeedingOrder`. Each table the
      profile has a generator for and that is empty receives exactly the
      generator's items; every other table is unchanged. The order lines
      are seeded with the orders, whatever the line table holds. */
  function SeedDatabase(db: Db, profile: SeedProfile, fx: Fixtures): (r: Db)
    ensures var gens := Registry(profile);
            && (Seeds(db, VendorTable, gens) ==> Appended(db.vendors, r.vendors, fx.vendors))
            && (!Seeds(db, VendorTable, gens) ==> r.vendors == db.vendors)
            && (Seeds(db, ShopperTable, gens) ==> Appended(db.shoppers, r.shoppers, fx.shoppers))
            && (!Seeds(db, ShopperTable, gens) ==> r.shoppers == db.shoppers)
            && (Seeds(db, ProductTable, gens) ==> Appended(db.products, r.products, fx.products))
            && (!Seeds(db, ProductTable, gens) ==> r.products == db.products)
    ensures var gens := Registry(profile);
            && (Seeds(db, OrderTable, gens) ==>
                  && Appended(db.orders, r.orders, FixtureOrders(fx.orders))
                  && Appended(db.orderItems, r.orderItems, FixtureLines(fx.orders, db.orders.nextId)))
            && (!Seeds(db, OrderTable, gens) ==> r.orders == db.orders && r.orderItems == db.orderItems)
    ensures Valid(db) ==> Valid(r)
  {
    var gens := Registry(profile);
    var db1 := SeedStep(db, VendorTable, gens, fx);
    var db2 := SeedStep(db1, ShopperTable, gens, fx);
    var db3 := SeedStep(db2, ProductTable, gens, fx);
    SeedStep(db3, OrderTable, gens, fx)
  }

  /** The testing and full-demo profiles have no generators: seeding with
      them changes nothing. */
  lemma EmptyProfilesSeedNothing(db: Db, fx: Fixtures)
    ensures SeedDatabase(db, Testing, fx) == db
    ensures SeedDatabase(db, FullDemo, fx) == db
  {
  }

  /** When no table the profile seeds is empty, seeding changes nothing. */
  lemma NothingToSeed(db: Db, profile: SeedProfile, fx: Fixtures)
    requires forall kind :: !Seeds(db, kind, Registry(profile))
    ensures SeedDatabase(db, profile, fx) == db
  {
    assert !Seeds(db, VendorTable, Registry(profile)) && !Seeds(db, ShopperTable, Registry(profile));
    assert !Seeds(db, ProductTable, Registry(profile)) && !Seeds(db, OrderTable, Registry(profile));
  }

  /** Seeding is idempotent: after one run every table the profile seeds is
      non-empty, so a second run (even at another time and with other
      salts, so other fixtures) changes nothing. */
  lemma {:induction false} SeedTwiceIsSeedOnce(db: Db, profile: SeedProfile, fx: Fixtures, fx': Fixtures)
    requires NonEmptyFixtures(fx)
    ensures var once := SeedDatabase(db, profile, fx);
            SeedDatabase(once, profile, fx') == once
  {
    var once := SeedDatabase(db, profile, fx);
    var gens := Registry(profile);
    forall kind
      ensures !Seeds(once, kind, gens)
    {
      match kind
      case VendorTable =>
        if Seeds(db, VendorTable, gens) {
          assert Repository.GetItemId(once.vendors, db.vendors.nextId + 0) == Some(fx.vendors[0]);
        }
      case ShopperTable =>
        if Seeds(db, ShopperTable, gens) {
          assert Repository.GetItemId(once.shoppers, db.shoppers.nextId + 0) == Some(fx.shoppers[0]);
        }
      case ProductTable =>
        if Seeds(db, ProductTable, gens) {
          assert Repository.GetItemId(once.products, db.products.nextId + 0) == Some(fx.products[0]);
        }
      case OrderTable =>
        if Seeds(db, OrderTable, gens) {
          assert Repository.GetItemId(once.orders, db.orders.nextId + 0) == Some(FixtureOrders(fx.orders)[0]);
        }
    }
    NothingToSeed(once, profile, fx');
  }

  /** Sum of the line totals of an order; a line without a total adds 0. */
  function LinesTotal(lines: seq<OrderModel.OrderItemCreate>): int
    decreases |lines|
  {
    if |lines| == 0 then 0 else lines[0].totalPrice.GetOr(0) + LinesTotal(lines[1..])
  }

  /** A fixture line's total is its unit price times its quantity, and its
      unit price is the price of the fixture product it names (ids count
      from 1). */
  predicate LinePriced(l: OrderModel.OrderItemCreate, products: seq<ProductModel.Product>) {
    && l.unitPrice.Some? && l.totalPrice == Some(l.unitPrice.value * l.quantity)
    && 1 <= l.productId <= |products|
    && l.unitPrice.value == products[l.productId - 1].price
  }

  /** An order's subtotal is the sum of its lines, and its total is subtotal
      plus tax plus shipping minus discount. */
  predicate OrderAddsUp(f: OrderFixture) {
    && f.order.subtotal == LinesTotal(f.lines)
    && f.order.totalValue == Some(f.order.subtotal + f.order.taxAmount + f.order.shippingCost
                                  - f.order.discountAmount)
  }

  /** The minimal order fixtures are consistent: every line is priced from
      the fixture products and every order adds up. */
  lemma MinimalOrdersAddUp(now: Date)
    requires ValidDate(now)
    ensures var fs := MinimalOrders(now);
            forall i, j :: 0 <= i < |fs| && 0 <= j < |fs[i].lines| ==> LinePriced(fs[i].lines[j], MinimalProducts(now))
    ensures var fs := MinimalOrders(now);
            forall i :: 0 <= i < |fs| ==> OrderAddsUp(fs[i])
  {
    var fs := MinimalOrders(now);
    assert fs[0].lines[0] == Line(1, 1, 99999, 99999) && fs[0].lines[1] == Line(2, 1, 8999, 8999);
    assert fs[1].lines[0] == Line(5, 1, 5999, 5999);
  }

  /** The ids the fixtures hard-code point inside the fixtures themselves,
      counting from 1: each product's vendor among the vendors, each order's
      shopper among the shoppers, each line's product among the products. */
  predicate FixturesClosed(fx: Fixtures) {
    && (forall i :: 0 <= i < |fx.products| ==>
          fx.products[i].vendorId.Some? && 1 <= fx.products[i].vendorId.value <= |fx.vendors|)
    && (forall i :: 0 <= i < |fx.orders| ==>
          fx.orders[i].order.shopperId.Some? && 1 <= fx.orders[i].order.shopperId.value <= |fx.shoppers|)
    && (forall i, j :: 0 <= i < |fx.orders| && 0 <= j < |fx.orders[i].lines| ==>
          1 <= fx.orders[i].lines[j].productId <= |fx.products|)
  }

  /** The minimal fixtures refer only to one another. */
  lemma MinimalFixturesClosed(hash: string -> string, now: Date)
    requires ValidDate(now)
    ensures FixturesClosed(MinimalFixtures(hash, now))
  {
    var fs := MinimalOrders(now);
    assert fs[0].lines[0].productId == 1 && fs[0].lines[1].productId == 2;
    assert fs[1].lines[0].productId == 5;
  }

  /** Each table holds exactly its fixtures under the keys 1, 2, ... */
  ghost predicate HoldsFixtures(db: Db, fx: Fixtures) {
    && (forall k :: k in db.vendors.rows <==> 1 <= k <= |fx.vendors|)
    && (forall k :: k in db.shoppers.rows <==> 1 <= k <= |fx.shoppers|)
    && (forall k :: k in db.products.rows <==> 1 <= k <= |fx.products|)
    && (forall k :: k in db.products.rows ==> db.products.rows[k] == fx.products[k - 1])
    && (forall k :: k in db.orders.rows <==> 1 <= k <= |fx.orders|)
    && (forall k :: k in db.orders.rows ==> db.orders.rows[k] == fx.orders[k - 1].order)
    && (forall k :: k in db.orderItems.rows <==> 1 <= k <= |FixtureLines(fx.orders, 1)|)
    && (forall k :: k in db.orderItems.rows ==> db.orderItems.rows[k] == FixtureLines(fx.orders, 1)[k - 1])
  }

  /** After seeding a freshly migrated database, each table holds exactly
      its fixtures under the keys 1, 2, ... */
  lemma {:induction false} FreshSeedKeys(fx: Fixtures)
    ensures HoldsFixtures(SeedDatabase(EmptyDb, Minimal, fx), fx)
  {
    var db := SeedDatabase(EmptyDb, Minimal, fx);
    FreshTableKeys(db.vendors, fx.vendors);
    FreshTableKeys(db.shoppers, fx.shoppers);
    FreshTableKeys(db.products, fx.products);
    FreshTableKeys(db.orders, FixtureOrders(fx.orders));
    FreshTableKeys(db.orderItems, FixtureLines(fx.orders, 1));
  }

  /** A fresh table with items appended holds item i under key i + 1. */
  lemma {:induction false} FreshTableKeys<R>(t: Repository.Table<R>, items: seq<R>)
    requires Appended(Repository.EmptyTable(), t, items)
    ensures forall k :: k in t.rows <==> 1 <= k <= |items|
    ensures forall k :: k in t.rows ==> t.rows[k] == items[k - 1]
  {
    forall k
      ensures k in t.rows <==> 1 <= k <= |items|
      ensures k in t.rows ==> t.rows[k] == items[k - 1]
    {
      if 1 <= k <= |items| {
        assert Repository.GetItemId(t, 1 + (k - 1)) == Some(items[k - 1]);
      } else {
        assert Repository.GetItemId(t, k) == Repository.GetItemId(Repository.EmptyTable<R>(), k);
      }
    }
  }

  /** No dangling reference: every product's vendor, every order's shopper,
      and every line's product and order exist. */
  predicate ReferentiallyClosed(db: Db) {
    && (forall k :: k in db.products.rows ==>
          db.products.rows[k].vendorId.Some? && db.products.rows[k].vendorId.value in db.vendors.rows)
    && (forall k :: k in db.orders.rows ==>
          db.orders.rows[k].shopperId.Some? && db.orders.rows[k].shopperId.value in db.shoppers.rows)
    && (forall k :: k in db.orderItems.rows ==>
          db.orderItems.rows[k].productId in db.products.rows && db.orderItems.rows[k].orderId in db.orders.rows)
  }

  /** Tables holding closed fixtures under the keys 1, 2, ... have no
      dangling reference. */
  lemma {:induction false} HeldFixturesAreClosed(db: Db, fx: Fixtures)
    requires FixturesClosed(fx) && HoldsFixtures(db, fx)
    ensures ReferentiallyClosed(db)
  {
    var lines := FixtureLines(fx.orders, 1);
    forall k | k in db.orderItems.rows
      ensures db.orderItems.rows[k].productId in db.products.rows && db.orderItems.rows[k].orderId in db.orders.rows
    {
      var i, j :| 0 <= i < |fx.orders| && 0 <= j < |fx.orders[i].lines|
                  && lines[k - 1] == OrderModel.OrderItemFromCreate(fx.orders[i].lines[j], 1 + i);
    }
  }

  /** Seeding a freshly migrated database with closed fixtures leaves no
      dangling reference. The hard-coded ids are right only because every
      sequence starts at 1. */
  lemma {:induction false} FreshSeedIsReferentiallyClosed(fx: Fixtures)
    requires FixturesClosed(fx)
    ensures ReferentiallyClosed(SeedDatabase(EmptyDb, Minimal, fx))
  {
    FreshSeedKeys(fx);
    HeldFixturesAreClosed(SeedDatabase(EmptyDb, Minimal, fx), fx);
  }
}

=== FILE: shopper_model.dfy ===
/** The shopper record and its update schema, in the shape the shopper
    service and the seed fixtures use (server/app/services/shopper/service.py,
    server/app/core/db/seed.py). */
module ShopperModel {
  import opened Exceptions
  import Users
  import Cart
  import Repository

  /** A row of the shopper table (its id is the table key). The cart is the
      JSON column `shopping_cart`; None stands for a missing or empty one. */
  datatype Shopper = Shopper(
    name: string,
    phoneNumber: string,
    email: string,
    status: Users.UserStatus,
    passwordHash: string,
    wishlist: seq<int>,
    searchHistory: seq<string>,
    orderHistory: seq<int>,
    locations: seq<Users.Location>,
    shoppingCart: Option<Cart.Cart>)

  /** ShopperUpdate: the columns a client may change, each optional. */
  datatype ShopperUpdate = ShopperUpdate(
    name: Option<string>,
    phoneNumber: Option<string>,
    email: Option<string>,
    status: Option<Users.UserStatus>,
    shoppingCart: Option<Cart.Cart>)

  predicate NoFieldSet(u: ShopperUpdate) {
    u.name.None? && u.phoneNumber.None? && u.email.None? && u.status.None? && u.shoppingCart.None?
  }

  /** Column names of the update schema. */
  datatype ShopperField = NameF | PhoneNumberF | EmailF | StatusF | ShoppingCartF

  /** A dumped column value, tagged with its column. */
  datatype ShopperValue =
    | NameV(name: string)
    | PhoneNumberV(phoneNumber: string)
    | EmailV(email: string)
    | StatusV(status: Users.UserStatus)
    | ShoppingCartV(shoppingCart: Cart.Cart)

  const AllShopperFields: set<ShopperField> := {NameF, PhoneNumberF, EmailF, StatusF, ShoppingCartF}

  /** The dumped value of one column: its value when set, None otherwise. */
  function DumpField(u: ShopperUpdate, k: ShopperField): Option<ShopperValue> {
    match k
    case NameF => if u.name.Some? then Some(NameV(u.name.value)) else None
    case PhoneNumberF => if u.phoneNumber.Some? then Some(PhoneNumberV(u.phoneNumber.value)) else None
    case EmailF => if u.email.Some? then Some(EmailV(u.email.value)) else None
    case StatusF => if u.status.Some? then Some(StatusV(u.status.value)) else None
    case ShoppingCartF => if u.shoppingCart.Some? then Some(ShoppingCartV(u.shoppingCart.value)) else None
  }

  /** `update.model_dump()`: every column with its value or None. */
  function Dump(u: ShopperUpdate): map<ShopperField, Option<ShopperValue>> {
    map k | k in AllShopperFields :: DumpField(u, k)
  }

  /** The SET clause of the UPDATE statement: each column present in the
      filtered dump takes its value. */
  function Assign(s: Shopper, f: map<ShopperField, ShopperValue>): Shopper {
    s.(
      name := if NameF in f && f[NameF].NameV? then f[NameF].name else s.name,
      phoneNumber := if PhoneNumberF in f && f[PhoneNumberF].PhoneNumberV? then f[PhoneNumberF].phoneNumber else s.phoneNumber,
      email := if EmailF in f && f[EmailF].EmailV? then f[EmailF].email else s.email,
      status := if StatusF in f && f[StatusF].StatusV? then f[StatusF].status else s.status,
      shoppingCart := if ShoppingCartF in f && f[ShoppingCartF].ShoppingCartV? then Some(f[ShoppingCartF].shoppingCart) else s.shoppingCart
    )
  }

  /** Reference meaning of a partial update, field by field: a set field
      takes the new value, an unset one keeps the old. */
  function Patch(s: Shopper, u: ShopperUpdate): Shopper {
    s.(
      name := u.name.GetOr(s.name),
      phoneNumber := u.phoneNumber.GetOr(s.phoneNumber),
      email := u.email.GetOr(s.email),
      status := u.status.GetOr(s.status),
      shoppingCart := if u.shoppingCart.Some? then u.shoppingCart else s.shoppingCart
    )
  }

  /** The filtered dump holds exactly the set columns, each with its value. */
  lemma FilteredDump(u: ShopperUpdate)
    ensures forall k :: k in Repository.NonNoneFields(Dump(u)) <==> DumpField(u, k).Some?
    ensures forall k :: k in Repository.NonNoneFields(Dump(u)) ==>
              Repository.NonNoneFields(Dump(u))[k] == DumpField(u, k).value
  {
    forall k ensures k in Dump(u) && Dump(u)[k] == DumpField(u, k) {
      match k
      case NameF => case PhoneNumberF => case EmailF => case StatusF => case ShoppingCartF =>
    }
  }

  /** Assigning a map that holds exactly the set columns is the patch. */
  lemma AssignSetColumns(s: Shopper, u: ShopperUpdate, f: map<ShopperField, ShopperValue>)
    requires forall k :: k in f <==> DumpField(u, k).Some?
    requires forall k :: k in f ==> f[k] == DumpField(u, k).value
    ensures Assign(s, f) == Patch(s, u)
  {
    assert NameF in f <==> u.name.Some?;
    assert PhoneNumberF in f <==> u.phoneNumber.Some?;
    assert EmailF in f <==> u.email.Some?;
    assert StatusF in f <==> u.status.Some?;
    assert ShoppingCartF in f <==> u.shoppingCart.Some?;
  }

  /** Dumping an update, dropping its None fields and assigning the rest is
      the field-by-field patch. */
  lemma DumpThenAssignIsPatch(s: Shopper, u: ShopperUpdate)
    ensures Assign(s, Repository.NonNoneFields(Dump(u))) == Patch(s, u)
  {
    FilteredDump(u);
    AssignSetColumns(s, u, Repository.NonNoneFields(Dump(u)));
  }

  /** The repository rejects an update exactly when no field is set. */
  lemma DumpAllNoneIffNoFieldSet(u: ShopperUpdate)
    ensures Repository.AllNone(Dump(u)) <==> NoFieldSet(u)
  {
    FilteredDump(u);
    if !NoFieldSet(u) {
      var d := Dump(u);
      if u.name.Some? { assert d[NameF].Some?; }
      else if u.phoneNumber.Some? { assert d[PhoneNumberF].Some?; }
      else if u.email.Some? { assert d[EmailF].Some?; }
      else if u.status.Some? { assert d[StatusF].Some?; }
      else { assert d[ShoppingCartF].Some?; }
    }
  }
}

=== FILE: shopper_service.dfy ===
/** The shopper service (server/app/services/shopper/service.py): lookup or
    NotFound, partial update, delete, and the shopping-cart operations, each
    of which writes the whole cart back through `update_shopper`. The clock
    reading `datetime.utcnow()` is the parameter `now`. */
module ShopperService {
  import opened Exceptions
  import opened Calendar
  import Repository
  import Cart
  import opened ShopperModel
  import opened Database
  import ProductService

  const UserNotFound := "User not found"

  /** `get_shopper_id`: the shopper, or NotFound. */
  function GetShopperId(db: Db, id: int): (r: Result<Shopper>)
    ensures r.Ok? <==> id in db.shoppers.rows
    ensures r.Ok? ==> r.value == db.shoppers.rows[id]
    ensures r.Err? ==> r.error == NotFound(UserNotFound) && r.error.StatusCode() == 404
  {
    match Repository.GetItemId(db.shoppers, id)
    case None => Err(MakeNotFound(DefaultResource, None, Some(UserNotFound)))
    case Some(s) => Ok(s)
  }

  /** `get_shopper_email`: a shopper with that email (the lowest id when
      several share it), or NotFound when none has it. */
  function GetShopperEmail(db: Db, email: string): (r: Result<(int, Shopper)>)
    ensures r.Ok? ==> r.value.0 in db.shoppers.rows && db.shoppers.rows[r.value.0] == r.value.1
                      && r.value.1.email == email
    ensures Valid(db) ==> (r.Err? <==> forall k :: k in db.shoppers.rows ==> db.shoppers.rows[k].email != email)
    ensures r.Err? ==> r.error == NotFound(UserNotFound)
  {
    match Repository.GetItemByProperty(db.shoppers, (s: Shopper) => s.email, email)
    case None => Err(MakeNotFound(DefaultResource, None, Some(UserNotFound)))
    case Some(found) => Ok(found)
  }

  /** `update_shopper`: NotFound for a missing id before the check for an
      empty update; a successful update patches exactly the set fields of
      that one shopper. */
  function UpdateShopper(db: Db, id: int, u: ShopperUpdate): (r: Result<(Db, Shopper)>)
    ensures id !in db.shoppers.rows ==> r == Err(NotFound(UserNotFound))
    ensures id in db.shoppers.rows ==> (r.Err? <==> NoFieldSet(u))
    ensures id in db.shoppers.rows && r.Err? ==> r.error == BadRequest(Repository.NoUpdateData)
    ensures r.Ok? ==> r.value.1 == Patch(db.shoppers.rows[id], u)
                      && Repository.GetItemId(r.value.0.shoppers, id) == Some(r.value.1)
    ensures r.Ok? ==> forall k :: k != id ==>
                        Repository.GetItemId(r.value.0.shoppers, k) == Repository.GetItemId(db.shoppers, k)
    ensures r.Ok? ==> r.value.0 == db.(shoppers := r.value.0.shoppers)
    ensures r.Ok? ==> (Valid(db) ==> Valid(r.value.0))
  {
    var s :- GetShopperId(db, id);
    DumpThenAssignIsPatch(s, u);
    DumpAllNoneIffNoFieldSet(u);
    var (shoppers, updated) :- Repository.UpdateItem(db.shoppers, id, Dump(u), Assign);
    Ok((db.(shoppers := shoppers), updated))
  }

  /** `delete_shopper`: NotFound for a missing id. A shopper some order still
      names cannot go: nothing detaches the orders, and the order.shopper_id
      key refuses the commit. Otherwise the shopper is gone and nothing else
      changes. */
  function DeleteShopper(db: Db, id: int): (r: Result<Db>)
    ensures id !in db.shoppers.rows ==> r == Err(NotFound(UserNotFound))
    ensures id in db.shoppers.rows ==> (r.Err? <==> ShopperHasOrders(db, id))
    ensures id in db.shoppers.rows && r.Err? ==>
              r.error == DatabaseError(OrderShopperColumn) && r.error.StatusCode() == 500
    ensures r.Ok? ==> Repository.GetItemId(r.value.shoppers, id) == None
    ensures r.Ok? ==> forall k :: k != id ==>
                        Repository.GetItemId(r.value.shoppers, k) == Repository.GetItemId(db.shoppers, k)
    ensures r.Ok? ==> r.value == db.(shoppers := r.value.shoppers)
    ensures r.Ok? ==> (Valid(db) ==> Valid(r.value))
  {
    var _ :- GetShopperId(db, id);
    if ShopperHasOrders(db, id) then Err(DatabaseError(OrderShopperColumn))
    else Ok(db.(shoppers := Repository.DeleteItem(db.shoppers, id)))
  }

  /** A delete the database accepts keeps every foreign key naming a stored
      row and every NOT NULL column set. */
  lemma DeleteKeepsForeignKeys(db: Db, id: int)
    requires ForeignKeysHold(db) && NotNullHold(db)
    ensures DeleteShopper(db, id).Ok? ==>
              ForeignKeysHold(DeleteShopper(db, id).value) && NotNullHold(DeleteShopper(db, id).value)
  {
  }

  /** `ShopperUpdate(shopping_cart=cart)`: an update that sets only the cart. */
  function CartUpdate(cart: Cart.Cart): (u: ShopperUpdate)
    ensures !NoFieldSet(u)
  {
    ShopperUpdate(None, None, None, None, Some(cart))
  }

  /** The shopper with only the cart replaced. */
  function WithCart(s: Shopper, cart: Cart.Cart): Shopper {
    s.(shoppingCart := Some(cart))
  }

  /** Writing a cart through `update_shopper` replaces that shopper's cart and
      nothing else; it never meets the "no update data" BadRequest. */
  lemma SaveCart(db: Db, id: int, cart: Cart.Cart)
    requires id in db.shoppers.rows
    ensures UpdateShopper(db, id, CartUpdate(cart)).Ok?
    ensures UpdateShopper(db, id, CartUpdate(cart)).value.1 == WithCart(db.shoppers.rows[id], cart)
  {
  }

  /** `add_to_cart`: NotFound for a missing shopper, then NotFound for a
      missing product (nothing written); otherwise the item is merged into
      the (normalised) cart, the cart is stamped with `now` and saved. */
  function AddToCart(db: Db, shopperId: int, productId: int, quantity: int, now: Date)
    : (r: Result<(Db, Shopper)>)
    ensures shopperId !in db.shoppers.rows ==> r == Err(NotFound(UserNotFound))
    ensures shopperId in db.shoppers.rows && productId !in db.products.rows ==>
              r == Err(NotFound(ProductService.ProductNotFound))
    ensures r.Ok? <==> shopperId in db.shoppers.rows && productId in db.products.rows
    ensures r.Ok? ==>
              var before := Cart.Normalize(db.shoppers.rows[shopperId].shoppingCart);
              r.value.1 == WithCart(db.shoppers.rows[shopperId],
                                    Cart.Cart(Cart.AddEntry(before.items, productId, quantity), Some(now)))
              && Repository.GetItemId(r.value.0.shoppers, shopperId) == Some(r.value.1)
    ensures r.Ok? ==> forall k :: k != shopperId ==>
                        Repository.GetItemId(r.value.0.shoppers, k) == Repository.GetItemId(db.shoppers, k)
    ensures r.Ok? ==> r.value.0 == db.(shoppers := r.value.0.shoppers)
  {
    var s :- GetShopperId(db, shopperId);
    var cart := Cart.Normalize(s.shoppingCart);
    var _ :- ProductService.GetProductId(db, productId);
    var updated := Cart.Cart(Cart.AddEntry(cart.items, productId, quantity), Some(now));
    SaveCart(db, shopperId, updated);
    UpdateShopper(db, shopperId, CartUpdate(updated))
  }

  /** `remove_from_cart`: NotFound for a missing shopper. A shopper without a
      cart gets the empty cart, unstamped. Otherwise the product's first
      entry is decremented or deleted (a product not in the cart leaves the
      items as they are) and the cart is stamped with `now`. The quantity
      defaults to 1, so a call that leaves it out passes `Some(1)`; the
      product id arrives already parsed as an integer. */
  function RemoveFromCart(db: Db, shopperId: int, productId: int, quantity: Option<int>, now: Date)
    : (r: Result<(Db, Shopper)>)
    ensures r.Err? <==> shopperId !in db.shoppers.rows
    ensures r.Err? ==> r.error == NotFound(UserNotFound)
    ensures r.Ok? ==>
              var cart := db.shoppers.rows[shopperId].shoppingCart;
              r.value.1 == WithCart(db.shoppers.rows[shopperId],
                                    if cart.None? then Cart.EmptyCart
                                    else Cart.Cart(Cart.RemoveEntry(cart.value.items, productId, quantity), Some(now)))
              && Repository.GetItemId(r.value.0.shoppers, shopperId) == Some(r.value.1)
    ensures r.Ok? ==> forall k :: k != shopperId ==>
                        Repository.GetItemId(r.value.0.shoppers, k) == Repository.GetItemId(db.shoppers, k)
    ensures r.Ok? ==> r.value.0 == db.(shoppers := r.value.0.shoppers)
  {
    var s :- GetShopperId(db, shopperId);
    var updated := if s.shoppingCart.None? then Cart.EmptyCart
                   else Cart.Cart(Cart.RemoveEntry(s.shoppingCart.value.items, productId, quantity), Some(now));
    SaveCart(db, shopperId, updated);
    UpdateShopper(db, shopperId, CartUpdate(updated))
  }

  /** `clear_shopping_cart`: NotFound for a missing shopper, otherwise the
      cart is emptied and stamped with `now`. */
  function ClearShoppingCart(db: Db, shopperId: int, now: Date): (r: Result<(Db, Shopper)>)
    ensures r.Err? <==> shopperId !in db.shoppers.rows
    ensures r.Err? ==> r.error == NotFound(UserNotFound)
    ensures r.Ok? ==> r.value.1 == WithCart(db.shoppers.rows[shopperId], Cart.Cart([], Some(now)))
                      && Repository.GetItemId(r.value.0.shoppers, shopperId) == Some(r.value.1)
    ensures r.Ok? ==> forall k :: k != shopperId ==>
                        Repository.GetItemId(r.value.0.shoppers, k) == Repository.GetItemId(db.shoppers, k)
    ensures r.Ok? ==> r.value.0 == db.(shoppers := r.value.0.shoppers)
  {
    var _ :- GetShopperId(db, shopperId);
    var updated := Cart.Cart([], Some(now));
    SaveCart(db, shopperId, updated);
    UpdateShopper(db, shopperId, CartUpdate(updated))
  }

  /** Every stored cart lists each product at most once. */
  predicate CartsHaveUniqueProducts(db: Db) {
    forall k :: k in db.shoppers.rows && db.shoppers.rows[k].shoppingCart.Some? ==>
      Cart.UniqueIds(db.shoppers.rows[k].shoppingCart.value.items)
  }

  /** Storing a shopper whose cart is free of duplicates, and changing no
      other shopper, keeps every cart free of duplicates. */
  lemma {:induction false} StoredCartKeepsProductsUnique(db: Db, db': Db, id: int, s: Shopper)
    requires CartsHaveUniqueProducts(db)
    requires Repository.GetItemId(db'.shoppers, id) == Some(s)
    requires forall k :: k != id ==> Repository.GetItemId(db'.shoppers, k) == Repository.GetItemId(db.shoppers, k)
    requires s.shoppingCart.Some? ==> Cart.UniqueIds(s.shoppingCart.value.items)
    ensures CartsHaveUniqueProducts(db')
  {
    forall k | k in db'.shoppers.rows && db'.shoppers.rows[k].shoppingCart.Some?
      ensures Cart.UniqueIds(db'.shoppers.rows[k].shoppingCart.value.items)
    {
      if k != id {
        assert Repository.GetItemId(db'.shoppers, k) == Repository.GetItemId(db.shoppers, k);
      }
    }
  }

  /** Adding to a cart keeps every cart free of duplicate products. */
  lemma {:induction false} AddToCartKeepsProductsUnique(db: Db, shopperId: int, productId: int,
                                                       quantity: int, now: Date)
    requires CartsHaveUniqueProducts(db)
    ensures AddToCart(db, shopperId, productId, quantity, now).Ok? ==>
              CartsHaveUniqueProducts(AddToCart(db, shopperId, productId, quantity, now).value.0)
  {
    var r := AddToCart(db, shopperId, productId, quantity, now);
    if r.Ok? {
      var items := Cart.Normalize(db.shoppers.rows[shopperId].shoppingCart).items;
      assert Cart.UniqueIds(items);
      Cart.AddEntryCounts(items, productId, quantity);
      StoredCartKeepsProductsUnique(db, r.value.0, shopperId, r.value.1);
    }
  }

  /** Removing from a cart keeps every cart free of duplicate products. */
  lemma {:induction false} RemoveFromCartKeepsProductsUnique(db: Db, shopperId: int, productId: int,
                                                            amount: Option<int>, now: Date)
    requires CartsHaveUniqueProducts(db)
    ensures RemoveFromCart(db, shopperId, productId, amount, now).Ok? ==>
              CartsHaveUniqueProducts(RemoveFromCart(db, shopperId, productId, amount, now).value.0)
  {
    var r := RemoveFromCart(db, shopperId, productId, amount, now);
    if r.Ok? {
      var cart := db.shoppers.rows[shopperId].shoppingCart;
      if cart.Some? {
        assert Cart.UniqueIds(Cart.RemoveEntry(cart.value.items, productId, amount));
      }
      StoredCartKeepsProductsUnique(db, r.value.0, shopperId, r.value.1);
    }
  }

  /** Clearing a cart keeps every cart free of duplicate products. */
  lemma {:induction false} ClearShoppingCartKeepsProductsUnique(db: Db, shopperId: int, now: Date)
    requires CartsHaveUniqueProducts(db)
    ensures ClearShoppingCart(db, shopperId, now).Ok? ==>
              CartsHaveUniqueProducts(ClearShoppingCart(db, shopperId, now).value.0)
  {
    var r := ClearShoppingCart(db, shopperId, now);
    if r.Ok? {
      StoredCartKeepsProductsUnique(db, r.value.0, shopperId, r.value.1);
    }
  }

  /** Removing a product the cart does not hold is no error: the items stay
      as they are and only the timestamp moves. */
  lemma RemovingAbsentProductRestampsOnly(db: Db, shopperId: int, productId: int,
                                          quantity: Option<int>, now: Date)
    requires shopperId in db.shoppers.rows
    requires db.shoppers.rows[shopperId].shoppingCart.Some?
    requires Cart.IndexOf(db.shoppers.rows[shopperId].shoppingCart.value.items, productId).None?
    ensures RemoveFromCart(db, shopperId, productId, quantity, now).Ok?
    ensures RemoveFromCart(db, shopperId, productId, quantity, now).value.1.shoppingCart
            == Some(db.shoppers.rows[shopperId].shoppingCart.value.(updatedAt := Some(now)))
  {
  }

  /** After clearing, the cart holds nothing of any product. */
  lemma ClearedCartHoldsNothing(db: Db, shopperId: int, now: Date, productId: int)
    requires ClearShoppingCart(db, shopperId, now).Ok?
    ensures var s := ClearShoppingCart(db, shopperId, now).value.1;
            s.shoppingCart.Some? && Cart.QuantityOf(s.shoppingCart.value.items, productId) == 0
            && Cart.Ids(s.shoppingCart.value.items) == {}
  {
  }

  /** Adding 2 and then 3 units of a product to an empty cart leaves one entry
      with 5 units. */
  lemma AddTwiceMerges(db: Db, shopperId: int, productId: int, now: Date)
    requires shopperId in db.shoppers.rows && productId in db.products.rows
    requires db.shoppers.rows[shopperId].shoppingCart.None?
    ensures var first := AddToCart(db, shopperId, productId, 2, now);
            first.Ok? && AddToCart(first.value.0, shopperId, productId, 3, now).Ok?
            && AddToCart(first.value.0, shopperId, productId, 3, now).value.1.shoppingCart
               == Some(Cart.Cart([Cart.Entry(productId, 5)], Some(now)))
  {
    var first := AddToCart(db, shopperId, productId, 2, now);
    assert Cart.AddEntry([], productId, 2) == [Cart.Entry(productId, 2)];
    assert Cart.AddEntry([], productId, 5) == [Cart.Entry(productId, 5)];
    Cart.AddEntryMerges([], productId, 2, 3);
    var db' := first.value.0;
    assert db'.shoppers.rows[shopperId].shoppingCart == Some(Cart.Cart([Cart.Entry(productId, 2)], Some(now)));
  }
}

=== FILE: text.dfy ===
/** Python's decimal rendering of an `int` inside an f-string
    (`f"Product with id {item.product_id} not found"`), with the parser that
    reads it back. */
module Text {
  import opened Exceptions

  predicate IsDigit(c: char) {
    '0' <= c <= '9'
  }

  predicate AllDigits(s: string) {
    forall i :: 0 <= i < |s| ==> IsDigit(s[i])
  }

  function DigitChar(d: int): (c: char)
    requires 0 <= d < 10
    ensures IsDigit(c) && c as int - '0' as int == d
  {
    ('0' as int + d) as char
  }

  /** Decimal digits of a natural number, most significant first, no
      leading zeros. */
  function NatToString(n: nat): (s: string)
    ensures |s| > 0 && AllDigits(s)
    decreases n
  {
    if n < 10 then [DigitChar(n)] else NatToString(n / 10) + [DigitChar(n % 10)]
  }

  /** `str(n)`: a minus sign in front of the digits of a negative number. */
  function IntToString(n: int): (s: string)
    ensures |s| > 0
    ensures n < 0 <==> s[0] == '-'
  {
    if n < 0 then "-" + NatToString(-n) else NatToString(n)
  }

  /** The value of a string of decimal digits. */
  function DigitsValue(s: string): nat
    requires AllDigits(s)
    decreases |s|
  {
    if |s| == 0 then 0
    else DigitsValue(s[..|s| - 1]) * 10 + (s[|s| - 1] as int - '0' as int)
  }

  /** `int(s)` restricted to an optional minus sign followed by digits. */
  function ParseInt(s: string): Option<int> {
    if |s| > 1 && s[0] == '-' && AllDigits(s[1..]) then (var v: int := DigitsValue(s[1..]); Some(-v))
    else if |s| > 0 && AllDigits(s) then Some(DigitsValue(s))
    else None
  }

  lemma {:induction false} NatToStringRoundTrip(n: nat)
    ensures DigitsValue(NatToString(n)) == n
    decreases n
  {
    if n >= 10 {
      var s := NatToString(n);
      NatToStringRoundTrip(n / 10);
      assert s[..|s| - 1] == NatToString(n / 10);
    }
  }

  /** Rendering an integer and reading it back gives the same integer, so the
      rendering is injective. */
  lemma IntToStringRoundTrip(n: int)
    ensures ParseInt(IntToString(n)) == Some(n)
  {
    if n < 0 {
      NatToStringRoundTrip(-n);
      assert IntToString(n)[1..] == NatToString(-n);
    } else {
      NatToStringRoundTrip(n);
    }
  }
}

=== FILE: users.dfy ===
/** What shoppers and vendors share (server/app/core/db/user.py and
    server/app/core/models/common.py): the account status and the address
    record. */
module Users {
  import opened Exceptions

  datatype UserStatus = Active | Inactive

  /** The string each StrEnum member stands for. */
  function UserStatusValue(s: UserStatus): string {
    match s
    case Active => "ACTIVE"
    case Inactive => "INACTIVE"
  }

  /** `UserStatus(s)`: the member with that value, if any. */
  function ParseUserStatus(s: string): (r: Option<UserStatus>)
    ensures r.Some? ==> UserStatusValue(r.value) == s
  {
    if s == "ACTIVE" then Some(Active)
    else if s == "INACTIVE" then Some(Inactive)
    else None
  }

  /** Parsing a member's value gives the member back. */
  lemma UserStatusRoundTrip(s: UserStatus)
    ensures ParseUserStatus(UserStatusValue(s)) == Some(s)
  {
  }

  /** An address, stored as JSON (`type` is a reserved word here, hence
      `kind`). */
  datatype Location = Location(
    kind: string,
    street: string,
    number: string,
    complement: Option<string>,
    zipCode: string,
    city: string,
    state: string,
    country: string)
}

=== FILE: vendor_model.dfy ===
/** The vendor record and its update schema, in the shape the vendor
    service and the seed fixtures use (server/app/services/vendor/service.py,
    server/app/core/db/seed.py). */
module VendorModel {
  import opened Exceptions
  import Users
  import Repository

  /** A row of the vendor table (its id is the table key). Rating and
      commission are in hundredths. */
  datatype Vendor = Vendor(
    name: string,
    phoneNumber: string,
    email: string,
    status: Users.UserStatus,
    passwordHash: string,
    rating: int,
    commission: int,
    specialty: string,
    locations: seq<Users.Location>)

  /** VendorUpdate: the columns a client may change, each optional. */
  datatype VendorUpdate = VendorUpdate(
    name: Option<string>,
    phoneNumber: Option<string>,
    email: Option<string>,
    status: Option<Users.UserStatus>,
    specialty: Option<string>)

  predicate NoFieldSet(u: VendorUpdate) {
    u.name.None? && u.phoneNumber.None? && u.email.None? && u.status.None? && u.specialty.None?
  }

  /** Column names of the update schema. */
  datatype VendorField = NameF | PhoneNumberF | EmailF | StatusF | SpecialtyF

  /** A dumped column value, tagged with its column. */
  datatype VendorValue =
    | NameV(name: string)
    | PhoneNumberV(phoneNumber: string)
    | EmailV(email: string)
    | StatusV(status: Users.UserStatus)
    | SpecialtyV(specialty: string)

  const AllVendorFields: set<VendorField> := {NameF, PhoneNumberF, EmailF, StatusF, SpecialtyF}

  /** The dumped value of one column: its value when set, None otherwise. */
  function DumpField(u: VendorUpdate, k: VendorField): Option<VendorValue> {
    match k
    case NameF => if u.name.Some? then Some(NameV(u.name.value)) else None
    case PhoneNumberF => if u.phoneNumber.Some? then Some(PhoneNumberV(u.phoneNumber.value)) else None
    case EmailF => if u.email.Some? then Some(EmailV(u.email.value)) else None
    case StatusF => if u.status.Some? then Some(StatusV(u.status.value)) else None
    case SpecialtyF => if u.specialty.Some? then Some(SpecialtyV(u.specialty.value)) else None
  }

  /** `update.model_dump()`: every column with its value or None. */
  function Dump(u: VendorUpdate): map<VendorField, Option<VendorValue>> {
    map k | k in AllVendorFields :: DumpField(u, k)
  }

  /** The SET clause of the UPDATE statement: each column present in the
      filtered dump takes its value. */
  function Assign(v: Vendor, f: map<VendorField, VendorValue>): Vendor {
    v.(
      name := if NameF in f && f[NameF].NameV? then f[NameF].name else v.name,
      phoneNumber := if PhoneNumberF in f && f[PhoneNumberF].PhoneNumberV? then f[PhoneNumberF].phoneNumber else v.phoneNumber,
      email := if EmailF in f && f[EmailF].EmailV? then f[EmailF].email else v.email,
      status := if StatusF in f && f[StatusF].StatusV? then f[StatusF].status else v.status,
      specialty := if SpecialtyF in f && f[SpecialtyF].SpecialtyV? then f[SpecialtyF].specialty else v.specialty
    )
  }

  /** Reference meaning of a partial update, field by field: a set field
      takes the new value, an unset one keeps the old. */
  function Patch(v: Vendor, u: VendorUpdate): Vendor {
    v.(
      name := u.name.GetOr(v.name),
      phoneNumber := u.phoneNumber.GetOr(v.phoneNumber),
      email := u.email.GetOr(v.email),
      status := u.status.GetOr(v.status),
      specialty := u.specialty.GetOr(v.specialty)
    )
  }

  /** The filtered dump holds exactly the set columns, each with its value. */
  lemma FilteredDump(u: VendorUpdate)
    ensures forall k :: k in Repository.NonNoneFields(Dump(u)) <==> DumpField(u, k).Some?
    ensures forall k :: k in Repository.NonNoneFields(Dump(u)) ==>
              Repository.NonNoneFields(Dump(u))[k] == DumpField(u, k).value
  {
    forall k ensures k in Dump(u) && Dump(u)[k] == DumpField(u, k) {
      match k
      case NameF => case PhoneNumberF => case EmailF => case StatusF => case SpecialtyF =>
    }
  }

  /** Assigning a map that holds exactly the set columns is the patch. */
  lemma AssignSetColumns(v: Vendor, u: VendorUpdate, f: map<VendorField, VendorValue>)
    requires forall k :: k in f <==> DumpField(u, k).Some?
    requires forall k :: k in f ==> f[k] == DumpField(u, k).value
    ensures Assign(v, f) == Patch(v, u)
  {
    assert NameF in f <==> u.name.Some?;
    assert PhoneNumberF in f <==> u.phoneNumber.Some?;
    assert EmailF in f <==> u.email.Some?;
    assert StatusF in f <==> u.status.Some?;
    assert SpecialtyF in f <==> u.specialty.Some?;
  }

  /** Dumping an update, dropping its None fields and assigning the rest is
      the field-by-field patch. */
  lemma DumpThenAssignIsPatch(v: Vendor, u: VendorUpdate)
    ensures Assign(v, Repository.NonNoneFields(Dump(u))) == Patch(v, u)
  {
    FilteredDump(u);
    AssignSetColumns(v, u, Repository.NonNoneFields(Dump(u)));
  }

  /** The repository rejects an update exactly when no field is set. */
  lemma DumpAllNoneIffNoFieldSet(u: VendorUpdate)
    ensures Repository.AllNone(Dump(u)) <==> NoFieldSet(u)
  {
    FilteredDump(u);
    if !NoFieldSet(u) {
      var d := Dump(u);
      if u.name.Some? { assert d[NameF].Some?; }
      else if u.phoneNumber.Some? { assert d[PhoneNumberF].Some?; }
      else if u.email.Some? { assert d[EmailF].Some?; }
      else if u.status.Some? { assert d[StatusF].Some?; }
      else { assert d[SpecialtyF].Some?; }
    }
  }
}

=== FILE: vendor_service.dfy ===
/** The vendor service (server/app/services/vendor/service.py): lookup by id
    or email, partial update and delete, each failing with NotFound when the
    vendor does not exist. Deleting a vendor detaches its products. */
module VendorService {
  import opened Exceptions
  import Repository
  import opened VendorModel
  import ProductModel
  import opened Database

  const UserNotFound := "User not found"

  /** `get_vendor_id`: the vendor, or NotFound. */
  function GetVendorId(db: Db, id: int): (r: Result<Vendor>)
    ensures r.Ok? <==> id in db.vendors.rows
    ensures r.Ok? ==> r.value == db.vendors.rows[id]
    ensures r.Err? ==> r.error == NotFound(UserNotFound) && r.error.StatusCode() == 404
  {
    match Repository.GetItemId(db.vendors, id)
    case None => Err(MakeNotFound(DefaultResource, None, Some(UserNotFound)))
    case Some(v) => Ok(v)
  }

  /** `get_vendor_email`: a vendor with that email (the lowest id when
      several share it), or NotFound when none has it. */
  function GetVendorEmail(db: Db, email: string): (r: Result<(int, Vendor)>)
    ensures r.Ok? ==> r.value.0 in db.vendors.rows && db.vendors.rows[r.value.0] == r.value.1
                      && r.value.1.email == email
    ensures Valid(db) ==> (r.Err? <==> forall k :: k in db.vendors.rows ==> db.vendors.rows[k].email != email)
    ensures r.Err? ==> r.error == NotFound(UserNotFound)
  {
    match Repository.GetItemByProperty(db.vendors, (v: Vendor) => v.email, email)
    case None => Err(MakeNotFound(DefaultResource, None, Some(UserNotFound)))
    case Some(found) => Ok(found)
  }

  /** `update_vendor`: NotFound for a missing id before the check for an
      empty update; a successful update patches exactly the set fields of
      that one vendor. */
  function UpdateVendor(db: Db, id: int, u: VendorUpdate): (r: Result<(Db, Vendor)>)
    ensures id !in db.vendors.rows ==> r == Err(NotFound(UserNotFound))
    ensures id in db.vendors.rows ==> (r.Err? <==> NoFieldSet(u))
    ensures id in db.vendors.rows && r.Err? ==> r.error == BadRequest(Repository.NoUpdateData)
    ensures r.Ok? ==> r.value.1 == Patch(db.vendors.rows[id], u)
                      && Repository.GetItemId(r.value.0.vendors, id) == Some(r.value.1)
    ensures r.Ok? ==> forall k :: k != id ==>
                        Repository.GetItemId(r.value.0.vendors, k) == Repository.GetItemId(db.vendors, k)
    ensures r.Ok? ==> r.value.0 == db.(vendors := r.value.0.vendors)
    ensures r.Ok? ==> (Valid(db) ==> Valid(r.value.0))
  {
    var v :- GetVendorId(db, id);
    DumpThenAssignIsPatch(v, u);
    DumpAllNoneIffNoFieldSet(u);
    var (vendors, updated) :- Repository.UpdateItem(db.vendors, id, Dump(u), Assign);
    Ok((db.(vendors := vendors), updated))
  }

  /** A product detached from the vendor: its vendor id is NULL when it named
      that vendor. */
  function Detach(p: ProductModel.Product, vendorId: int): ProductModel.Product {
    if p.vendorId == Some(vendorId) then p.(vendorId := None) else p
  }

  /** `delete_vendor`: NotFound for a missing id. Otherwise the vendor is
      gone, and its products stay with a NULL vendor id: `Product.vendor`
      back-populates `Vendor.products`, and the ORM's default cascade detaches
      the children of a deleted parent. Nothing else changes. */
  function DeleteVendor(db: Db, id: int): (r: Result<Db>)
    ensures r.Err? <==> id !in db.vendors.rows
    ensures r.Err? ==> r.error == NotFound(UserNotFound)
    ensures r.Ok? ==> !VendorHasProducts(r.value, id)
    ensures r.Ok? ==> r.value.products.nextId == db.products.nextId
    ensures r.Ok? ==> forall k :: k in r.value.products.rows <==> k in db.products.rows
    ensures r.Ok? ==> forall k :: k in db.products.rows ==>
              r.value.products.rows[k].(vendorId := db.products.rows[k].vendorId) == db.products.rows[k]
              && (r.value.products.rows[k].vendorId == db.products.rows[k].vendorId
                  <==> db.products.rows[k].vendorId != Some(id))
    ensures r.Ok? ==> forall k :: k in db.products.rows && db.products.rows[k].vendorId == Some(id) ==>
              r.value.products.rows[k].vendorId == None
    ensures r.Ok? ==> Repository.GetItemId(r.value.vendors, id) == None
    ensures r.Ok? ==> forall k :: k != id ==>
                        Repository.GetItemId(r.value.vendors, k) == Repository.GetItemId(db.vendors, k)
    ensures r.Ok? ==> r.value == db.(vendors := r.value.vendors, products := r.value.products)
    ensures r.Ok? ==> (Valid(db) ==> Valid(r.value))
  {
    var _ :- GetVendorId(db, id);
    var products := db.products.(rows := map k | k in db.products.rows :: Detach(db.products.rows[k], id));
    Ok(db.(vendors := Repository.DeleteItem(db.vendors, id), products := products))
  }

  /** A delete the database accepts keeps every foreign key naming a stored
      row and every NOT NULL column set. */
  lemma DeleteKeepsForeignKeys(db: Db, id: int)
    requires ForeignKeysHold(db) && NotNullHold(db)
    ensures DeleteVendor(db, id).Ok? ==>
              ForeignKeysHold(DeleteVendor(db, id).value) && NotNullHold(DeleteVendor(db, id).value)
  {
  }

  /** An update that sets only the email makes the vendor findable by the new
      email, unless a vendor with a lower id already has it. */
  lemma UpdatedEmailIsFound(db: Db, id: int, email: string)
    requires Valid(db) && id in db.vendors.rows
    requires forall k :: k in db.vendors.rows && k < id ==> db.vendors.rows[k].email != email
    ensures var r := UpdateVendor(db, id, VendorUpdate(None, None, Some(email), None, None));
            r.Ok? && GetVendorEmail(r.value.0, email) == Ok((id, r.value.1))
  {
    var r := UpdateVendor(db, id, VendorUpdate(None, None, Some(email), None, None));
    var db' := r.value.0;
    var found := Repository.GetItemByProperty(db'.vendors, (v: Vendor) => v.email, email);
    assert db'.vendors.rows[id].email == email;
    assert found.Some?;
    assert found.value.0 == id;
  }
}
